=== FILE: README.md ===
# gemini-file-tools, modelled in Dafny

gemini-file-tools manages files stored with the Gemini Files API through two
front ends. One is a command-line tool (`gemini-files files upload|list|get|delete|download`).
The other is an MCP server speaking JSON-RPC over stdio, with `Content-Length` framing.
Both share a files client, an error taxonomy and a safety gate. The gate decides
from a mode (`read-only`, `balanced`, `unsafe`) and a per-call flag (`--force`
or `confirm`) whether a write operation may proceed.

This project models the decision logic of that core as pure Dafny functions
over immutable datatypes and proves the properties the code and its tests promise.

- `wrappers.dfy` (`Wrappers`): `Option`, `Result` and `Outcome` (success or a failure value).
- `values.dfy` (`Values`): the JavaScript values the code inspects.
  - Strings, numbers, objects and plain `Error` instances.
  - The two error classes of the shared package (`GeminiFilesError` and its validation subclass).
  - Commander's parse errors.
- `text.dfy` (`Text`): string helpers.
  - `indexOf`, `split`, `startsWith`, lower-casing and trimming.
  - Decimal rendering, and a `Number()` reader for optionally signed decimal integers.
- `safety.dfy` (`Safety`): `packages/common/src/safety.ts`.
- `errors.dfy` (`Errors`): classification of raw failures (`packages/common/src/errors.ts`).
- `diagnostics.dfy` (`Diagnostics`): `renderError` and `normalizeCommanderMessage`, which both entry points define identically.
- `stdio.dfy` (`Stdio`): the frame encoder, the frame decoder and the per-chunk buffer update of the MCP transport.
- `files_types.dfy` (`FilesTypes`): the client's records.
  - The client is an abstract capability: a record of functions returning `Result`.
  - A trace of `Effect`s records every client call and file write.
- `files_client.dfy` (`FilesClient`): `packages/common/src/files-client.ts`.
  - The Google SDK is a parameter (`Sdk`).
- `tool_errors.dfy` (`ToolErrors`): `mapToolError` of the MCP server.
- `server.ts` is modelled in `server.dfy` (`Server`):
  - the tool catalogue;
  - argument checks;
  - tool dispatch;
  - JSON-RPC request handling.
- `environment.dfy` (`Environment`): the process environment as a map, the default base URL, and the positive-number check.
- `mcp_startup.dfy` (`McpStartup`): configuration resolution and exit routing of the MCP entry point.
- `cli_client.dfy` (`CliClient`): `createClientFromOptions` of the command-line tool.
- `cli_commands.dfy` (`CliCommands`): the five verb handlers. Their output is a list of printed items.
- `cli_main.dfy` (`CliMain`): exit codes, the help short-circuit, mode resolution and the catch routing of `runCli`.

Thrown exceptions are modelled as `Err`/`Fail` results carrying the thrown value.
A command's run returns its outcome, the client calls it made, in order, and what it printed.
"Denied ⇒ no client call" therefore reads as "denied ⇒ empty effect trace".

## Model

| member | source | states |
|---|---|---|
| Safety.ParseSafetyMode | packages/common/src/safety.ts:13-25 | A mode name parses to exactly that mode. An absent or empty text is "no mode". Any other text is a validation error. |
| Safety.ResolveSafetyMode | packages/common/src/safety.ts:27-34 | Every failure of mode resolution is a validation error. |
| Safety.ResolvePrecedence | packages/common/src/safety.ts:27-34 | A valid flag wins. With no flag (absent or empty), a valid environment value wins. With neither, the default applies, and it is `read-only` when none is given. |
| Safety.ResolveRejectsUnknown | packages/common/src/safety.ts:13-34 | A non-empty unknown name at the level reached (flag, or environment when no flag) is an error. |
| Safety.EnforceCliSafety | packages/common/src/safety.ts:36-56 | The CLI gate passes exactly when the mode permits the operation with the `--force` flag, and every denial is a validation error. |
| Safety.EnforceMcpSafety | packages/common/src/safety.ts:58-78 | The MCP gate passes exactly when the mode permits the operation with `confirm`, and every denial is a validation error. |
| Safety.GatesAgree | packages/common/src/safety.ts:36-78 | Both gates make the same allow/deny decision on the same mode, operation and flag. |
| Safety.GateByMode | packages/common/src/safety.ts:9-56 | Reads pass in every mode and with every flag. `read-only` denies every write even when forced. `balanced` allows a write iff the flag is set. `unsafe` allows everything. |
| Values.NewValidationError | packages/common/src/errors.ts:35-45 | A validation error always has code `VALIDATION_ERROR`, is not retryable, has no status, and keeps its message and details. |
| Values.MaybeString | packages/common/src/errors.ts:55-57 | A value is kept as a string exactly when it is one. |
| Values.MaybeNumber | packages/common/src/errors.ts:51-53 | A value is kept as a number exactly when it is one. |
| Errors.ParseStatus | packages/common/src/errors.ts:59-66 | The status is the first numeric field among `status`, `statusCode` and `code`. Non-objects have none. |
| Errors.ParseMessage | packages/common/src/errors.ts:68-82 | The message is never empty. It is the non-empty `message` field when there is one, otherwise "Unknown error". |
| Errors.NormalizeGeminiFilesError | packages/common/src/errors.ts:84-131 | Errors of the shared classes come back unchanged. Anything else is classified: `AUTH_ERROR` iff status 401/403; `API_ERROR` iff any other status; `NETWORK_ERROR` iff no status and an `Error`; `INTERNAL_ERROR` otherwise. Message, status and details are kept. Retryable follows the per-code policy. |
| Errors.NormalizeKeepsValidationApart | packages/common/src/errors.ts:84-131 | Classification never invents a validation error. The result is a validation-class error iff the input already was one. |
| Errors.NormalizeIdempotent | packages/common/src/errors.ts:85-87 | Normalising a normalised error changes nothing. |
| Errors.NormalizeForbidden | packages/common/src/errors.ts:92-101 | A 403 failure is a non-retryable `AUTH_ERROR` that keeps its status and message. |
| Errors.NormalizeRateLimited | packages/common/src/errors.ts:103-112 | A 429 failure is a retryable `API_ERROR`. |
| Errors.NormalizeBadRequest | packages/common/src/errors.ts:103-112 | A 400 failure is a non-retryable `API_ERROR`. |
| Errors.NormalizeOffline | packages/common/src/errors.ts:114-121 | A status-less `Error` is a retryable `NETWORK_ERROR` carrying the error's message. |
| Errors.NormalizeThrownString | packages/common/src/errors.ts:124-130 | A thrown string is a non-retryable `INTERNAL_ERROR` with message "Unknown error". |
| ToolErrors.MapToolError | packages/gemini-files-mcp/src/errors.ts:5-40 | A validation error maps to `VALIDATION_ERROR` with its message and details, not retryable. Another shared error keeps its code, message and retryable flag. Plain `Error`s and other values become non-retryable `INTERNAL_ERROR` with no details, with "Unknown error" for non-`Error`s. |
| ToolErrors.PayloadDetails | packages/gemini-files-mcp/src/errors.ts:20-23 | With a status, the details carry `status` and the original details. Without one, the details pass through unchanged. |
| ToolErrors.ToolErrorKeepsKinds | packages/gemini-files-mcp/src/errors.ts:5-25 | The structured code is `VALIDATION_ERROR` exactly for shared errors whose code is `VALIDATION_ERROR`, so policy and backend kinds stay apart, and only a retryable shared error is reported as retryable. |
| ToolErrors.ToolErrorOfClassified | packages/gemini-files-mcp/src/errors.ts:15-24 | A classified backend failure keeps its classification through the tool-error mapping. |
| Diagnostics.RenderError | packages/gemini-files-cli/src/index.ts:60-68 | An `Error` renders as its message, a string as itself, anything else as "Unknown error: " followed by its text. |
| Diagnostics.NormalizeCommanderMessage | packages/gemini-files-cli/src/index.ts:94-96 | An "error:" prefix and the spaces after it are dropped. Other messages are unchanged. |
| Stdio.DecodeFrames | packages/gemini-files-mcp/src/stdio.ts:10-46 | Decoding never returns more text than it was given. |
| Stdio.DecodeFramesLoop | packages/gemini-files-mcp/src/stdio.ts:10-46 | The source's scan-and-slice loop computes the same requests and rest as the recursive definition. |
| Stdio.DecodeFramesStops | packages/gemini-files-mcp/src/stdio.ts:14-45 | Decoding stops only where no complete frame can be taken from the rest. |
| Stdio.DecodeFramesRestIsSuffix | packages/gemini-files-mcp/src/stdio.ts:14-45 | What decoding leaves is a suffix of the input. |
| Stdio.NoTerminatorNoFrames | packages/gemini-files-mcp/src/stdio.ts:15-18 | A buffer without a blank line yields no requests and is returned whole. |
| Stdio.BadHeaderStops | packages/gemini-files-mcp/src/stdio.ts:20-31 | A header block without a usable content length stops decoding with the whole buffer left in place. |
| Stdio.TruncatedFrameUntouched | packages/gemini-files-mcp/src/stdio.ts:33-37 | Any strict prefix of an encoded frame decodes to nothing and is left untouched, so partial frames are never dropped. |
| Stdio.SourceDecoderReadsHeaders | packages/gemini-files-mcp/src/stdio.ts:20-31 | The decoder's case-insensitive header search and number reading recover the length from every header the encoder writes. |
| Stdio.NextFrameOfEncoded | packages/gemini-files-mcp/src/stdio.ts:5-43 | An encoded frame, followed by anything, decodes to its body first and consumes exactly the frame, when the decoder counts the body as the encoder does. |
| Stdio.DecodeEncodeAll | packages/gemini-files-mcp/src/stdio.ts:5-43 | A stream of encoded frames decodes to its bodies, in order, with nothing left over, whenever the decoder counts each body as the encoder does. |
| Stdio.AsciiRoundTripAsWritten | packages/gemini-files-mcp/src/stdio.ts:5-43 | The decoder as written round-trips any sequence of ASCII bodies. |
| Stdio.Utf8RoundTrip | packages/gemini-files-mcp/src/stdio.ts:5-8 | A decoder that counts UTF-8 bytes round-trips every sequence of bodies. |
| Stdio.AsWrittenRoundTripFails | packages/gemini-files-mcp/src/stdio.ts:7-39 | For the body "é", the encoder declares 2 bytes. The decoder as written never yields that frame, while the byte-counting decoder does. |
| Stdio.Receive | packages/gemini-files-mcp/src/stdio.ts:56-59 | After each chunk the kept buffer holds no complete frame. |
| Stdio.DecodeAppend | packages/gemini-files-mcp/src/stdio.ts:56-59 | Decoding a buffer in two parts yields the first part's requests, then the requests of its rest joined with the second part. |
| Stdio.ChunkingInvariant | packages/gemini-files-mcp/src/stdio.ts:56-61 | Feeding chunks one at a time yields the same requests, in order, and the same rest as decoding their concatenation. |
| Stdio.SplitStreamDelivers | packages/gemini-files-mcp/src/stdio.ts:56-61 | Well-formed frames split at any point across two chunks deliver all their bodies, in order, and leave an empty buffer. |
| FilesClient.ToHttpOptions | packages/common/src/files-client.ts:62-77 | Timeout and base URL pass through. A `User-Agent` header is set iff the user agent is non-empty, and then it is the only header. |
| FilesClient.CreateGeminiFilesClient | packages/common/src/files-client.ts:85-93 | Client creation fails, with a validation error, exactly when the key is empty. Otherwise the connection carries the key and the derived HTTP options. |
| FilesClient.NormalizeFileName | packages/common/src/files-client.ts:58-60 | The result always starts with `files/`. An already-prefixed name is unchanged. Any other name gets the prefix. |
| FilesClient.NormalizeFileNameIdempotent | packages/common/src/files-client.ts:58-60 | Normalising twice is normalising once. |
| FilesClient.MapGeminiFile | packages/common/src/files-client.ts:33-56 | Mapping succeeds iff `name` is a non-empty string; otherwise it is a validation error carrying the raw value. Each optional field is kept exactly when it is a string. |
| FilesClient.MapGeminiFileOfFileValue | packages/common/src/files-client.ts:37-56 | A file rendered as a raw SDK object maps back to itself. |
| FilesClient.MapPage | packages/common/src/files-client.ts:125 | A page maps iff every entry maps, element by element and in order. |
| FilesClient.MapPageFirstFailure | packages/common/src/files-client.ts:125 | A failing page reports the error of its first unmappable entry. |
| FilesClient.NextPageTokenFromPager | packages/common/src/files-client.ts:79-83 | The next-page token is exactly the pager's `params.config.pageToken`, when present. |
| FilesClient.Deliver | packages/common/src/files-client.ts:109-145 | An SDK failure is rethrown normalised. An SDK answer goes through the file mapping. |
| FilesClient.UploadFile | packages/common/src/files-client.ts:96-114 | An empty path is a validation error. Otherwise the SDK's answer or failure is delivered. |
| FilesClient.ListFiles | packages/common/src/files-client.ts:116-133 | SDK failures are normalised. A page succeeds iff every file maps, and then it returns the files and the pager's token. |
| FilesClient.GetFile | packages/common/src/files-client.ts:135-146 | An empty name is a validation error. Otherwise the SDK is asked for the normalised name. |
| FilesClient.DeleteFile | packages/common/src/files-client.ts:148-158 | An empty name is a validation error. Otherwise the SDK deletes the normalised name, and its failure is normalised. |
| FilesClient.DownloadFile | packages/common/src/files-client.ts:160-175 | An empty name is a validation error. Otherwise the downloaded bytes are returned, or the SDK's failure normalised. |
| FilesClient.EmptyInputsNeverReachSdk | packages/common/src/files-client.ts:96-163 | With an empty path or name, each client method fails with a validation error, and its result does not depend on the SDK. |
| FilesClient.GetFileRejections | packages/common/src/files-client.ts:135-146 | A failed `getFile` is a validation error or the SDK's failure normalised. A successful one has a non-empty name. |
| Server.CatalogueEntry | packages/gemini-files-mcp/src/server.ts:28-118 | Each catalogue entry is read-only-hinted iff its operation is a read. It asks for `confirm` iff the operation is a write. It is destructive iff it deletes. Its required arguments are the ones the handler checks. |
| Server.CatalogueMatchesGate | packages/gemini-files-mcp/src/server.ts:28-118 | Every entry of the five-tool catalogue agrees with the safety gate and with its handler's argument checks. |
| Server.CatalogueCoversOperations | packages/gemini-files-mcp/src/server.ts:28-118 | The catalogue has five tools, one per file operation, in the order upload, list, get, delete, download. |
| Server.ExpectString | packages/gemini-files-mcp/src/server.ts:141-146 | An argument is accepted iff it is a non-empty string. Otherwise the error is a validation error naming the field. |
| Server.ConfirmOnlyByTrue | packages/gemini-files-mcp/src/server.ts:148-150 | Confirmation counts only for boolean `true`. The string "true", 1, `false`, `null` and absence do not confirm. |
| Server.EnforceToolSafety | packages/gemini-files-mcp/src/server.ts:152-162 | The tool gate passes exactly when the mode permits the operation with the call's `confirm`. Denials are validation errors. |
| Server.UploadTool | packages/gemini-files-mcp/src/server.ts:170-182 | The gate runs before the `path` check. The client is called at most once, only if both pass, and only with the call's arguments. Denial means no client call. A successful upload answers with the uploaded file. A rejected upload fails with exactly what the client threw. |
| Server.ListTool | packages/gemini-files-mcp/src/server.ts:184-196 | Listing calls the client exactly once, whatever the mode. It answers with the client's listing, or fails with exactly what the client threw. |
| Server.GetTool | packages/gemini-files-mcp/src/server.ts:198-205 | Fetching calls the client iff `name` is a non-empty string, whatever the mode. It answers with the fetched file, or fails with exactly what the client threw. |
| Server.DeleteTool | packages/gemini-files-mcp/src/server.ts:207-216 | The gate runs before the `name` check. The client is called only when both pass. A completed delete answers `{ ok: true }`. A rejected delete fails with exactly what the client threw. |
| Server.DownloadTool | packages/gemini-files-mcp/src/server.ts:218-229 | The gate runs before the `name`/`outputPath` checks. The file is written only after a download, to the requested path and with exactly the downloaded bytes. Success reports that path and the byte count. A failed download or write fails with what was thrown. |
| Server.HandleToolCall | packages/gemini-files-mcp/src/server.ts:165-234 | A missing or unknown tool name is a validation error with no client call. Each of the five tool names runs exactly its own handler with the call's arguments. |
| Server.ReadToolsIgnoreMode | packages/gemini-files-mcp/src/server.ts:184-205 | `files_list` and `files_get` behave the same in every safety mode. |
| Server.DeniedCallsNeverReachClient | packages/gemini-files-mcp/src/server.ts:170-229 | A write tool the gate denies makes no client call and no file write, and fails with a validation error. |
| Server.HandleRequest | packages/gemini-files-mcp/src/server.ts:236-274 | Only `notifications/initialized` goes unanswered. The id is echoed, or `null` when absent. `initialize` answers protocol version 2024-11-05 and the server's name and version. `tools/list` returns the catalogue. Unknown methods get -32601 "Method not found: m". A failing tool call gets -32000 with the mapped tool error as data and its message as the message. |
| Server.RejectedCallResponse | packages/gemini-files-mcp/src/server.ts:258-273 | A tool call rejected before reaching the client is answered -32000 with a non-retryable `VALIDATION_ERROR`. |
| Server.ClientFailureAnswered | packages/gemini-files-mcp/src/server.ts:258-273 | When the client throws during a tool call, that call is the only effect and the answer is -32000 carrying the mapped thrown value and its message. |
| Server.ListAnswersWithListing | packages/gemini-files-mcp/src/server.ts:184-196 | `files_list` makes one list call with the given page options. It answers with the listing as the tool result, or with -32000 and the mapped error when the client throws. |
| Environment.Lookup | packages/gemini-files-mcp/src/index.ts:79-80 | An environment variable is found exactly when it is set, with its value. |
| Environment.PositiveNumber | packages/gemini-files-mcp/src/index.ts:71-77 | A text is accepted iff it reads as a positive number, which is returned. Otherwise the caller's validation error is raised. |
| Environment.PositiveNumberOfDecimal | packages/gemini-files-cli/src/index.ts:70-76 | A decimal rendering is accepted iff the number is positive, and reads back as itself. Empty and blank texts are refused. |
| McpStartup.ResolveApiKey | packages/gemini-files-mcp/src/index.ts:79-87 | The key is the flag, else `GEMINI_API_KEY`, else `GOOGLE_API_KEY`. An empty value at the level reached is an error and does not fall through. No key at all is the "Missing API key" validation error. |
| McpStartup.ResolveBaseUrl | packages/gemini-files-mcp/src/index.ts:113-127 | The base URL is the flag, else `GEMINI_BASE_URL`, else the fixed default. |
| McpStartup.ResolveTimeoutMs | packages/gemini-files-mcp/src/index.ts:89-104 | A flag value is used as is. With no flag and no variable there is no timeout. Otherwise the variable must read as a positive number, or it is a validation error. |
| McpStartup.ResolveStartupConfig | packages/gemini-files-mcp/src/index.ts:113-127 | Startup succeeds iff key, timeout and mode all resolve, and then it carries them. Errors are reported in field order, and all are validation errors. |
| McpStartup.ClientConfigOf | packages/gemini-files-mcp/src/index.ts:129-142 | The files client gets the resolved key, base URL and timeout, with the server's user agent. |
| McpStartup.ParseMcpArguments | packages/gemini-files-mcp/src/index.ts:144-163 | The `--timeout-ms` option is accepted iff it reads as a positive number, and then the parsed number is kept. A refusal is the "timeout-ms must be a positive number" validation error. Other options pass through. |
| McpStartup.McpFailure | packages/gemini-files-mcp/src/index.ts:179-194 | Exit 0 iff commander displayed help. Exit 2 for other commander errors and for validation errors. Exit 1 for anything else. Every non-zero exit writes one line to stderr, the rendered error for non-commander failures. |
| McpStartup.RunMcp | packages/gemini-files-mcp/src/index.ts:165-195 | The exit code is 0, 1 or 2. Help exits 0 and any other commander error exits 2 with its message, both without a configuration. A refused `--timeout-ms` exits 2 with its message and nothing served. A failed client creation and a failed stdio server go through the catch block. The server runs only with a fully resolved configuration, with exactly its mode and client configuration, and a clean end exits 0. |
| McpStartup.ConfigFailureNeverServes | packages/gemini-files-mcp/src/index.ts:170-194 | A configuration failure exits 2 and never reaches the stdio server. |
| McpStartup.MissingKeyNeverServes | packages/gemini-files-mcp/src/index.ts:79-194 | With no key anywhere, the server is never started and the exit code is 2. |
| McpStartup.McpHelpExitsZero | packages/gemini-files-mcp/src/index.ts:165-195 | `--help` exits 0 with nothing written, created or served. |
| McpStartup.McpZeroTimeoutRefused | packages/gemini-files-mcp/src/index.ts:144-163 | `--timeout-ms 0` exits 2 with the timeout message, whatever the environment, and nothing is created or served. |
| McpStartup.McpTimeoutReachesClient | packages/gemini-files-mcp/src/index.ts:129-163 | A positive `--timeout-ms` of n is the timeout the files client is created with, overriding `GEMINI_TIMEOUT_MS`. |
| CliClient.CliClientConfig | packages/gemini-files-cli/src/client.ts:5-19 | The key is the flag, else `GEMINI_API_KEY`, and must be non-empty. The base URL defaults to the fixed constant. The timeout passes through. The user agent is the CLI's. |
| CliClient.CreateClientFromOptions | packages/gemini-files-cli/src/client.ts:7-19 | A client is created exactly when the CLI configuration resolves, and it uses that key. |
| CliClient.CliConnectionHeaders | packages/gemini-files-cli/src/client.ts:16-18 | A CLI connection always sends the CLI's `User-Agent` and the given timeout. |
| CliClient.GoogleKeyIgnored | packages/gemini-files-cli/src/client.ts:8-11 | `GOOGLE_API_KEY` alone never yields a CLI client. |
| CliCommands.Gate | packages/gemini-files-cli/src/commands.ts:32-140 | The command gate passes exactly when the mode permits the operation with `--force`. |
| CliCommands.HandleUpload | packages/gemini-files-cli/src/commands.ts:32-53 | Upload calls the client (once, with the path and options) iff the gate permits it with `--force`. A denial fails with the gate's error. A successful upload prints the file as JSON or "Uploaded: name". A rejected upload fails with exactly what the client threw. |
| CliCommands.ListText | packages/gemini-files-cli/src/commands.ts:69-74 | Plain-text listing prints one line per file name, in order, then a `nextPageToken=` line only when the token is non-empty. |
| CliCommands.ListTextReadsBack | packages/gemini-files-cli/src/commands.ts:69-74 | Reading the plain-text listing back, the file-name lines give exactly the listed names. |
| CliCommands.HandleList | packages/gemini-files-cli/src/commands.ts:55-76 | Listing calls the client exactly once with the page options, in every mode. It succeeds iff the client does, and fails with exactly what the client threw. |
| CliCommands.HandleGet | packages/gemini-files-cli/src/commands.ts:78-90 | Get calls the client exactly once, in every mode, and succeeds iff the client does. Success prints the file as JSON or its name. Failure is exactly what the client threw. |
| CliCommands.HandleDelete | packages/gemini-files-cli/src/commands.ts:92-112 | Without `--force`, delete fails with a validation error before the gate or the client, in every mode. With it, the client is called iff the gate permits, and a denial fails with the gate's error and no call. A call succeeds iff the client completes the delete, and fails with what it threw. |
| CliCommands.HandleDownload | packages/gemini-files-cli/src/commands.ts:114-140 | An empty output path fails before the gate or the client. Otherwise the client is called iff the gate permits with `--force`, and a denial fails with the gate's error and no call. After a download, the file is written to the output path with exactly the downloaded bytes. The handler fails with what the download or the write threw. Success prints the path and byte count as JSON, or "Downloaded: name -> output (N bytes)". |
| CliCommands.WritesFollowTheGate | packages/gemini-files-cli/src/commands.ts:92-140 | `read-only` denies a forced delete. `balanced` downloads iff forced. `unsafe` deletes iff forced. |
| CliMain.MapExitCode | packages/gemini-files-cli/src/index.ts:38-58 | Exit 2 exactly for validation-class errors. 3, 4 and 5 exactly for `AUTH_ERROR`, `API_ERROR` and `NETWORK_ERROR` of the general class. 1 for everything else. |
| CliMain.ExitCodeOfClassified | packages/gemini-files-cli/src/index.ts:38-58 | A classified backend failure exits 3 for status 401/403, 4 for any other status, 5 for a status-less `Error`, and 1 otherwise. |
| CliMain.CliCatch | packages/gemini-files-cli/src/index.ts:232-255 | Commander help exits 0. Other commander errors exit 2 with the message and usage. Validation errors add the usage. Everything else exits with the mapped code and the rendered error. |
| CliMain.ParseGlobals | packages/gemini-files-cli/src/index.ts:70-125 | `--timeout-ms` is accepted iff it reads as a positive number, and the kept value is that positive number. The other global options pass through. |
| CliMain.ParsePageSize | packages/gemini-files-cli/src/index.ts:78-84 | `--page-size`, when given, is accepted iff it reads as a positive number. |
| CliMain.RunWithContext | packages/gemini-files-cli/src/index.ts:128-156 | The safety mode is resolved before any verb runs. A bad mode fails with no client call. The client is reached only after the mode and client creation succeed. A failed client creation or handler goes through the catch block. A completed handler exits 0 with nothing on stderr. Stdout and the calls made are the handler's. |
| CliMain.RunCli | packages/gemini-files-cli/src/index.ts:106-256 | Empty argv or any `--help` prints the usage and exits 0 before anything else. Commander help exits 0 and other commander errors exit 2 with the message and usage. A refused `--timeout-ms` or `--page-size` exits 2 with its message and usage, with no client call. A parsed verb exits 0 when its handler completes and goes through the catch block when it fails, with the handler's output and calls. Any client call implies every earlier step succeeded. |
| CliMain.RunInvocation | packages/gemini-files-cli/src/index.ts:129-256 | After parsing, a refused timeout or page size exits 2 with its message and the usage, and `files` without a verb exits 2 with the unknown-action message. Otherwise the verb runs in its context: exit 0 when its handler completes, the catch block when it fails, with the handler's output and calls. A client call happens only after the options, the mode and client creation succeed. |
| CliMain.CommanderExit | packages/gemini-files-cli/src/index.ts:232-242 | A commander error exits 0 iff it is help display, and otherwise exits 2 with the normalized message and the usage, with nothing printed to stdout. |
| CliMain.ValidationExit | packages/gemini-files-cli/src/index.ts:244-254 | A validation error exits 2 and writes its message and the usage. |
| CliMain.OptionValueExit | packages/gemini-files-cli/src/index.ts:70-84 | An option value its parser refuses ends the run with exit 2, its message and the usage, and nothing else. |
| CliMain.InvalidModeFailsEveryVerb | packages/gemini-files-cli/src/index.ts:129-215 | An unresolvable safety mode fails every verb, reads included, with exit 2 and no client call. |
| CliMain.DeleteWithoutForceExits | packages/gemini-files-cli/src/index.ts:193-201 | `files delete` without `--force` exits 2 without calling the client. |
| CliMain.ClientFailureExit | packages/gemini-files-cli/src/index.ts:129-255 | When the client throws, the run stops after that one call and exits through the catch, with the mapped exit code for non-commander values. |
| CliMain.ListFailureExitCodes | packages/gemini-files-cli/src/index.ts:38-58 | `files list` against a client that throws a classified error exits 3 for AUTH_ERROR, 4 for API_ERROR, 5 for NETWORK_ERROR and 1 for INTERNAL_ERROR. |
| CliMain.ZeroTimeoutExits | packages/gemini-files-cli/src/index.ts:70-76 | `--timeout-ms 0` exits 2 with the timeout message and the usage, before any client call. |
| CliMain.UnknownOptionExits | packages/gemini-files-cli/src/index.ts:232-242 | An unknown option (commander's `unknownOption` error) exits 2 with the message and the usage, with no client call. |
| CliMain.TimeoutKept | packages/gemini-files-cli/src/index.ts:70-76 | A positive `--timeout-ms` of n is kept as n milliseconds. |
| CliMain.VerbSuccessExitsZero | packages/gemini-files-cli/src/index.ts:151-231 | A verb whose handler completes exits 0, prints exactly what the handler printed, writes nothing to stderr and makes exactly the handler's calls. |
| CliMain.DeniedWriteExits | packages/gemini-files-cli/src/index.ts:160-255 | An upload, forced delete or download with an output path that the safety gate denies exits 2 with the gate's message and the usage, making no call to the client or the file system. |

## Left out

- Thrown values are results: a thrown exception is an `Err`/`Fail` carrying the thrown value, and `await` ordering is the order of the effect trace.
- The Google GenAI SDK and the file system are parameters: `Sdk` and `Client` are records of functions, and `FileWriter` records the size written. Their effects (upload, paging, temporary files, `randomUUID`, `rm`) are not modelled.
- `JSON.stringify` and `JSON.parse` are left out: frame bodies are opaque strings, and a tool result's JSON text content is not built. A body that fails to parse throws in the source and is not modelled.
- The async stream plumbing of `runStdioServer` (the `data`/`end` handlers, awaited handlers, interleaving) is left out. Only the buffer update per chunk is modelled.
- Environment.PositiveNumber: `Number()` is modelled for optionally signed decimal integers after trimming, with the empty text reading as 0. Fractions, exponents, hexadecimal and `Infinity` read as not-a-number, so e.g. `--timeout-ms 1.5` is refused where the source accepts 1.5.
- Stdio.DecodeFrames: the decoder as written is modelled counting characters (Unicode scalar values), while stdio.ts compares `rest.length` and slices by UTF-16 code units. Bodies with characters above U+FFFF therefore decode differently: `Content-Length: 4\r\n\r\n"😀"` yields a frame in the source but stays in the buffer in the model. A JavaScript slice can also split a surrogate pair, which a `seq<char>` cannot represent. The "é" finding below involves only characters below U+10000 and is unaffected.
- Numbers are integers: `Value.Num` holds an `int`, so a JSON number with a fraction (a tool call with `pageSize: 2.5`, which server.ts passes on to the client unchanged) cannot be represented. Such arguments are not modelled.
- Stdio.SourceDecoderReadsHeaders: the same integer-only `Number()` applies to the `Content-Length` value, so a header like `Content-Length: 1e1` is refused where the source reads 10.
- Commander's argument parsing is abstracted. The CLI and MCP command lines are datatypes holding the already-split global options, verb, positional arguments and option texts, and commander's failures are a separate case. Commander's own help text and option-parser order beyond "globals before verb options" are not modelled.
- `usage()` text is modelled, but JSON pretty-printing of command output is not: JSON output is the payload value itself.
- A structured tool error's absent `details` and `details: undefined` are both `Undefined`.
- `Prop` reads the fields the code consults; other keys of a raw object are ignored.
- `startMcpServer` (packages/gemini-files-mcp/src/index.ts:197-200), the `bin.ts` entry points and the re-export barrel only wire real processes to the modelled functions.
- The `initialize` result keeps its protocol version and server name and version. Its fixed `capabilities` object (`tools: {}`) is not represented.
- The integration test against the live API is not part of this model.

## Findings

| source | as written | input that shows it | evidently intended | confidence | as-written member | corrected member |
|---|---|---|---|---|---|---|
| packages/gemini-files-mcp/src/stdio.ts:7-39 | The encoder declares the body's UTF-8 byte length, but the decoder compares and slices the buffer by string length. | A response body "é" is framed as `Content-Length: 2\r\n\r\né`. The decoder waits for a second character that never comes, so the frame stays in the buffer. | Both sides count the same unit, e.g. the decoder counts UTF-8 bytes. | not executed | Stdio.AsWrittenRoundTripFails | Stdio.Utf8RoundTrip |

=== FILE: cli_client.dfy ===
/**
  How the command-line tool builds its files client from the global options
  (packages/gemini-files-cli/src/client.ts).  The environment is a
  parameter.
 */
module CliClient {
  import opened Wrappers
  import opened Values
  import opened FilesTypes
  import opened Environment
  import FilesClient

  /** The global options of the command line, after their value parsers ran. */
  datatype CliOptions = CliOptions(
    apiKey: Option<string>,
    baseUrl: Option<string>,
    timeoutMs: Option<int>,
    json: bool,
    safetyMode: Option<string>)

  const CliMissingApiKey: string := "Missing API key. Set GEMINI_API_KEY or pass --api-key."
  const CliUserAgent: string := "@gemini-file-tools/gemini-files-cli"

  /**
    The configuration createClientFromOptions passes on: the key is the flag
    if given, else GEMINI_API_KEY (GOOGLE_API_KEY is not consulted), and must
    not be empty; the base URL falls back to the default; the timeout passes
    through; the user agent names the command-line tool.
   */
  function CliClientConfig(options: CliOptions, env: Env): (r: Result<ClientConfig, FilesError>)
    ensures options.apiKey.Some? ==> (r.Ok? <==> options.apiKey.value != "")
    ensures options.apiKey.None? ==> (r.Ok? <==> "GEMINI_API_KEY" in env && env["GEMINI_API_KEY"] != "")
    ensures r.Ok? ==>
              && r.value.apiKey == (if options.apiKey.Some? then options.apiKey.value else env["GEMINI_API_KEY"])
              && r.value.baseUrl == Some(if options.baseUrl.Some? then options.baseUrl.value else DefaultBaseUrl)
              && r.value.timeoutMs == options.timeoutMs
              && r.value.userAgent == Some(CliUserAgent)
    ensures r.Err? ==> r.error == NewValidationError(CliMissingApiKey, Undefined)
  {
    match options.apiKey.OrElse(Lookup(env, "GEMINI_API_KEY"))
    case None => Err(NewValidationError(CliMissingApiKey, Undefined))
    case Some(apiKey) =>
      if apiKey == "" then Err(NewValidationError(CliMissingApiKey, Undefined))
      else Ok(ClientConfig(apiKey, Some(options.baseUrl.GetOr(DefaultBaseUrl)), options.timeoutMs, Some(CliUserAgent)))
  }

  /** createClientFromOptions: the configuration above, handed to the files
      client factory. */
  function CreateClientFromOptions(options: CliOptions, env: Env): (r: Result<FilesClient.Connection, FilesError>)
    ensures r.Ok? <==> CliClientConfig(options, env).Ok?
    ensures r.Err? ==> r.error == NewValidationError(CliMissingApiKey, Undefined)
    ensures r.Ok? ==> r.value.apiKey == CliClientConfig(options, env).value.apiKey
  {
    match CliClientConfig(options, env)
    case Err(e) => Err(e)
    case Ok(config) => FilesClient.CreateGeminiFilesClient(config)
  }

  /** The command-line tool's connection always identifies itself, and the
      key the environment offers to the MCP server alone is never used. */
  lemma {:induction false} CliConnectionHeaders(options: CliOptions, env: Env)
    requires CreateClientFromOptions(options, env).Ok?
    ensures CreateClientFromOptions(options, env).value.httpOptions.headers == Some(map["User-Agent" := CliUserAgent])
    ensures CreateClientFromOptions(options, env).value.httpOptions.timeout == options.timeoutMs
  {
  }

  /** GOOGLE_API_KEY alone never yields a client. */
  lemma {:induction false} GoogleKeyIgnored(options: CliOptions, env: Env)
    requires options.apiKey.None? && "GEMINI_API_KEY" !in env
    ensures CreateClientFromOptions(options, env) == Err(NewValidationError(CliMissingApiKey, Undefined))
  {
  }
}

=== FILE: cli_commands.dfy ===
/**
  The verb handlers of the command-line tool
  (packages/gemini-files-cli/src/commands.ts): which checks each runs, in
  which order, whether the client is reached, and what is printed.  The
  client and `writeFile` are parameters; every call made to them is recorded.
 */
module CliCommands {
  import opened Wrappers
  import opened Values
  import opened Text
  import opened Safety
  import opened FilesTypes

  /** One write to stdout: a line of text, or a payload printed as JSON. */
  datatype Printed = TextOut(text: string) | JsonOut(payload: Payload)

  /** A handler's outcome, the calls it made in order, and what it printed. */
  datatype CliRun = CliRun(outcome: Outcome<Value>, effects: seq<Effect>, stdout: seq<Printed>)

  datatype UploadOptions = UploadOptions(displayName: Option<string>, mimeType: Option<string>, force: bool)
  datatype ListOptions = ListOptions(pageSize: Option<int>, pageToken: Option<string>)
  datatype DownloadOptions = DownloadOptions(output: string, force: bool)

  const DeleteNeedsForce: string := "Delete requires --force to avoid accidental removal"
  const DownloadNeedsOutput: string := "download requires --output <path>"

  /** The CLI gate, its denial thrown as an error value. */
  function Gate(mode: Mode, op: Operation, force: bool): (r: Outcome<Value>)
    ensures r.Pass? <==> Permits(mode, op, force)
    ensures r.Fail? ==> IsValidationInstance(r.error)
  {
    match EnforceCliSafety(mode, op, force)
    case Pass => Pass
    case Fail(e) => Fail(FilesErrorInstance(e))
  }

  /**
    What every handler run satisfies: it calls the client at most once, as
    its first call; nothing is printed unless the run succeeded; and a run
    that succeeded did call the client.
   */
  predicate WellFormedRun(r: CliRun) {
    && (forall k :: 0 <= k < |r.effects| ==> (IsClientCall(r.effects[k]) <==> k == 0))
    && (r.outcome.Fail? ==> r.stdout == [])
    && (r.outcome.Pass? ==> r.effects != [])
  }

  function HandleUpload(client: Client, json: bool, mode: Mode, path: string, options: UploadOptions): (r: CliRun)
    ensures WellFormedRun(r) && |r.effects| <= 1
    ensures r.effects != [] <==> Permits(mode, Upload, options.force)
    ensures r.effects != [] ==> r.effects[0] == UploadCall(UploadFileInput(path, options.displayName, options.mimeType))
    ensures !Permits(mode, Upload, options.force) ==>
              r.outcome == Fail(FilesErrorInstance(EnforceCliSafety(mode, Upload, options.force).error))
    ensures r.outcome.Pass? ==> |r.stdout| == 1
    ensures r.effects != [] && ClientThrows(client, r.effects[0]).Some? ==>
              r.outcome == Fail(ClientThrows(client, r.effects[0]).value) && |r.effects| == 1
    ensures r.effects != [] && client.uploadFile(r.effects[0].upload).Ok? ==>
              var file := client.uploadFile(r.effects[0].upload).value;
              r.outcome.Pass? && r.stdout == [if json then JsonOut(FilePayload(file)) else TextOut("Uploaded: " + file.name + "\n")]
  {
    match Gate(mode, Upload, options.force)
    case Fail(e) => CliRun(Fail(e), [], [])
    case Pass =>
      var input := UploadFileInput(path, options.displayName, options.mimeType);
      match client.uploadFile(input)
      case Err(thrown) => CliRun(Fail(thrown), [UploadCall(input)], [])
      case Ok(file) =>
        CliRun(Pass, [UploadCall(input)], [if json then JsonOut(FilePayload(file)) else TextOut("Uploaded: " + file.name + "\n")])
  }

  /** One line per file name, in order. */
  function NameLines(files: seq<GeminiFile>): (lines: seq<Printed>)
    ensures |lines| == |files|
    ensures forall i :: 0 <= i < |files| ==> lines[i] == TextOut(files[i].name + "\n")
  {
    if files == [] then [] else [TextOut(files[0].name + "\n")] + NameLines(files[1..])
  }

  /** The plain-text listing: the names, then the page token only when it is
      a non-empty string. */
  function ListText(listing: ListFilesOutput): (lines: seq<Printed>)
    ensures |lines| == |listing.files| + (if listing.nextPageToken.Some? && listing.nextPageToken.value != "" then 1 else 0)
    ensures lines[..|listing.files|] == NameLines(listing.files)
    ensures |lines| > |listing.files| ==> lines[|listing.files|] == TextOut("nextPageToken=" + listing.nextPageToken.value + "\n")
  {
    NameLines(listing.files) +
    (if listing.nextPageToken.Some? && listing.nextPageToken.value != "" then
       [TextOut("nextPageToken=" + listing.nextPageToken.value + "\n")]
     else [])
  }

  /** The names a plain-text listing prints, read back from its lines. */
  function PrintedNames(lines: seq<Printed>): seq<string> {
    if lines == [] then []
    else
      var rest := PrintedNames(lines[1..]);
      if lines[0].TextOut? && |lines[0].text| > 0 && lines[0].text[|lines[0].text| - 1] == '\n'
         && !StartsWith(lines[0].text, "nextPageToken=")
      then [lines[0].text[..|lines[0].text| - 1]] + rest
      else rest
  }

  /** Reading the listing back gives the file names in order, provided no
      name itself looks like the token line. */
  lemma {:induction false} ListTextReadsBack(files: seq<GeminiFile>, token: Option<string>)
    requires forall i :: 0 <= i < |files| ==> !StartsWith(files[i].name + "\n", "nextPageToken=")
    ensures PrintedNames(ListText(ListFilesOutput(files, token))) == seq(|files|, i requires 0 <= i < |files| => files[i].name)
  {
    var lines := ListText(ListFilesOutput(files, token));
    var tail := lines[|files|..];
    assert lines == NameLines(files) + tail;
    PrintedNamesOfTokenLine(tail, token);
    PrintedNamesOfNames(files, tail);
  }

  lemma {:induction false} PrintedNamesOfTokenLine(tail: seq<Printed>, token: Option<string>)
    requires tail == [] || (token.Some? && tail == [TextOut("nextPageToken=" + token.value + "\n")])
    ensures PrintedNames(tail) == []
  {
    if tail != [] {
      assert StartsWith(tail[0].text, "nextPageToken=") by {
        assert tail[0].text[..14] == "nextPageToken=";
      }
      assert tail[1..] == [];
    }
  }

  /** A name line in front of other lines reads back as that name in front
      of what they read back as. */
  lemma {:induction false} PrintedNamesOfNameLine(name: string, rest: seq<Printed>)
    requires !StartsWith(name + "\n", "nextPageToken=")
    ensures PrintedNames([TextOut(name + "\n")] + rest) == [name] + PrintedNames(rest)
  {
  }

  lemma {:induction false} PrintedNamesOfNames(files: seq<GeminiFile>, tail: seq<Printed>)
    requires forall i :: 0 <= i < |files| ==> !StartsWith(files[i].name + "\n", "nextPageToken=")
    requires PrintedNames(tail) == []
    ensures PrintedNames(NameLines(files) + tail) == seq(|files|, i requires 0 <= i < |files| => files[i].name)
    decreases |files|
  {
    if files == [] {
      assert NameLines(files) + tail == tail;
    } else {
      var rest := NameLines(files[1..]) + tail;
      assert NameLines(files) + tail == [TextOut(files[0].name + "\n")] + rest;
      PrintedNamesOfNameLine(files[0].name, rest);
      PrintedNamesOfNames(files[1..], tail);
      assert seq(|files|, i requires 0 <= i < |files| => files[i].name)
          == [files[0].name] + seq(|files[1..]|, i requires 0 <= i < |files[1..]| => files[1..][i].name);
    }
  }

  /** handleList: no safety check; the listing as JSON or as text. */
  function HandleList(client: Client, json: bool, options: ListOptions): (r: CliRun)
    ensures WellFormedRun(r) && |r.effects| == 1
    ensures r.effects[0] == ListCall(ListFilesInput(options.pageSize, options.pageToken))
    ensures r.outcome.Pass? <==> client.listFiles(ListFilesInput(options.pageSize, options.pageToken)).Ok?
    ensures r.outcome.Pass? ==>
              var listing := client.listFiles(ListFilesInput(options.pageSize, options.pageToken)).value;
              r.stdout == if json then [JsonOut(ListPayload(listing))] else ListText(listing)
    ensures r.effects != [] && ClientThrows(client, r.effects[0]).Some? ==>
              r.outcome == Fail(ClientThrows(client, r.effects[0]).value) && |r.effects| == 1
  {
    var input := ListFilesInput(options.pageSize, options.pageToken);
    match client.listFiles(input)
    case Err(thrown) => CliRun(Fail(thrown), [ListCall(input)], [])
    case Ok(listing) =>
      CliRun(Pass, [ListCall(input)], if json then [JsonOut(ListPayload(listing))] else ListText(listing))
  }

  /** handleGet: no safety check. */
  function HandleGet(client: Client, json: bool, name: string): (r: CliRun)
    ensures WellFormedRun(r) && r.effects == [GetCall(name)]
    ensures r.outcome.Pass? <==> client.getFile(name).Ok?
    ensures r.outcome.Pass? ==>
              var file := client.getFile(name).value;
              r.stdout == [if json then JsonOut(FilePayload(file)) else TextOut(file.name + "\n")]
    ensures r.effects != [] && ClientThrows(client, r.effects[0]).Some? ==>
              r.outcome == Fail(ClientThrows(client, r.effects[0]).value) && |r.effects| == 1
  {
    match client.getFile(name)
    case Err(thrown) => CliRun(Fail(thrown), [GetCall(name)], [])
    case Ok(file) => CliRun(Pass, [GetCall(name)], [if json then JsonOut(FilePayload(file)) else TextOut(file.name + "\n")])
  }

  /** handleDelete: the missing `--force` is refused first, in every mode;
      only then does the gate run; the client is called last. */
  function HandleDelete(client: Client, json: bool, mode: Mode, name: string, force: bool): (r: CliRun)
    ensures WellFormedRun(r) && |r.effects| <= 1
    ensures !force ==> r == CliRun(Fail(Invalid(DeleteNeedsForce)), [], [])
    ensures r.effects != [] <==> force && Permits(mode, Delete, true)
    ensures r.effects != [] ==> r.effects[0] == DeleteCall(name)
    ensures force && !Permits(mode, Delete, true) ==>
              r == CliRun(Fail(FilesErrorInstance(EnforceCliSafety(mode, Delete, true).error)), [], [])
    ensures r.outcome.Pass? ==> r.stdout == [if json then JsonOut(DeletedPayload) else TextOut("Deleted: " + name + "\n")]
    ensures r.effects != [] && ClientThrows(client, r.effects[0]).Some? ==>
              r.outcome == Fail(ClientThrows(client, r.effects[0]).value) && |r.effects| == 1
    ensures r.effects != [] ==> (r.outcome.Pass? <==> client.deleteFile(name).Pass?)
  {
    if !force then CliRun(Fail(Invalid(DeleteNeedsForce)), [], [])
    else
      match Gate(mode, Delete, force)
      case Fail(e) => CliRun(Fail(e), [], [])
      case Pass =>
        match client.deleteFile(name)
        case Fail(thrown) => CliRun(Fail(thrown), [DeleteCall(name)], [])
        case Pass => CliRun(Pass, [DeleteCall(name)], [if json then JsonOut(DeletedPayload) else TextOut("Deleted: " + name + "\n")])
  }

  /** handleDownload: an empty output path is refused first; then the gate,
      with `--force` as the flag; then the download, then the write. */
  function HandleDownload(client: Client, writeFile: FileWriter, json: bool, mode: Mode, name: string, options: DownloadOptions)
    : (r: CliRun)
    ensures WellFormedRun(r) && |r.effects| <= 2
    ensures options.output == "" ==> r == CliRun(Fail(Invalid(DownloadNeedsOutput)), [], [])
    ensures r.effects != [] <==> options.output != "" && Permits(mode, Download, options.force)
    ensures r.effects != [] ==> r.effects[0] == DownloadCall(name)
    ensures |r.effects| == 2 ==> r.effects[1].path == options.output
    ensures r.outcome.Pass? ==> |r.effects| == 2 && |r.stdout| == 1
    ensures options.output != "" && !Permits(mode, Download, options.force) ==>
              r == CliRun(Fail(FilesErrorInstance(EnforceCliSafety(mode, Download, options.force).error)), [], [])
    ensures r.outcome.Pass? && json ==> r.stdout == [JsonOut(DownloadPayload(options.output, r.effects[1].size))]
    ensures r.outcome.Pass? && !json ==>
              r.stdout == [TextOut("Downloaded: " + name + " -> " + options.output + " (" + NatToString(r.effects[1].size) + " bytes)\n")]
    ensures r.effects != [] && ClientThrows(client, r.effects[0]).Some? ==>
              r.outcome == Fail(ClientThrows(client, r.effects[0]).value) && |r.effects| == 1
    ensures r.effects != [] && client.downloadFile(name).Ok? ==>
              var bytes := client.downloadFile(name).value;
              && r.effects == [DownloadCall(name), WriteFileCall(options.output, |bytes|)]
              && (writeFile(options.output, bytes).Fail? ==> r.outcome == Fail(writeFile(options.output, bytes).error))
              && (writeFile(options.output, bytes).Pass? ==> r.outcome.Pass?)
  {
    if options.output == "" then CliRun(Fail(Invalid(DownloadNeedsOutput)), [], [])
    else
      match Gate(mode, Download, options.force)
      case Fail(e) => CliRun(Fail(e), [], [])
      case Pass =>
        match client.downloadFile(name)
        case Err(thrown) => CliRun(Fail(thrown), [DownloadCall(name)], [])
        case Ok(bytes) =>
          var effects := [DownloadCall(name), WriteFileCall(options.output, |bytes|)];
          match writeFile(options.output, bytes)
          case Fail(thrown) => CliRun(Fail(thrown), effects, [])
          case Pass =>
            CliRun(Pass, effects, [
              if json then JsonOut(DownloadPayload(options.output, |bytes|))
              else TextOut("Downloaded: " + name + " -> " + options.output + " (" + NatToString(|bytes|) + " bytes)\n")])
  }

  /** In read-only mode a forced delete is still denied, and in balanced mode
      a download needs `--force`; the MCP tools decide the same way with
      `confirm` in place of `--force`. */
  lemma {:induction false} WritesFollowTheGate(client: Client, writeFile: FileWriter, json: bool, name: string, output: string, force: bool)
    requires output != ""
    ensures HandleDelete(client, json, ReadOnly, name, true).effects == []
    ensures HandleDelete(client, json, ReadOnly, name, true).outcome
              == Fail(FilesErrorInstance(EnforceCliSafety(ReadOnly, Delete, true).error))
    ensures HandleDownload(client, writeFile, json, Balanced, name, DownloadOptions(output, force)).effects != [] <==> force
    ensures HandleDelete(client, json, Unsafe, name, force).effects != [] <==> force
  {
  }
}

=== FILE: cli_main.dfy ===
/**
  The command-line entry point (packages/gemini-files-cli/src/index.ts):
  the help short-circuit, the order in which option values, the safety
  mode, the client and the verb handler are consulted, and the catch block
  that turns a failure into stderr text and an exit code.  The
  command-line parser is represented by what it produces; the client
  factory and `writeFile` are parameters.
 */
module CliMain {
  import opened Wrappers
  import opened Values
  import opened Text
  import opened Safety
  import opened Errors
  import opened Diagnostics
  import opened FilesTypes
  import opened Environment
  import opened CliClient
  import opened CliCommands

  const Usage: string :=
    "Usage:\n"
    + "  gemini-files [--api-key <key>] [--base-url <url>] [--timeout-ms <ms>] [--safety-mode <mode>] [--json] files <action> ...\n"
    + "Safety Modes:\n"
    + "  read-only (default), balanced, unsafe\n"
    + "Actions:\n"
    + "  files upload <path> [--display-name <name>] [--mime-type <mime>] [--force]\n"
    + "  files list [--page-size <n>] [--page-token <token>]\n"
    + "  files get <name>\n"
    + "  files delete <name> --force\n"
    + "  files download <name> --output <path> [--force]"

  /**
    mapExitCode: 2 for a GeminiFilesValidationError; 3, 4 and 5 for the
    other GeminiFilesErrors coded AUTH_ERROR, API_ERROR and NETWORK_ERROR;
    1 for everything else, including a base-class error that merely carries
    the code VALIDATION_ERROR.
   */
  function MapExitCode(error: Value): (code: int)
    ensures code in {1, 2, 3, 4, 5}
    ensures code == 2 <==> IsValidationInstance(error)
    ensures code == 3 <==> error.FilesErrorInstance? && error.err.FilesFailure? && error.err.code == AuthError
    ensures code == 4 <==> error.FilesErrorInstance? && error.err.FilesFailure? && error.err.code == ApiError
    ensures code == 5 <==> error.FilesErrorInstance? && error.err.FilesFailure? && error.err.code == NetworkError
  {
    if IsValidationInstance(error) then 2
    else if error.FilesErrorInstance? then
      match error.err.Code()
      case AuthError => 3
      case ApiError => 4
      case NetworkError => 5
      case _ => 1
    else 1
  }

  /** What a backend failure becomes once the files client has classified it:
      401 and 403 exit with 3, any other status with 4, a status-less `Error`
      with 5, anything else with 1. */
  lemma {:induction false} ExitCodeOfClassified(thrown: Value)
    requires !thrown.FilesErrorInstance?
    ensures var code := MapExitCode(FilesErrorInstance(NormalizeGeminiFilesError(thrown)));
            var status := ParseStatus(thrown);
            && (code == 3 <==> status == Some(401) || status == Some(403))
            && (code == 4 <==> status.Some? && status != Some(401) && status != Some(403))
            && (code == 5 <==> status.None? && IsErrorInstance(thrown))
            && (code == 1 <==> status.None? && !IsErrorInstance(thrown))
  {
    var e := NormalizeGeminiFilesError(thrown);
    assert e.FilesFailure? && e.code == e.Code();
  }

  /** The help short-circuit: no arguments, or `--help` anywhere. */
  predicate IsHelpRequest(argv: seq<string>) {
    |argv| == 0 || "--help" in argv
  }

  /** hasCommanderErrorCode: an object whose `code` is a string starting
      with "commander.". */
  predicate HasCommanderErrorCode(v: Value) {
    IsObject(v) && Prop(v, "code").Str? && StartsWith(Prop(v, "code").s, "commander.")
  }

  const HelpDisplayed: string := "commander.helpDisplayed"

  /**
    The result of runCli: the exit code (`None` when the returned promise
    rejects instead), what was written to stdout and stderr, and the calls
    made.
   */
  datatype CliExit = CliExit(exitCode: Option<int>, stdout: seq<Printed>, stderr: seq<string>, effects: seq<Effect>)

  /**
    The catch block of runCli.  A commander error, or anything carrying a
    "commander." code, is help (0) or a usage error (2, with the usage
    text); its message must be a string, or normalising it throws and the
    promise rejects.  Anything else prints its rendering, adds the usage
    text for a validation failure, and exits with mapExitCode.
   */
  function CliCatch(thrown: Value, stdout: seq<Printed>, effects: seq<Effect>): (x: CliExit)
    ensures x.stdout == stdout && x.effects == effects
    ensures (thrown.CommanderErrorInstance? || HasCommanderErrorCode(thrown)) ==>
              && (x.exitCode == Some(0) <==> Prop(thrown, "code") == Str(HelpDisplayed))
              && (x.exitCode == Some(0) ==> x.stderr == [])
              && (x.exitCode.None? <==> Prop(thrown, "code") != Str(HelpDisplayed) && !Prop(thrown, "message").Str?)
              && (x.exitCode.Some? && x.exitCode != Some(0) ==>
                    x.exitCode == Some(2)
                    && x.stderr == [NormalizeCommanderMessage(Prop(thrown, "message").s) + "\n", Usage + "\n"])
    ensures !(thrown.CommanderErrorInstance? || HasCommanderErrorCode(thrown)) ==>
              && x.exitCode == Some(MapExitCode(thrown))
              && x.stderr == [RenderError(thrown) + "\n"] + (if IsValidationInstance(thrown) then [Usage + "\n"] else [])
  {
    if thrown.CommanderErrorInstance? || HasCommanderErrorCode(thrown) then
      if Prop(thrown, "code") == Str(HelpDisplayed) then CliExit(Some(0), stdout, [], effects)
      else if Prop(thrown, "message").Str? then
        CliExit(Some(2), stdout, [NormalizeCommanderMessage(Prop(thrown, "message").s) + "\n", Usage + "\n"], effects)
      else CliExit(None, stdout, [], effects)
    else if IsValidationInstance(thrown) && thrown.err.message != "" then
      CliExit(Some(MapExitCode(thrown)), stdout, [thrown.err.message + "\n", Usage + "\n"], effects)
    else
      CliExit(Some(MapExitCode(thrown)), stdout,
              [RenderError(thrown) + "\n"] + (if IsValidationInstance(thrown) then [Usage + "\n"] else []), effects)
  }

  /** The global options as typed, before `--timeout-ms` is parsed. */
  datatype GlobalArguments = GlobalArguments(
    apiKey: Option<string>,
    baseUrl: Option<string>,
    timeoutMs: Option<string>,
    safetyMode: Option<string>,
    json: bool)

  /** The `files` verb the command line selected, with its own options as
      typed; `NoVerb` is `files` without a verb. */
  datatype FilesVerb =
    | UploadVerb(path: string, upload: UploadOptions)
    | ListVerb(pageSize: Option<string>, pageToken: Option<string>)
    | GetVerb(name: string)
    | DeleteVerb(name: string, force: bool)
    | DownloadVerb(name: string, output: Option<string>, force: bool)
    | NoVerb

  /** What the command-line parser makes of argv: a verb to run, or the
      CommanderError it throws. */
  datatype CliCommandLine =
    | CliInvocation(globals: GlobalArguments, verb: FilesVerb)
    | CliCommanderError(code: string, message: string)

  const UnknownAction: string := "Unknown files action. Expected upload|list|get|delete|download"

  /** The `--timeout-ms` value parser of the command-line tool. */
  function ParseGlobals(globals: GlobalArguments): (r: Result<CliOptions, FilesError>)
    ensures r.Ok? <==>
              globals.timeoutMs.None? || (ParseNumber(globals.timeoutMs.value).Some? && ParseNumber(globals.timeoutMs.value).value > 0)
    ensures r.Ok? ==> r.value.apiKey == globals.apiKey && r.value.baseUrl == globals.baseUrl
                      && r.value.safetyMode == globals.safetyMode && r.value.json == globals.json
                      && (r.value.timeoutMs.Some? <==> globals.timeoutMs.Some?)
    ensures r.Ok? && globals.timeoutMs.Some? ==>
              r.value.timeoutMs == ParseNumber(globals.timeoutMs.value) && r.value.timeoutMs.value > 0
    ensures r.Err? ==> r.error == NewValidationError("timeout must be a positive number", Undefined)
  {
    match globals.timeoutMs
    case None => Ok(CliOptions(globals.apiKey, globals.baseUrl, None, globals.json, globals.safetyMode))
    case Some(text) =>
      match PositiveNumber(text, "timeout must be a positive number")
      case Err(e) => Err(e)
      case Ok(n) => Ok(CliOptions(globals.apiKey, globals.baseUrl, Some(n), globals.json, globals.safetyMode))
  }

  /** The `--page-size` value parser of `files list`. */
  function ParsePageSize(pageSize: Option<string>): (r: Result<Option<int>, FilesError>)
    ensures r.Ok? <==> pageSize.None? || (ParseNumber(pageSize.value).Some? && ParseNumber(pageSize.value).value > 0)
    ensures r.Ok? ==> (r.value.Some? <==> pageSize.Some?) && (r.value.Some? ==> r.value == ParseNumber(pageSize.value))
    ensures r.Err? ==> r.error == NewValidationError("page-size must be a positive number", Undefined)
  {
    match pageSize
    case None => Ok(None)
    case Some(text) =>
      match PositiveNumber(text, "page-size must be a positive number")
      case Err(e) => Err(e)
      case Ok(n) => Ok(Some(n))
  }

  /** The safety mode runWithContext resolves for every verb. */
  function CliMode(options: CliOptions, env: Env): Result<Mode, FilesError> {
    ResolveSafetyMode(options.safetyMode, Lookup(env, "GEMINI_FILES_SAFETY_MODE"), Some(ReadOnly))
  }

  /** The handler a verb runs, once mode and client are known. */
  function RunVerb(client: Client, writeFile: FileWriter, json: bool, mode: Mode, verb: FilesVerb, pageSize: Option<int>)
    : CliRun
    requires !verb.NoVerb?
  {
    match verb
    case UploadVerb(path, upload) => HandleUpload(client, json, mode, path, upload)
    case ListVerb(_, pageToken) => HandleList(client, json, ListOptions(pageSize, pageToken))
    case GetVerb(name) => HandleGet(client, json, name)
    case DeleteVerb(name, force) => HandleDelete(client, json, mode, name, force)
    case DownloadVerb(name, output, force) =>
      HandleDownload(client, writeFile, json, mode, name, DownloadOptions(output.GetOr(""), force))
  }

  /**
    How a run ends once the options are parsed and the verb is known, the
    mode having resolved: a client that cannot be created and a handler that
    fails both go through the catch block; a handler that completes exits 0
    with nothing on stderr.  Either way stdout and the calls made are the
    handler's.
   */
  predicate RoutesVerb(
    x: CliExit,
    options: CliOptions,
    verb: FilesVerb,
    pageSize: Option<int>,
    env: Env,
    createClient: CliOptions -> Result<Client, Value>,
    writeFile: FileWriter)
    requires !verb.NoVerb?
  {
    CliMode(options, env).Ok? ==>
      match createClient(options)
      case Err(thrown) => x == CliCatch(thrown, [], [])
      case Ok(client) =>
        var run := RunVerb(client, writeFile, options.json, CliMode(options, env).value, verb, pageSize);
        && x.effects == run.effects && x.stdout == run.stdout
        && (run.outcome.Pass? ==> x.exitCode == Some(0) && x.stderr == [])
        && (run.outcome.Fail? ==> x == CliCatch(run.outcome.error, run.stdout, run.effects))
  }

  /** runWithContext and the verb: resolve the mode, create the client, run
      the handler. */
  function RunWithContext(
    options: CliOptions,
    verb: FilesVerb,
    pageSize: Option<int>,
    env: Env,
    createClient: CliOptions -> Result<Client, Value>,
    writeFile: FileWriter)
    : (x: CliExit)
    requires !verb.NoVerb?
    ensures CliMode(options, env).Err? ==> x == CliCatch(FilesErrorInstance(CliMode(options, env).error), [], [])
    ensures x.effects != [] ==> CliMode(options, env).Ok? && createClient(options).Ok?
    ensures RoutesVerb(x, options, verb, pageSize, env, createClient, writeFile)
  {
    match CliMode(options, env)
    case Err(e) => CliCatch(FilesErrorInstance(e), [], [])
    case Ok(mode) =>
      match createClient(options)
      case Err(thrown) => CliCatch(thrown, [], [])
      case Ok(client) =>
        var run := RunVerb(client, writeFile, options.json, mode, verb, pageSize);
        match run.outcome
        case Fail(thrown) => CliCatch(thrown, run.stdout, run.effects)
        case Pass => CliExit(Some(0), run.stdout, [], run.effects)
  }

  /** A CommanderError is help (0) or a usage error (2, with its message
      and the usage text). */
  lemma {:induction false} CommanderExit(code: string, message: string)
    ensures var x := CliCatch(CommanderErrorInstance(code, message), [], []);
            && x.effects == [] && x.stdout == []
            && (x.exitCode == Some(0) <==> code == HelpDisplayed)
            && (code != HelpDisplayed ==> x.exitCode == Some(2) && x.stderr == [NormalizeCommanderMessage(message) + "\n", Usage + "\n"])
  {
    var v := CommanderErrorInstance(code, message);
    assert Prop(v, "code") == Str(code) && Prop(v, "message") == Str(message);
  }

  /**
    runCli after the help check, for a command line commander accepted: the
    option value parsers run (global options first); a verb-less `files`
    fails; otherwise the verb runs in its context.
   */
  function RunInvocation(
    globals: GlobalArguments,
    verb: FilesVerb,
    env: Env,
    createClient: CliOptions -> Result<Client, Value>,
    writeFile: FileWriter)
    : (x: CliExit)
    ensures ParseGlobals(globals).Err? ==>
              x == CliExit(Some(2), [], ["timeout must be a positive number\n", Usage + "\n"], [])
    ensures ParseGlobals(globals).Ok? && verb.ListVerb? && ParsePageSize(verb.pageSize).Err? ==>
              x == CliExit(Some(2), [], ["page-size must be a positive number\n", Usage + "\n"], [])
    ensures x.effects != [] ==>
              && ParseGlobals(globals).Ok?
              && CliMode(ParseGlobals(globals).value, env).Ok?
              && createClient(ParseGlobals(globals).value).Ok?
    ensures ParseGlobals(globals).Ok? && ParsePageSize(if verb.ListVerb? then verb.pageSize else None).Ok? ==>
              && (verb.NoVerb? ==> x == CliExit(Some(2), [], [UnknownAction + "\n", Usage + "\n"], []))
              && (!verb.NoVerb? ==>
                    RoutesVerb(x, ParseGlobals(globals).value, verb,
                               ParsePageSize(if verb.ListVerb? then verb.pageSize else None).value, env, createClient, writeFile))
  {
    match ParseGlobals(globals)
    case Err(e) =>
      OptionValueExit("timeout must be a positive number");
      assert "timeout must be a positive number" + "\n" == "timeout must be a positive number\n";
      CliCatch(FilesErrorInstance(e), [], [])
    case Ok(options) =>
      match ParsePageSize(if verb.ListVerb? then verb.pageSize else None)
      case Err(e) =>
        OptionValueExit("page-size must be a positive number");
        assert "page-size must be a positive number" + "\n" == "page-size must be a positive number\n";
        CliCatch(FilesErrorInstance(e), [], [])
      case Ok(pageSize) =>
        if verb.NoVerb? then
          OptionValueExit(UnknownAction);
          CliCatch(Invalid(UnknownAction), [], [])
        else RunWithContext(options, verb, pageSize, env, createClient, writeFile)
  }

  /**
    runCli: help is answered before anything is parsed; a commander error
    exits through the catch; otherwise the invocation runs.
   */
  function RunCli(
    argv: seq<string>,
    commandLine: CliCommandLine,
    env: Env,
    createClient: CliOptions -> Result<Client, Value>,
    writeFile: FileWriter)
    : (x: CliExit)
    ensures IsHelpRequest(argv) ==> x == CliExit(Some(0), [TextOut(Usage + "\n")], [], [])
    ensures !IsHelpRequest(argv) && commandLine.CliCommanderError? ==>
              && x.effects == [] && x.stdout == []
              && (x.exitCode == Some(0) <==> commandLine.code == HelpDisplayed)
              && (commandLine.code != HelpDisplayed ==>
                    x.exitCode == Some(2) && x.stderr == [NormalizeCommanderMessage(commandLine.message) + "\n", Usage + "\n"])
    ensures !IsHelpRequest(argv) && commandLine.CliInvocation? && ParseGlobals(commandLine.globals).Err? ==>
              x == CliExit(Some(2), [], ["timeout must be a positive number\n", Usage + "\n"], [])
    ensures !IsHelpRequest(argv) && commandLine.CliInvocation? && ParseGlobals(commandLine.globals).Ok?
            && commandLine.verb.ListVerb? && ParsePageSize(commandLine.verb.pageSize).Err? ==>
              x == CliExit(Some(2), [], ["page-size must be a positive number\n", Usage + "\n"], [])
    ensures x.effects != [] ==>
              && !IsHelpRequest(argv)
              && commandLine.CliInvocation?
              && ParseGlobals(commandLine.globals).Ok?
              && CliMode(ParseGlobals(commandLine.globals).value, env).Ok?
              && createClient(ParseGlobals(commandLine.globals).value).Ok?
    ensures !IsHelpRequest(argv) && commandLine.CliInvocation? && !commandLine.verb.NoVerb?
            && ParseGlobals(commandLine.globals).Ok?
            && ParsePageSize(if commandLine.verb.ListVerb? then commandLine.verb.pageSize else None).Ok? ==>
              RoutesVerb(x, ParseGlobals(commandLine.globals).value, commandLine.verb,
                         ParsePageSize(if commandLine.verb.ListVerb? then commandLine.verb.pageSize else None).value,
                         env, createClient, writeFile)
  {
    if IsHelpRequest(argv) then CliExit(Some(0), [TextOut(Usage + "\n")], [], [])
    else match commandLine
      case CliCommanderError(code, message) =>
        CommanderExit(code, message);
        CliCatch(CommanderErrorInstance(code, message), [], [])
      case CliInvocation(globals, verb) =>
        RunInvocation(globals, verb, env, createClient, writeFile)
  }

  /** A validation failure always exits with 2 and prints its message and the
      usage text, whether or not its message is empty. */
  lemma {:induction false} ValidationExit(thrown: Value, stdout: seq<Printed>, effects: seq<Effect>)
    requires IsValidationInstance(thrown)
    ensures CliCatch(thrown, stdout, effects).exitCode == Some(2)
    ensures CliCatch(thrown, stdout, effects).stderr == [thrown.err.message + "\n", Usage + "\n"]
  {
    assert Prop(thrown, "code") == Str("VALIDATION_ERROR");
    assert !StartsWith("VALIDATION_ERROR", "commander.") by {
      assert "VALIDATION_ERROR"[0] != "commander."[0];
    }
  }

  /** An option value that fails its parser ends the run with 2, its message
      and the usage text, and nothing else. */
  lemma {:induction false} OptionValueExit(message: string)
    ensures CliCatch(FilesErrorInstance(NewValidationError(message, Undefined)), [], [])
              == CliExit(Some(2), [], [message + "\n", Usage + "\n"], [])
  {
    ValidationExit(FilesErrorInstance(NewValidationError(message, Undefined)), [], []);
  }

  /** The mode is resolved for every verb, reading ones included: an invalid
      mode fails `list` and `get` with exit code 2 before any client call. */
  lemma {:induction false} InvalidModeFailsEveryVerb(
    argv: seq<string>,
    globals: GlobalArguments,
    verb: FilesVerb,
    env: Env,
    createClient: CliOptions -> Result<Client, Value>,
    writeFile: FileWriter)
    requires !IsHelpRequest(argv) && !verb.NoVerb?
    requires ParseGlobals(globals).Ok? && ParsePageSize(if verb.ListVerb? then verb.pageSize else None).Ok?
    requires CliMode(ParseGlobals(globals).value, env).Err?
    ensures var x := RunCli(argv, CliInvocation(globals, verb), env, createClient, writeFile);
            && x.exitCode == Some(2)
            && x.effects == []
            && x.stderr == [CliMode(ParseGlobals(globals).value, env).error.message + "\n", Usage + "\n"]
  {
    var e := CliMode(ParseGlobals(globals).value, env).error;
    assert e.ValidationFailure?;
    ValidationExit(FilesErrorInstance(e), [], []);
  }

  /** Deleting without `--force` exits with 2 in every mode, unsafe
      included: after the mode is resolved and the client created, before any
      client call. */
  lemma {:induction false} DeleteWithoutForceExits(
    argv: seq<string>,
    globals: GlobalArguments,
    name: string,
    env: Env,
    createClient: CliOptions -> Result<Client, Value>,
    writeFile: FileWriter)
    requires !IsHelpRequest(argv) && ParseGlobals(globals).Ok?
    requires CliMode(ParseGlobals(globals).value, env).Ok? && createClient(ParseGlobals(globals).value).Ok?
    ensures var x := RunCli(argv, CliInvocation(globals, DeleteVerb(name, false)), env, createClient, writeFile);
            && x.exitCode == Some(2)
            && x.effects == []
            && x.stderr == [DeleteNeedsForce + "\n", Usage + "\n"]
  {
    ValidationExit(Invalid(DeleteNeedsForce), [], []);
  }

  /** A client call that throws ends the run through the catch block: the
      exit code is mapExitCode of the thrown value, nothing was printed to
      stdout, and no further call was made. */
  lemma {:induction false} ClientFailureExit(
    argv: seq<string>,
    globals: GlobalArguments,
    verb: FilesVerb,
    env: Env,
    createClient: CliOptions -> Result<Client, Value>,
    writeFile: FileWriter)
    requires !IsHelpRequest(argv) && !verb.NoVerb? && ParseGlobals(globals).Ok?
    requires ParsePageSize(if verb.ListVerb? then verb.pageSize else None).Ok?
    requires CliMode(ParseGlobals(globals).value, env).Ok? && createClient(ParseGlobals(globals).value).Ok?
    requires var options := ParseGlobals(globals).value;
             var run := RunVerb(createClient(options).value, writeFile, options.json, CliMode(options, env).value, verb,
                                ParsePageSize(if verb.ListVerb? then verb.pageSize else None).value);
             run.effects != [] && ClientThrows(createClient(options).value, run.effects[0]).Some?
    ensures var options := ParseGlobals(globals).value;
            var run := RunVerb(createClient(options).value, writeFile, options.json, CliMode(options, env).value, verb,
                               ParsePageSize(if verb.ListVerb? then verb.pageSize else None).value);
            var thrown := ClientThrows(createClient(options).value, run.effects[0]).value;
            var x := RunCli(argv, CliInvocation(globals, verb), env, createClient, writeFile);
            && x == CliCatch(thrown, [], [run.effects[0]])
            && (!(thrown.CommanderErrorInstance? || HasCommanderErrorCode(thrown)) ==> x.exitCode == Some(MapExitCode(thrown)))
  {
    var options := ParseGlobals(globals).value;
    var client := createClient(options).value;
    var mode := CliMode(options, env).value;
    var pageSize := ParsePageSize(if verb.ListVerb? then verb.pageSize else None).value;
    var run := RunVerb(client, writeFile, options.json, mode, verb, pageSize);
    assert run.outcome == Fail(ClientThrows(client, run.effects[0]).value) && run.stdout == [] && |run.effects| == 1;
    assert run.effects == [run.effects[0]];
  }

  /** `files list` whose client throws a classified failure exits 3 for an
      authentication failure, 4 for an API failure and 5 for a network failure. */
  lemma {:induction false} ListFailureExitCodes(
    argv: seq<string>,
    globals: GlobalArguments,
    pageToken: Option<string>,
    env: Env,
    createClient: CliOptions -> Result<Client, Value>,
    writeFile: FileWriter,
    e: FilesError)
    requires !IsHelpRequest(argv) && ParseGlobals(globals).Ok?
    requires CliMode(ParseGlobals(globals).value, env).Ok? && createClient(ParseGlobals(globals).value).Ok?
    requires createClient(ParseGlobals(globals).value).value.listFiles(ListFilesInput(None, pageToken)) == Err(FilesErrorInstance(e))
    requires e.FilesFailure?
    ensures var x := RunCli(argv, CliInvocation(globals, ListVerb(None, pageToken)), env, createClient, writeFile);
            && x.effects == [ListCall(ListFilesInput(None, pageToken))]
            && (e.code == AuthError ==> x.exitCode == Some(3))
            && (e.code == ApiError ==> x.exitCode == Some(4))
            && (e.code == NetworkError ==> x.exitCode == Some(5))
            && (e.code == InternalError ==> x.exitCode == Some(1))
  {
    ClientFailureExit(argv, globals, ListVerb(None, pageToken), env, createClient, writeFile);
    assert !HasCommanderErrorCode(FilesErrorInstance(e)) by {
      var c := CodeName(e.Code());
      assert Prop(FilesErrorInstance(e), "code") == Str(c);
      assert |c| > 0 && c[0] != 'c';
    }
  }

  /** `--timeout-ms 0` is refused while the options are parsed: exit 2 with
      the parser's message and the usage text, before anything is called. */
  lemma {:induction false} ZeroTimeoutExits(
    argv: seq<string>,
    globals: GlobalArguments,
    verb: FilesVerb,
    env: Env,
    createClient: CliOptions -> Result<Client, Value>,
    writeFile: FileWriter)
    requires !IsHelpRequest(argv) && globals.timeoutMs == Some("0")
    ensures RunCli(argv, CliInvocation(globals, verb), env, createClient, writeFile)
              == CliExit(Some(2), [], ["timeout must be a positive number\n", Usage + "\n"], [])
  {
    assert NatToString(0) == "0";
    PositiveNumberOfDecimal(0, "timeout must be a positive number");
  }

  /** An unknown option such as `--wat` is a commander error: exit 2 with the
      message and the usage, and no client call. */
  lemma {:induction false} UnknownOptionExits(
    argv: seq<string>,
    message: string,
    env: Env,
    createClient: CliOptions -> Result<Client, Value>,
    writeFile: FileWriter)
    requires !IsHelpRequest(argv)
    ensures var x := RunCli(argv, CliCommanderError("commander.unknownOption", message), env, createClient, writeFile);
            && x.exitCode == Some(2) && x.effects == []
            && x.stderr == [NormalizeCommanderMessage(message) + "\n", Usage + "\n"]
  {
    assert "commander.unknownOption" != HelpDisplayed by {
      assert "commander.unknownOption"[10] != HelpDisplayed[10];
    }
  }

  /** A positive `--timeout-ms` given as decimal digits is kept as that
      number of milliseconds. */
  lemma {:induction false} TimeoutKept(globals: GlobalArguments, n: nat)
    requires globals.timeoutMs == Some(NatToString(n)) && n > 0
    ensures ParseGlobals(globals).Ok? && ParseGlobals(globals).value.timeoutMs == Some(n)
  {
    ParseNumberOfNatToString(n);
  }

  /** A verb whose handler completes ends runCli with exit code 0, printing
      what the handler printed and nothing on stderr. */
  lemma {:induction false} VerbSuccessExitsZero(
    argv: seq<string>,
    globals: GlobalArguments,
    verb: FilesVerb,
    env: Env,
    createClient: CliOptions -> Result<Client, Value>,
    writeFile: FileWriter)
    requires !IsHelpRequest(argv) && !verb.NoVerb? && ParseGlobals(globals).Ok?
    requires ParsePageSize(if verb.ListVerb? then verb.pageSize else None).Ok?
    requires CliMode(ParseGlobals(globals).value, env).Ok? && createClient(ParseGlobals(globals).value).Ok?
    requires var options := ParseGlobals(globals).value;
             RunVerb(createClient(options).value, writeFile, options.json, CliMode(options, env).value, verb,
                     ParsePageSize(if verb.ListVerb? then verb.pageSize else None).value).outcome.Pass?
    ensures var options := ParseGlobals(globals).value;
            var run := RunVerb(createClient(options).value, writeFile, options.json, CliMode(options, env).value, verb,
                               ParsePageSize(if verb.ListVerb? then verb.pageSize else None).value);
            RunCli(argv, CliInvocation(globals, verb), env, createClient, writeFile)
              == CliExit(Some(0), run.stdout, [], run.effects)
  {
  }

  /**
    A write the safety gate denies (an upload, a forced delete, or a
    download with an output path) ends runCli with exit code 2, the gate's
    message and the usage text, and no call to the client or the file
    system.
   */
  lemma {:induction false} DeniedWriteExits(
    argv: seq<string>,
    globals: GlobalArguments,
    verb: FilesVerb,
    op: Operation,
    force: bool,
    env: Env,
    createClient: CliOptions -> Result<Client, Value>,
    writeFile: FileWriter)
    requires !IsHelpRequest(argv) && ParseGlobals(globals).Ok?
    requires CliMode(ParseGlobals(globals).value, env).Ok? && createClient(ParseGlobals(globals).value).Ok?
    requires || (verb.UploadVerb? && op == Upload && force == verb.upload.force)
             || (verb.DeleteVerb? && verb.force && op == Delete && force)
             || (verb.DownloadVerb? && verb.output.GetOr("") != "" && op == Download && force == verb.force)
    requires !Permits(CliMode(ParseGlobals(globals).value, env).value, op, force)
    ensures var denial := EnforceCliSafety(CliMode(ParseGlobals(globals).value, env).value, op, force).error;
            RunCli(argv, CliInvocation(globals, verb), env, createClient, writeFile)
              == CliExit(Some(2), [], [denial.message + "\n", Usage + "\n"], [])
  {
    var denial := EnforceCliSafety(CliMode(ParseGlobals(globals).value, env).value, op, force).error;
    ValidationExit(FilesErrorInstance(denial), [], []);
  }
}

=== FILE: diagnostics.dfy ===
/**
  How both entry points turn a failure into a line of diagnostic text
  (`renderError` and `normalizeCommanderMessage`, which
  packages/gemini-files-cli/src/index.ts and
  packages/gemini-files-mcp/src/index.ts each define identically).
 */
module Diagnostics {
  import opened Values
  import opened Text

  /** The decimal text of an integer, as `String(n)` renders it. */
  function IntToString(n: int): string {
    if n < 0 then "-" + NatToString(-n) else NatToString(n)
  }

  /** `String(v)`. */
  function JsString(v: Value): string
    decreases v, 1
  {
    match v
    case Undefined => "undefined"
    case Null => "null"
    case Bool(b) => if b then "true" else "false"
    case Num(n) => IntToString(n)
    case Str(s) => s
    case Arr(es) => JoinElements(es, 0)
    case Obj(_) => "[object Object]"
    case ErrorInstance(msg, _) => if msg == "" then "Error" else "Error: " + msg
    case FilesErrorInstance(e) =>
      var name := if e.ValidationFailure? then "GeminiFilesValidationError" else "GeminiFilesError";
      if e.message == "" then name else name + ": " + e.message
    case CommanderErrorInstance(_, msg) =>
      if msg == "" then "CommanderError" else "CommanderError: " + msg
  }

  /** `es.slice(from).join(',')`, where null and undefined elements print as
      nothing. */
  function JoinElements(es: seq<Value>, from: nat): string
    requires from <= |es|
    decreases Arr(es), 0, |es| - from
  {
    if from == |es| then ""
    else
      var e := es[from];
      var text := if e.Undefined? || e.Null? then "" else JsString(e);
      if from + 1 == |es| then text else text + "," + JoinElements(es, from + 1)
  }

  /** renderError: an `Error` renders as its message, a string as itself, and
      anything else as "Unknown error: " followed by `String(v)`. */
  function RenderError(v: Value): (r: string)
    ensures IsErrorInstance(v) ==> r == ErrorMessage(v)
    ensures v.Str? ==> r == v.s
    ensures !IsErrorInstance(v) && !v.Str? ==> r == "Unknown error: " + JsString(v)
  {
    if IsErrorInstance(v) then ErrorMessage(v)
    else if v.Str? then v.s
    else "Unknown error: " + JsString(v)
  }

  /** normalizeCommanderMessage: strips a leading "error:" and the white space
      after it. */
  function NormalizeCommanderMessage(message: string): (r: string)
    ensures !StartsWith(message, "error:") ==> r == message
    ensures StartsWith(message, "error:") ==> r == TrimStart(message[6..])
  {
    if StartsWith(message, "error:") then TrimStart(message[6..]) else message
  }
}

=== FILE: environment.dfy ===
/**
  What both entry points read from their surroundings: the process
  environment, the backend's default address, and the positive-number check
  their option parsers and environment readers apply to a text.
 */
module Environment {
  import opened Wrappers
  import opened Values
  import opened Text

  /** `process.env`: the variables that are set, with their values. */
  type Env = map<string, string>

  /** `env[name]`, `undefined` when the variable is not set. */
  function Lookup(env: Env, name: string): (r: Option<string>)
    ensures r.Some? <==> name in env
    ensures r.Some? ==> r.value == env[name]
  {
    if name in env then Some(env[name]) else None
  }

  /** The backend address both entry points fall back to. */
  const DefaultBaseUrl: string := "https://generativelanguage.googleapis.com"

  /**
    `Number(text)` when it is finite and positive; otherwise a validation
    failure with the caller's message.
   */
  function PositiveNumber(text: string, message: string): (r: Result<int, FilesError>)
    ensures r.Ok? <==> ParseNumber(text).Some? && ParseNumber(text).value > 0
    ensures r.Ok? ==> ParseNumber(text) == Some(r.value)
    ensures r.Err? ==> r.error == NewValidationError(message, Undefined)
  {
    match ParseNumber(text)
    case Some(n) => if n > 0 then Ok(n) else Err(NewValidationError(message, Undefined))
    case None => Err(NewValidationError(message, Undefined))
  }

  /** A decimal rendering of a number is accepted exactly when the number is
      positive, and reads back as itself; an empty or blank text is 0 and is
      refused. */
  lemma {:induction false} PositiveNumberOfDecimal(n: nat, message: string)
    ensures PositiveNumber(NatToString(n), message).Ok? <==> n > 0
    ensures n > 0 ==> PositiveNumber(NatToString(n), message) == Ok(n)
    ensures PositiveNumber("", message).Err? && PositiveNumber(" ", message).Err?
  {
    ParseNumberOfNatToString(n);
    assert Trim("") == "";
    assert TrimStart(" ") == "" by { assert SkipSpaces(" ", 0) == 1; }
    assert Trim(" ") == "";
  }
}

=== FILE: errors.dfy ===
/**
  Classification of arbitrary failures into GeminiFilesError values
  (packages/common/src/errors.ts).
 */
module Errors {
  import opened Wrappers
  import opened Values

  /**
    The retry policy of the error taxonomy, stated independently of the
    classifier: validation, auth and internal failures are never retryable,
    network failures always are, and an API failure is retryable exactly for
    a rate-limit or server-error status.
   */
  predicate RetryPolicy(code: ErrorCode, status: Option<int>) {
    match code
    case ValidationError => false
    case AuthError => false
    case ApiError => status.Some? && (status.value == 429 || status.value >= 500)
    case NetworkError => true
    case InternalError => false
  }

  /** The status of a failure: the first numeric property among `status`,
      `statusCode` and `code`, looked up only on objects. */
  function ParseStatus(v: Value): (r: Option<int>)
    ensures !IsObject(v) ==> r == None
    ensures IsObject(v) && Prop(v, "status").Num? ==> r == Some(Prop(v, "status").n)
    ensures (IsObject(v) && !Prop(v, "status").Num? && Prop(v, "statusCode").Num?)
              ==> r == Some(Prop(v, "statusCode").n)
    ensures (IsObject(v) && !Prop(v, "status").Num? && !Prop(v, "statusCode").Num?)
              ==> r == MaybeNumber(Prop(v, "code"))
  {
    if !Truthy(v) || !IsObject(v) then None
    else
      MaybeNumber(Prop(v, "status"))
        .OrElse(MaybeNumber(Prop(v, "statusCode")))
        .OrElse(MaybeNumber(Prop(v, "code")))
  }

  /** The human message of a failure: the `Error` message, else a string
      `message` property, else "Unknown error"; never empty. */
  function ParseMessage(v: Value): (r: string)
    ensures r != ""
    ensures r == "Unknown error" || Prop(v, "message") == Str(r)
    ensures Prop(v, "message").Str? && Prop(v, "message").s != "" ==> r == Prop(v, "message").s
  {
    if IsErrorInstance(v) && ErrorMessage(v) != "" then ErrorMessage(v)
    else if Truthy(v) && IsObject(v) && MaybeString(Prop(v, "message")).Some?
            && MaybeString(Prop(v, "message")).value != "" then
      MaybeString(Prop(v, "message")).value
    else "Unknown error"
  }

  /**
    normalizeGeminiFilesError: a GeminiFilesError passes through unchanged;
    anything else becomes a base-class GeminiFilesError whose code is chosen
    by status (401/403 auth, any other status API), else by being an `Error`
    (network), else internal.
   */
  function NormalizeGeminiFilesError(v: Value): (e: FilesError)
    ensures v.FilesErrorInstance? ==> e == v.err
    ensures !v.FilesErrorInstance? ==>
              && e.FilesFailure?
              && e.message == ParseMessage(v)
              && e.status == ParseStatus(v)
              && e.details == v
    ensures !v.FilesErrorInstance? ==>
              (e.Code() == AuthError <==> ParseStatus(v) == Some(401) || ParseStatus(v) == Some(403))
    ensures !v.FilesErrorInstance? ==>
              (e.Code() == ApiError <==>
                 ParseStatus(v).Some? && ParseStatus(v) != Some(401) && ParseStatus(v) != Some(403))
    ensures !v.FilesErrorInstance? ==>
              (e.Code() == NetworkError <==> ParseStatus(v).None? && IsErrorInstance(v))
    ensures !v.FilesErrorInstance? ==>
              (e.Code() == InternalError <==> ParseStatus(v).None? && !IsErrorInstance(v))
    ensures !v.FilesErrorInstance? ==> e.Retryable() == RetryPolicy(e.Code(), e.Status())
  {
    if v.FilesErrorInstance? then v.err
    else
      var status := ParseStatus(v);
      var message := ParseMessage(v);
      if status == Some(401) || status == Some(403) then
        FilesFailure(AuthError, message, false, status, v)
      else if status.Some? then
        FilesFailure(ApiError, message, status.value >= 500 || status.value == 429, status, v)
      else if IsErrorInstance(v) then
        FilesFailure(NetworkError, message, true, None, v)
      else
        FilesFailure(InternalError, message, false, None, v)
  }

  /** Classification never invents a policy rejection: a validation code
      comes only from a failure that already carried it. */
  lemma NormalizeKeepsValidationApart(v: Value)
    ensures (NormalizeGeminiFilesError(v).Code() == ValidationError)
              ==> v.FilesErrorInstance? && v.err.Code() == ValidationError
    ensures NormalizeGeminiFilesError(v).ValidationFailure? <==> IsValidationInstance(v)
  {
  }

  /** Normalising an already normalised failure changes nothing. */
  lemma NormalizeIdempotent(v: Value)
    ensures NormalizeGeminiFilesError(FilesErrorInstance(NormalizeGeminiFilesError(v)))
              == NormalizeGeminiFilesError(v)
  {
  }

  /** A 403 rejection from the backend is an authentication failure that
      keeps its status and message. */
  lemma NormalizeForbidden()
    ensures var e := NormalizeGeminiFilesError(Obj(map["status" := Num(403), "message" := Str("denied")]));
            e.Code() == AuthError && e.Status() == Some(403) && !e.Retryable() && e.message == "denied"
  {
    var v := Obj(map["status" := Num(403), "message" := Str("denied")]);
    assert Prop(v, "status") == Num(403);
    assert Prop(v, "message") == Str("denied");
  }

  /** A 429 rejection is a retryable API failure. */
  lemma NormalizeRateLimited()
    ensures var e := NormalizeGeminiFilesError(Obj(map["status" := Num(429)]));
            e.Code() == ApiError && e.Retryable() && e.Status() == Some(429)
  {
    assert Prop(Obj(map["status" := Num(429)]), "status") == Num(429);
  }

  /** A 400 rejection is an API failure that is not retried. */
  lemma NormalizeBadRequest()
    ensures var e := NormalizeGeminiFilesError(Obj(map["status" := Num(400)]));
            e.Code() == ApiError && !e.Retryable() && e.message == "Unknown error"
  {
    var v := Obj(map["status" := Num(400)]);
    assert Prop(v, "status") == Num(400);
    assert Prop(v, "message") == Undefined;
  }

  /** An `Error` without a status is a retryable network failure. */
  lemma NormalizeOffline()
    ensures var e := NormalizeGeminiFilesError(ErrorInstance("offline", map[]));
            e.Code() == NetworkError && e.Retryable() && e.message == "offline"
  {
    var v := ErrorInstance("offline", map[]);
    assert Prop(v, "status") == Undefined;
    assert Prop(v, "statusCode") == Undefined;
    assert Prop(v, "code") == Undefined;
  }

  /** A thrown string is an internal failure with the generic message. */
  lemma NormalizeThrownString()
    ensures var e := NormalizeGeminiFilesError(Str("boom"));
            e.Code() == InternalError && !e.Retryable() && e.message == "Unknown error"
  {
  }
}

=== FILE: files_client.dfy ===
/**
  The files client over the Google GenAI SDK
  (packages/common/src/files-client.ts): the input checks made before the
  SDK is called, the normalisation of file names, the mapping of the SDK's
  raw file objects, and the classification of everything the SDK throws.
  The SDK is a parameter; the temporary file a download goes through is
  part of the SDK's download operation here.
 */
module FilesClient {
  import opened Wrappers
  import opened Values
  import opened Text
  import opened Errors
  import opened FilesTypes

  /** `pager.params?.config?.pageToken` as the SDK's pager carries it. */
  datatype PagerConfig = PagerConfig(pageToken: Option<string>)
  datatype PagerParams = PagerParams(config: Option<PagerConfig>)

  /** The SDK's answer to a list call: one page of raw file objects. */
  datatype Pager = Pager(page: seq<Value>, params: Option<PagerParams>)

  /** The SDK's file operations, each delivering a raw value or throwing. */
  datatype Sdk = Sdk(
    upload: UploadFileInput -> Result<Value, Value>,
    list: ListFilesInput -> Result<Pager, Value>,
    get: string -> Result<Value, Value>,
    delete: string -> Outcome<Value>,
    download: string -> Result<Bytes, Value>)

  datatype HttpOptions = HttpOptions(timeout: Option<int>, baseUrl: Option<string>, headers: Option<map<string, string>>)

  /** What the SDK is constructed with. */
  datatype Connection = Connection(apiKey: string, httpOptions: HttpOptions)

  const FilesPrefix: string := "files/"

  /** toHttpOptions: timeout and base URL pass through; a `User-Agent` header
      is sent exactly when a non-empty user agent is configured, and no
      header map at all otherwise. */
  function ToHttpOptions(config: ClientConfig): (h: HttpOptions)
    ensures h.timeout == config.timeoutMs && h.baseUrl == config.baseUrl
    ensures h.headers.Some? <==> config.userAgent.Some? && config.userAgent.value != ""
    ensures h.headers.Some? ==> h.headers.value == map["User-Agent" := config.userAgent.value]
  {
    var headers: map<string, string> :=
      if config.userAgent.Some? && config.userAgent.value != "" then map["User-Agent" := config.userAgent.value]
      else map[];
    HttpOptions(config.timeoutMs, config.baseUrl, if |headers| > 0 then Some(headers) else None)
  }

  /** createGeminiFilesClient: an empty key is rejected before the SDK is
      constructed; otherwise the SDK gets the key and the HTTP options. */
  function CreateGeminiFilesClient(config: ClientConfig): (r: Result<Connection, FilesError>)
    ensures r.Err? <==> config.apiKey == ""
    ensures r.Err? ==> r.error == NewValidationError("Missing apiKey in GeminiFilesClientConfig", Undefined)
    ensures r.Ok? ==> r.value.apiKey == config.apiKey && r.value.httpOptions == ToHttpOptions(config)
  {
    if config.apiKey == "" then Err(NewValidationError("Missing apiKey in GeminiFilesClientConfig", Undefined))
    else Ok(Connection(config.apiKey, ToHttpOptions(config)))
  }

  /** normalizeFileName: a bare name gets the `files/` prefix. */
  function NormalizeFileName(name: string): (r: string)
    ensures StartsWith(r, FilesPrefix)
    ensures StartsWith(name, FilesPrefix) ==> r == name
    ensures !StartsWith(name, FilesPrefix) ==> r == FilesPrefix + name
  {
    if StartsWith(name, FilesPrefix) then name
    else
      assert (FilesPrefix + name)[..|FilesPrefix|] == FilesPrefix;
      FilesPrefix + name
  }

  /** Normalising a name twice is normalising it once. */
  lemma NormalizeFileNameIdempotent(name: string)
    ensures NormalizeFileName(NormalizeFileName(name)) == NormalizeFileName(name)
  {
  }

  /** A value kept only when it is a string. */
  predicate KeptIfString(v: Value, kept: Option<string>) {
    kept == MaybeString(v)
  }

  /** mapGeminiFile: a raw file must carry a non-empty string name; every
      other attribute is kept only when it is a string. */
  function MapGeminiFile(raw: Value): (r: Result<GeminiFile, FilesError>)
    ensures r.Ok? <==> Prop(raw, "name").Str? && Prop(raw, "name").s != ""
    ensures r.Err? ==> r.error == NewValidationError("Gemini SDK returned a file without a name", raw)
    ensures r.Ok? ==>
              && Str(r.value.name) == Prop(raw, "name")
              && KeptIfString(Prop(raw, "displayName"), r.value.displayName)
              && KeptIfString(Prop(raw, "mimeType"), r.value.mimeType)
              && KeptIfString(Prop(raw, "sizeBytes"), r.value.sizeBytes)
              && KeptIfString(Prop(raw, "createTime"), r.value.createTime)
              && KeptIfString(Prop(raw, "updateTime"), r.value.updateTime)
              && KeptIfString(Prop(raw, "state"), r.value.state)
              && KeptIfString(Prop(raw, "uri"), r.value.uri)
              && KeptIfString(Prop(raw, "downloadUri"), r.value.downloadUri)
  {
    var name := MaybeString(Prop(raw, "name"));
    if name.None? || name.value == "" then
      Err(NewValidationError("Gemini SDK returned a file without a name", raw))
    else
      Ok(GeminiFile(
        name.value,
        MaybeString(Prop(raw, "displayName")),
        MaybeString(Prop(raw, "mimeType")),
        MaybeString(Prop(raw, "sizeBytes")),
        MaybeString(Prop(raw, "createTime")),
        MaybeString(Prop(raw, "updateTime")),
        MaybeString(Prop(raw, "state")),
        MaybeString(Prop(raw, "uri")),
        MaybeString(Prop(raw, "downloadUri"))))
  }

  function OptionalString(s: Option<string>): Value {
    match s
    case Some(t) => Str(t)
    case None => Undefined
  }

  /** A file as a plain object, absent attributes being `undefined`. */
  function FileValue(f: GeminiFile): Value {
    Obj(map[
      "name" := Str(f.name),
      "displayName" := OptionalString(f.displayName),
      "mimeType" := OptionalString(f.mimeType),
      "sizeBytes" := OptionalString(f.sizeBytes),
      "createTime" := OptionalString(f.createTime),
      "updateTime" := OptionalString(f.updateTime),
      "state" := OptionalString(f.state),
      "uri" := OptionalString(f.uri),
      "downloadUri" := OptionalString(f.downloadUri)])
  }

  /** Mapping a file's own plain-object form gives the file back. */
  lemma {:induction false} MapGeminiFileOfFileValue(f: GeminiFile)
    requires f.name != ""
    ensures MapGeminiFile(FileValue(f)) == Ok(f)
  {
    FileValueNames(f);
    FileValueTimes(f);
    FileValueLocations(f);
    MapGeminiFileOfProps(FileValue(f), f);
  }

  /** A raw value carrying exactly a file's attributes maps to that file. */
  lemma {:induction false} MapGeminiFileOfProps(raw: Value, f: GeminiFile)
    requires f.name != "" && Prop(raw, "name") == Str(f.name)
    requires Prop(raw, "displayName") == OptionalString(f.displayName)
    requires Prop(raw, "mimeType") == OptionalString(f.mimeType)
    requires Prop(raw, "sizeBytes") == OptionalString(f.sizeBytes)
    requires Prop(raw, "createTime") == OptionalString(f.createTime)
    requires Prop(raw, "updateTime") == OptionalString(f.updateTime)
    requires Prop(raw, "state") == OptionalString(f.state)
    requires Prop(raw, "uri") == OptionalString(f.uri)
    requires Prop(raw, "downloadUri") == OptionalString(f.downloadUri)
    ensures MapGeminiFile(raw) == Ok(f)
  {
    MaybeStringOfOptional(f.displayName);
    MaybeStringOfOptional(f.mimeType);
    MaybeStringOfOptional(f.sizeBytes);
    MaybeStringOfOptional(f.createTime);
    MaybeStringOfOptional(f.updateTime);
    MaybeStringOfOptional(f.state);
    MaybeStringOfOptional(f.uri);
    MaybeStringOfOptional(f.downloadUri);
  }

  lemma {:induction false} MaybeStringOfOptional(s: Option<string>)
    ensures MaybeString(OptionalString(s)) == s
  {
  }

  lemma {:induction false} FileValueNames(f: GeminiFile)
    ensures Prop(FileValue(f), "name") == Str(f.name)
    ensures Prop(FileValue(f), "displayName") == OptionalString(f.displayName)
    ensures Prop(FileValue(f), "mimeType") == OptionalString(f.mimeType)
  {
  }

  lemma {:induction false} FileValueTimes(f: GeminiFile)
    ensures Prop(FileValue(f), "sizeBytes") == OptionalString(f.sizeBytes)
    ensures Prop(FileValue(f), "createTime") == OptionalString(f.createTime)
    ensures Prop(FileValue(f), "updateTime") == OptionalString(f.updateTime)
  {
  }

  lemma {:induction false} FileValueLocations(f: GeminiFile)
    ensures Prop(FileValue(f), "state") == OptionalString(f.state)
    ensures Prop(FileValue(f), "uri") == OptionalString(f.uri)
    ensures Prop(FileValue(f), "downloadUri") == OptionalString(f.downloadUri)
  {
  }

  /** `pager.page.map(mapGeminiFile)`: every file mapped in order, or the
      failure of the first that cannot be. */
  function MapPage(page: seq<Value>): (r: Result<seq<GeminiFile>, FilesError>)
    ensures r.Ok? <==> forall i :: 0 <= i < |page| ==> MapGeminiFile(page[i]).Ok?
    ensures r.Ok? ==> |r.value| == |page|
                      && forall i :: 0 <= i < |page| ==> MapGeminiFile(page[i]) == Ok(r.value[i])
    decreases |page|
  {
    if |page| == 0 then Ok([])
    else
      match MapGeminiFile(page[0])
      case Err(e) => Err(e)
      case Ok(f) =>
        match MapPage(page[1..])
        case Err(e) =>
          assert !MapGeminiFile(page[1..][PageFailure(page[1..])]).Ok?;
          Err(e)
        case Ok(fs) =>
          assert forall i :: 0 <= i < |page| ==> MapGeminiFile(page[i]) == Ok(([f] + fs)[i]) by {
            forall i | 0 <= i < |page| ensures MapGeminiFile(page[i]) == Ok(([f] + fs)[i]) {
              if i > 0 { assert page[i] == page[1..][i - 1]; }
            }
          }
          Ok([f] + fs)
  }

  /** The index of the first raw file of a page that cannot be mapped. */
  function PageFailure(page: seq<Value>): (i: nat)
    requires exists k :: 0 <= k < |page| && !MapGeminiFile(page[k]).Ok?
    ensures i < |page| && !MapGeminiFile(page[i]).Ok?
    ensures forall j :: 0 <= j < i ==> MapGeminiFile(page[j]).Ok?
    decreases |page|
  {
    if !MapGeminiFile(page[0]).Ok? then 0
    else
      ghost var k :| 0 <= k < |page| && !MapGeminiFile(page[k]).Ok?;
      assert page[1..][k - 1] == page[k];
      var i := PageFailure(page[1..]);
      assert forall j :: 0 <= j < i + 1 ==> MapGeminiFile(page[j]).Ok? by {
        forall j | 0 <= j < i + 1 ensures MapGeminiFile(page[j]).Ok? {
          if j > 0 { assert page[j] == page[1..][j - 1]; }
        }
      }
      i + 1
  }

  /** A page that cannot be mapped fails with the failure of its first
      unmappable file. */
  lemma {:induction false} MapPageFirstFailure(page: seq<Value>)
    requires MapPage(page).Err?
    ensures MapGeminiFile(page[PageFailure(page)]) == Err(MapPage(page).error)
    decreases |page|
  {
    if MapGeminiFile(page[0]).Ok? {
      assert !MapGeminiFile(page[1..][PageFailure(page) - 1]).Ok?;
      MapPageFirstFailure(page[1..]);
      assert page[1..][PageFailure(page[1..])] == page[PageFailure(page[1..]) + 1];
    }
  }

  /** nextPageTokenFromPager: the page token of the pager's configuration,
      when every step of the chain is present. */
  function NextPageTokenFromPager(pager: Pager): (r: Option<string>)
    ensures r.Some? <==> pager.params.Some? && pager.params.value.config.Some?
                          && pager.params.value.config.value.pageToken.Some?
    ensures r.Some? ==> r.value == pager.params.value.config.value.pageToken.value
  {
    match pager.params
    case None => None
    case Some(params) =>
      match params.config
      case None => None
      case Some(config) => config.pageToken
  }

  /** A mapping failure raised inside the client's `try` is rethrown after
      classification, which leaves a GeminiFilesError unchanged. */
  function Rethrow(e: FilesError): (r: FilesError)
    ensures r == e
  {
    NormalizeGeminiFilesError(FilesErrorInstance(e))
  }

  /** What the client does with a value the SDK threw or a file it returned. */
  function Deliver(outcome: Result<Value, Value>): (r: Result<GeminiFile, FilesError>)
    ensures outcome.Err? ==> r == Err(NormalizeGeminiFilesError(outcome.error))
    ensures outcome.Ok? ==> r == MapGeminiFile(outcome.value)
  {
    match outcome
    case Err(thrown) => Err(NormalizeGeminiFilesError(thrown))
    case Ok(raw) =>
      match MapGeminiFile(raw)
      case Err(e) => Err(Rethrow(e))
      case Ok(f) => Ok(f)
  }

  /** uploadFile: an empty path is rejected before the SDK is called. */
  function UploadFile(sdk: Sdk, input: UploadFileInput): (r: Result<GeminiFile, FilesError>)
    ensures input.path == "" ==> r == Err(NewValidationError("uploadFile requires a file path", Undefined))
    ensures input.path != "" ==> r == Deliver(sdk.upload(input))
  {
    if input.path == "" then Err(NewValidationError("uploadFile requires a file path", Undefined))
    else Deliver(sdk.upload(input))
  }

  /** listFiles: the page's files in order and the pager's page token. */
  function ListFiles(sdk: Sdk, input: ListFilesInput): (r: Result<ListFilesOutput, FilesError>)
    ensures sdk.list(input).Err? ==> r == Err(NormalizeGeminiFilesError(sdk.list(input).error))
    ensures sdk.list(input).Ok? ==>
              var pager := sdk.list(input).value;
              (r.Ok? <==> MapPage(pager.page).Ok?)
              && (r.Ok? ==> r.value == ListFilesOutput(MapPage(pager.page).value, NextPageTokenFromPager(pager)))
              && (r.Err? ==> r == Err(MapPage(pager.page).error))
  {
    match sdk.list(input)
    case Err(thrown) => Err(NormalizeGeminiFilesError(thrown))
    case Ok(pager) =>
      match MapPage(pager.page)
      case Err(e) => Err(Rethrow(e))
      case Ok(files) => Ok(ListFilesOutput(files, NextPageTokenFromPager(pager)))
  }

  /** getFile: an empty name is rejected before the SDK is called; any other
      name is asked for with the `files/` prefix. */
  function GetFile(sdk: Sdk, name: string): (r: Result<GeminiFile, FilesError>)
    ensures name == "" ==> r == Err(NewValidationError("getFile requires a file name", Undefined))
    ensures name != "" ==> r == Deliver(sdk.get(NormalizeFileName(name)))
  {
    if name == "" then Err(NewValidationError("getFile requires a file name", Undefined))
    else Deliver(sdk.get(NormalizeFileName(name)))
  }

  /** deleteFile: as getFile, with nothing delivered. */
  function DeleteFile(sdk: Sdk, name: string): (r: Outcome<FilesError>)
    ensures name == "" ==> r == Fail(NewValidationError("deleteFile requires a file name", Undefined))
    ensures name != "" && sdk.delete(NormalizeFileName(name)).Fail? ==>
              r == Fail(NormalizeGeminiFilesError(sdk.delete(NormalizeFileName(name)).error))
    ensures name != "" && sdk.delete(NormalizeFileName(name)).Pass? ==> r == Pass
  {
    if name == "" then Fail(NewValidationError("deleteFile requires a file name", Undefined))
    else
      match sdk.delete(NormalizeFileName(name))
      case Fail(thrown) => Fail(NormalizeGeminiFilesError(thrown))
      case Pass => Pass
  }

  /** downloadFile: as getFile, delivering the file's bytes. */
  function DownloadFile(sdk: Sdk, name: string): (r: Result<Bytes, FilesError>)
    ensures name == "" ==> r == Err(NewValidationError("downloadFile requires a file name", Undefined))
    ensures name != "" && sdk.download(NormalizeFileName(name)).Err? ==>
              r == Err(NormalizeGeminiFilesError(sdk.download(NormalizeFileName(name)).error))
    ensures name != "" && sdk.download(NormalizeFileName(name)).Ok? ==>
              r == Ok(sdk.download(NormalizeFileName(name)).value)
  {
    if name == "" then Err(NewValidationError("downloadFile requires a file name", Undefined))
    else
      match sdk.download(NormalizeFileName(name))
      case Err(thrown) => Err(NormalizeGeminiFilesError(thrown))
      case Ok(bytes) => Ok(bytes)
  }

  /** Inputs the client rejects before calling the SDK give the same answer
      whatever the SDK would have done. */
  lemma {:induction false} EmptyInputsNeverReachSdk(a: Sdk, b: Sdk, input: UploadFileInput)
    requires input.path == ""
    ensures UploadFile(a, input) == UploadFile(b, input)
    ensures GetFile(a, "") == GetFile(b, "") && GetFile(a, "").Err?
    ensures DeleteFile(a, "") == DeleteFile(b, "") && DeleteFile(a, "").Fail?
    ensures DownloadFile(a, "") == DownloadFile(b, "") && DownloadFile(a, "").Err?
    ensures UploadFile(a, input).Err? && UploadFile(a, input).error.ValidationFailure?
  {
  }

  /** Whatever the client rejects with is a validation failure of its own or
      the classification of what the SDK threw: never a raw SDK value. */
  lemma {:induction false} GetFileRejections(sdk: Sdk, name: string)
    ensures GetFile(sdk, name).Err? ==>
              GetFile(sdk, name).error.ValidationFailure?
              || (sdk.get(NormalizeFileName(name)).Err?
                  && GetFile(sdk, name).error == NormalizeGeminiFilesError(sdk.get(NormalizeFileName(name)).error))
    ensures GetFile(sdk, name).Ok? ==> GetFile(sdk, name).value.name != ""
  {
    if name != "" {
      match sdk.get(NormalizeFileName(name))
      case Err(_) =>
      case Ok(raw) =>
    }
  }

  /** The client as the front-ends see it: each rejection is thrown as a
      GeminiFilesError instance. */
  function AsClient(sdk: Sdk): Client {
    Client(
      input => Throwing(UploadFile(sdk, input)),
      input => Throwing(ListFiles(sdk, input)),
      name => Throwing(GetFile(sdk, name)),
      name => match DeleteFile(sdk, name) case Pass => Pass case Fail(e) => Fail(FilesErrorInstance(e)),
      name => Throwing(DownloadFile(sdk, name)))
  }

  function Throwing<T>(r: Result<T, FilesError>): (t: Result<T, Value>)
    ensures t.Ok? <==> r.Ok?
    ensures t.Ok? ==> t.value == r.value
    ensures t.Err? ==> t.error == FilesErrorInstance(r.error)
  {
    match r
    case Ok(v) => Ok(v)
    case Err(e) => Err(FilesErrorInstance(e))
  }
}

=== FILE: files_types.dfy ===
/**
  The shapes the two front-ends exchange with the files client
  (packages/common/src/files-types.ts), the client itself as a record of
  operations, and the trace of effects a handler leaves behind.
 */
module FilesTypes {
  import opened Wrappers
  import opened Values

  /** The configuration a files client is created with. */
  datatype ClientConfig = ClientConfig(
    apiKey: string,
    baseUrl: Option<string>,
    timeoutMs: Option<int>,
    userAgent: Option<string>)

  /** A file as the client reports it: a name and the optional attributes
      the backend returned as strings. */
  datatype GeminiFile = GeminiFile(
    name: string,
    displayName: Option<string>,
    mimeType: Option<string>,
    sizeBytes: Option<string>,
    createTime: Option<string>,
    updateTime: Option<string>,
    state: Option<string>,
    uri: Option<string>,
    downloadUri: Option<string>)

  datatype UploadFileInput = UploadFileInput(path: string, displayName: Option<string>, mimeType: Option<string>)

  datatype ListFilesInput = ListFilesInput(pageSize: Option<int>, pageToken: Option<string>)

  datatype ListFilesOutput = ListFilesOutput(files: seq<GeminiFile>, nextPageToken: Option<string>)

  /** The contents of a downloaded file. */
  type Bytes = seq<bv8>

  /**
    The GeminiFilesClient interface.  Each operation either delivers its
    value or rejects with whatever it throws.
   */
  datatype Client = Client(
    uploadFile: UploadFileInput -> Result<GeminiFile, Value>,
    listFiles: ListFilesInput -> Result<ListFilesOutput, Value>,
    getFile: string -> Result<GeminiFile, Value>,
    deleteFile: string -> Outcome<Value>,
    downloadFile: string -> Result<Bytes, Value>)

  /** `writeFile` of node:fs, which stores bytes at a path or rejects. */
  type FileWriter = (string, Bytes) -> Outcome<Value>

  /** One call a handler makes to the client or to the file system. */
  datatype Effect =
    | UploadCall(upload: UploadFileInput)
    | ListCall(list: ListFilesInput)
    | GetCall(name: string)
    | DeleteCall(name: string)
    | DownloadCall(name: string)
    | WriteFileCall(path: string, size: nat)

  /** A call that reaches the files client (rather than the file system). */
  predicate IsClientCall(e: Effect) {
    !e.WriteFileCall?
  }

  /** What the client throws when asked to make the call `e`; `None` when it
      answers, and for a file-system write. */
  function ClientThrows(client: Client, e: Effect): (thrown: Option<Value>)
    ensures e.WriteFileCall? ==> thrown.None?
    ensures e.UploadCall? ==> (thrown.Some? <==> client.uploadFile(e.upload).Err?)
    ensures e.ListCall? ==> (thrown.Some? <==> client.listFiles(e.list).Err?)
    ensures e.GetCall? ==> (thrown.Some? <==> client.getFile(e.name).Err?)
    ensures e.DeleteCall? ==> (thrown.Some? <==> client.deleteFile(e.name).Fail?)
    ensures e.DownloadCall? ==> (thrown.Some? <==> client.downloadFile(e.name).Err?)
  {
    match e
    case UploadCall(input) => if client.uploadFile(input).Err? then Some(client.uploadFile(input).error) else None
    case ListCall(input) => if client.listFiles(input).Err? then Some(client.listFiles(input).error) else None
    case GetCall(name) => if client.getFile(name).Err? then Some(client.getFile(name).error) else None
    case DeleteCall(name) => if client.deleteFile(name).Fail? then Some(client.deleteFile(name).error) else None
    case DownloadCall(name) => if client.downloadFile(name).Err? then Some(client.downloadFile(name).error) else None
    case WriteFileCall(_, _) => None
  }

  /** What a handler reports on success, before it is printed as JSON. */
  datatype Payload =
    | FilePayload(file: GeminiFile)
    | ListPayload(listing: ListFilesOutput)
    | DeletedPayload  // `{ ok: true }`, the answer to a completed delete
    | DownloadPayload(outputPath: string, sizeBytes: nat)

  /** The outcome of a handler together with the calls it made, in order. */
  datatype Run<T> = Run(result: Result<T, Value>, effects: seq<Effect>)
}

=== FILE: mcp_startup.dfy ===
/**
  Start-up of the MCP server (packages/gemini-files-mcp/src/index.ts): how
  the API key, base URL, timeout and safety mode are chosen among flags,
  environment and defaults, and how `runMcp` turns what happened into an
  exit code.  The command-line parser is represented by what it produces;
  the client factory and the stdio loop are parameters.
 */
module McpStartup {
  import opened Wrappers
  import opened Values
  import opened Safety
  import opened Diagnostics
  import opened FilesTypes
  import opened Environment
  import opened Text

  /** The options after the command-line parser has run its value parsers. */
  datatype StartupOptions = StartupOptions(
    apiKey: Option<string>,
    baseUrl: Option<string>,
    timeoutMs: Option<int>,
    safetyMode: Option<string>)

  const MissingApiKey: string := "Missing API key. Set GEMINI_API_KEY, GOOGLE_API_KEY, or pass --api-key."
  const McpUserAgent: string := "@gemini-file-tools/gemini-files-mcp"

  /**
    resolveApiKey: the flag if given, else GEMINI_API_KEY if set, else
    GOOGLE_API_KEY.  The first of these that is present is the one used: an
    empty value is not skipped but refused.
   */
  function ResolveApiKey(options: StartupOptions, env: Env): (r: Result<string, FilesError>)
    ensures r.Ok? ==> r.value != ""
    ensures r.Err? ==> r.error == NewValidationError(MissingApiKey, Undefined)
    ensures options.apiKey.Some? ==>
              (r.Ok? <==> options.apiKey.value != "") && (r.Ok? ==> r.value == options.apiKey.value)
    ensures options.apiKey.None? && "GEMINI_API_KEY" in env ==>
              (r.Ok? <==> env["GEMINI_API_KEY"] != "") && (r.Ok? ==> r.value == env["GEMINI_API_KEY"])
    ensures options.apiKey.None? && "GEMINI_API_KEY" !in env && "GOOGLE_API_KEY" in env ==>
              (r.Ok? <==> env["GOOGLE_API_KEY"] != "") && (r.Ok? ==> r.value == env["GOOGLE_API_KEY"])
    ensures options.apiKey.None? && "GEMINI_API_KEY" !in env && "GOOGLE_API_KEY" !in env ==> r.Err?
  {
    match options.apiKey.OrElse(Lookup(env, "GEMINI_API_KEY")).OrElse(Lookup(env, "GOOGLE_API_KEY"))
    case Some(key) => if key == "" then Err(NewValidationError(MissingApiKey, Undefined)) else Ok(key)
    case None => Err(NewValidationError(MissingApiKey, Undefined))
  }

  /** The base URL: the flag, else GEMINI_BASE_URL, else the default. */
  function ResolveBaseUrl(options: StartupOptions, env: Env): (url: string)
    ensures options.baseUrl.Some? ==> url == options.baseUrl.value
    ensures options.baseUrl.None? && "GEMINI_BASE_URL" in env ==> url == env["GEMINI_BASE_URL"]
    ensures options.baseUrl.None? && "GEMINI_BASE_URL" !in env ==> url == DefaultBaseUrl
  {
    options.baseUrl.OrElse(Lookup(env, "GEMINI_BASE_URL")).GetOr(DefaultBaseUrl)
  }

  /**
    resolveTimeoutMs: a flag value is used as it is; otherwise an unset
    GEMINI_TIMEOUT_MS means no timeout, and a set one must be a positive
    number.
   */
  function ResolveTimeoutMs(options: StartupOptions, env: Env): (r: Result<Option<int>, FilesError>)
    ensures options.timeoutMs.Some? ==> r == Ok(options.timeoutMs)
    ensures options.timeoutMs.None? && "GEMINI_TIMEOUT_MS" !in env ==> r == Ok(None)
    ensures options.timeoutMs.None? && "GEMINI_TIMEOUT_MS" in env ==>
              var parsed := ParseNumber(env["GEMINI_TIMEOUT_MS"]);
              && (r.Ok? <==> parsed.Some? && parsed.value > 0)
              && (r.Ok? ==> r.value == parsed)
              && (r.Err? ==> r.error == NewValidationError("GEMINI_TIMEOUT_MS must be a positive number", Undefined))
  {
    if options.timeoutMs.Some? then Ok(options.timeoutMs)
    else match Lookup(env, "GEMINI_TIMEOUT_MS")
      case None => Ok(None)
      case Some(raw) =>
        match PositiveNumber(raw, "GEMINI_TIMEOUT_MS must be a positive number")
        case Ok(n) => Ok(Some(n))
        case Err(e) => Err(e)
  }

  /** The safety mode: the flag, else GEMINI_FILES_SAFETY_MODE, else read-only. */
  function ResolveMode(options: StartupOptions, env: Env): Result<Mode, FilesError> {
    ResolveSafetyMode(options.safetyMode, Lookup(env, "GEMINI_FILES_SAFETY_MODE"), Some(ReadOnly))
  }

  datatype StartupConfig = StartupConfig(apiKey: string, baseUrl: string, timeoutMs: Option<int>, safetyMode: Mode)

  /**
    resolveStartupConfig: the fields are resolved in the order the object
    literal lists them, so the first failure among key, timeout and mode is
    the one reported.  Every failure is a validation error.
   */
  function ResolveStartupConfig(options: StartupOptions, env: Env): (r: Result<StartupConfig, FilesError>)
    ensures r.Ok? <==> ResolveApiKey(options, env).Ok? && ResolveTimeoutMs(options, env).Ok? && ResolveMode(options, env).Ok?
    ensures r.Ok? ==>
              && r.value.apiKey == ResolveApiKey(options, env).value
              && r.value.baseUrl == ResolveBaseUrl(options, env)
              && r.value.timeoutMs == ResolveTimeoutMs(options, env).value
              && r.value.safetyMode == ResolveMode(options, env).value
    ensures ResolveApiKey(options, env).Err? ==> r == Err(ResolveApiKey(options, env).error)
    ensures ResolveApiKey(options, env).Ok? && ResolveTimeoutMs(options, env).Err? ==>
              r == Err(ResolveTimeoutMs(options, env).error)
    ensures r.Err? ==> r.error.ValidationFailure?
  {
    match ResolveApiKey(options, env)
    case Err(e) => Err(e)
    case Ok(apiKey) =>
      var baseUrl := ResolveBaseUrl(options, env);
      match ResolveTimeoutMs(options, env)
      case Err(e) => Err(e)
      case Ok(timeoutMs) =>
        match ResolveMode(options, env)
        case Err(e) => Err(e)
        case Ok(mode) => Ok(StartupConfig(apiKey, baseUrl, timeoutMs, mode))
  }

  /** What startServer hands to the client factory. */
  function ClientConfigOf(config: StartupConfig): (c: ClientConfig)
    ensures c.apiKey == config.apiKey && c.baseUrl == Some(config.baseUrl) && c.timeoutMs == config.timeoutMs
    ensures c.userAgent == Some(McpUserAgent)
  {
    ClientConfig(config.apiKey, Some(config.baseUrl), config.timeoutMs, Some(McpUserAgent))
  }

  /** The options as typed, before `--timeout-ms` is parsed. */
  datatype McpArguments = McpArguments(
    apiKey: Option<string>,
    baseUrl: Option<string>,
    timeoutMs: Option<string>,
    safetyMode: Option<string>)

  /** What the command-line parser makes of argv: the arguments, or the
      CommanderError it throws (help shown, unknown option, excess argument). */
  datatype McpCommandLine =
    | McpInvocation(arguments: McpArguments)
    | McpCommanderError(code: string, message: string)

  /** The `--timeout-ms` value parser, which runs while argv is parsed. */
  function ParseMcpArguments(arguments: McpArguments): (r: Result<StartupOptions, FilesError>)
    ensures r.Ok? <==>
              arguments.timeoutMs.None? || (ParseNumber(arguments.timeoutMs.value).Some? && ParseNumber(arguments.timeoutMs.value).value > 0)
    ensures r.Ok? ==> r.value.apiKey == arguments.apiKey && r.value.baseUrl == arguments.baseUrl
                      && r.value.safetyMode == arguments.safetyMode
                      && (r.value.timeoutMs.Some? <==> arguments.timeoutMs.Some?)
                      && (r.value.timeoutMs.Some? ==> r.value.timeoutMs.value > 0)
    ensures r.Ok? && arguments.timeoutMs.Some? ==> r.value.timeoutMs == ParseNumber(arguments.timeoutMs.value)
    ensures r.Err? ==> r.error == NewValidationError("timeout-ms must be a positive number", Undefined)
  {
    match arguments.timeoutMs
    case None => Ok(StartupOptions(arguments.apiKey, arguments.baseUrl, None, arguments.safetyMode))
    case Some(text) =>
      match PositiveNumber(text, "timeout-ms must be a positive number")
      case Err(e) => Err(e)
      case Ok(n) => Ok(StartupOptions(arguments.apiKey, arguments.baseUrl, Some(n), arguments.safetyMode))
  }

  /**
    The result of runMcp: the exit code, the lines written to stderr, the
    configuration the client was created with (if it was), and the safety
    mode the stdio server ran with (if it was reached).
   */
  datatype McpExit = McpExit(exitCode: int, stderr: seq<string>, clientConfig: Option<ClientConfig>, served: Option<Mode>)

  const HelpDisplayed: string := "commander.helpDisplayed"

  /** The catch block of runMcp: help is success, any other CommanderError a
      usage error, a validation failure a usage error, anything else 1. */
  function McpFailure(thrown: Value, clientConfig: Option<ClientConfig>, served: Option<Mode>): (x: McpExit)
    ensures x.clientConfig == clientConfig && x.served == served
    ensures x.exitCode == 0 <==> thrown.CommanderErrorInstance? && thrown.commanderCode == HelpDisplayed
    ensures x.exitCode == 0 ==> x.stderr == []
    ensures x.exitCode != 0 ==> |x.stderr| == 1
    ensures x.exitCode == 2 <==>
              (thrown.CommanderErrorInstance? && thrown.commanderCode != HelpDisplayed) || IsValidationInstance(thrown)
    ensures x.exitCode in {0, 1, 2}
    ensures !thrown.CommanderErrorInstance? ==> x.stderr == [RenderError(thrown) + "\n"]
  {
    if thrown.CommanderErrorInstance? then
      if thrown.commanderCode == HelpDisplayed then McpExit(0, [], clientConfig, served)
      else McpExit(2, [NormalizeCommanderMessage(thrown.commanderMessage) + "\n"], clientConfig, served)
    else
      McpExit(if IsValidationInstance(thrown) then 2 else 1, [RenderError(thrown) + "\n"], clientConfig, served)
  }

  /**
    runMcp: parse argv, resolve the configuration, create the client and run
    the stdio server until its input ends; any failure on the way is routed
    through the catch block.
   */
  function RunMcp(
    commandLine: McpCommandLine,
    env: Env,
    createClient: ClientConfig -> Result<Client, Value>,
    runStdio: (Client, Mode) -> Outcome<Value>)
    : (x: McpExit)
    ensures x.exitCode in {0, 1, 2}
    ensures x.served.Some? ==>
              && commandLine.McpInvocation?
              && ParseMcpArguments(commandLine.arguments).Ok?
              && var config := ResolveStartupConfig(ParseMcpArguments(commandLine.arguments).value, env);
              && config.Ok?
              && x.served == Some(config.value.safetyMode)
              && x.clientConfig == Some(ClientConfigOf(config.value))
    ensures x.clientConfig.None? ==> x.served.None?
    ensures x.exitCode == 0 && x.clientConfig.None? ==> commandLine.McpCommanderError? && commandLine.code == HelpDisplayed
    ensures commandLine.McpCommanderError? ==>
              && x.clientConfig.None? && x.served.None?
              && (x.exitCode == 0 <==> commandLine.code == HelpDisplayed)
              && (commandLine.code != HelpDisplayed ==>
                    x.exitCode == 2 && x.stderr == [NormalizeCommanderMessage(commandLine.message) + "\n"])
    ensures commandLine.McpInvocation? && ParseMcpArguments(commandLine.arguments).Err? ==>
              x == McpExit(2, ["timeout-ms must be a positive number\n"], None, None)
    ensures x.clientConfig.Some? && x.served.None? ==>
              && createClient(x.clientConfig.value).Err?
              && x == McpFailure(createClient(x.clientConfig.value).error, x.clientConfig, None)
    ensures x.served.Some? ==>
              && createClient(x.clientConfig.value).Ok?
              && var outcome := runStdio(createClient(x.clientConfig.value).value, x.served.value);
              && (outcome.Pass? ==> x.exitCode == 0 && x.stderr == [])
              && (outcome.Fail? ==> x == McpFailure(outcome.error, x.clientConfig, x.served))
  {
    match commandLine
    case McpCommanderError(code, message) => McpFailure(CommanderErrorInstance(code, message), None, None)
    case McpInvocation(arguments) =>
      match ParseMcpArguments(arguments)
      case Err(e) =>
        assert "timeout-ms must be a positive number" + "\n" == "timeout-ms must be a positive number\n";
        McpFailure(FilesErrorInstance(e), None, None)
      case Ok(options) =>
        match ResolveStartupConfig(options, env)
        case Err(e) => McpFailure(FilesErrorInstance(e), None, None)
        case Ok(config) =>
          var clientConfig := ClientConfigOf(config);
          match createClient(clientConfig)
          case Err(thrown) => McpFailure(thrown, Some(clientConfig), None)
          case Ok(client) =>
            match runStdio(client, config.safetyMode)
            case Fail(thrown) => McpFailure(thrown, Some(clientConfig), Some(config.safetyMode))
            case Pass => McpExit(0, [], Some(clientConfig), Some(config.safetyMode))
  }

  /** A configuration that cannot be resolved ends the run with exit code 2
      and its message, before any client is created or the server started. */
  lemma {:induction false} ConfigFailureNeverServes(
    arguments: McpArguments,
    env: Env,
    createClient: ClientConfig -> Result<Client, Value>,
    runStdio: (Client, Mode) -> Outcome<Value>)
    requires ParseMcpArguments(arguments).Ok?
    requires ResolveStartupConfig(ParseMcpArguments(arguments).value, env).Err?
    ensures var x := RunMcp(McpInvocation(arguments), env, createClient, runStdio);
            && x.exitCode == 2
            && x.clientConfig.None? && x.served.None?
            && x.stderr == [ResolveStartupConfig(ParseMcpArguments(arguments).value, env).error.message + "\n"]
  {
  }

  /** With no key anywhere the server does not start, whatever else is given. */
  lemma {:induction false} MissingKeyNeverServes(
    arguments: McpArguments,
    env: Env,
    createClient: ClientConfig -> Result<Client, Value>,
    runStdio: (Client, Mode) -> Outcome<Value>)
    requires arguments.apiKey.None? && "GEMINI_API_KEY" !in env && "GOOGLE_API_KEY" !in env
    requires ParseMcpArguments(arguments).Ok?
    ensures var x := RunMcp(McpInvocation(arguments), env, createClient, runStdio);
            x.exitCode == 2 && x.served.None? && x.stderr == [MissingApiKey + "\n"]
  {
    ConfigFailureNeverServes(arguments, env, createClient, runStdio);
  }

  /** `--help` is answered by commander and runMcp exits with 0 without
      resolving a configuration or starting the server. */
  lemma {:induction false} McpHelpExitsZero(
    message: string,
    env: Env,
    createClient: ClientConfig -> Result<Client, Value>,
    runStdio: (Client, Mode) -> Outcome<Value>)
    ensures var x := RunMcp(McpCommanderError(HelpDisplayed, message), env, createClient, runStdio);
            x == McpExit(0, [], None, None)
  {
  }

  /** `--timeout-ms 0` is refused while argv is parsed: exit code 2, nothing
      created and nothing served, whatever the environment holds. */
  lemma {:induction false} McpZeroTimeoutRefused(
    arguments: McpArguments,
    env: Env,
    createClient: ClientConfig -> Result<Client, Value>,
    runStdio: (Client, Mode) -> Outcome<Value>)
    requires arguments.timeoutMs == Some("0")
    ensures var x := RunMcp(McpInvocation(arguments), env, createClient, runStdio);
            x == McpExit(2, ["timeout-ms must be a positive number\n"], None, None)
  {
    assert NatToString(0) == "0";
    PositiveNumberOfDecimal(0, "timeout-ms must be a positive number");
  }

  /** A positive `--timeout-ms` given as decimal digits is the timeout the
      files client is created with, whatever `GEMINI_TIMEOUT_MS` says. */
  lemma {:induction false} McpTimeoutReachesClient(
    arguments: McpArguments,
    n: nat,
    env: Env,
    createClient: ClientConfig -> Result<Client, Value>,
    runStdio: (Client, Mode) -> Outcome<Value>)
    requires arguments.timeoutMs == Some(NatToString(n))
    requires ParseMcpArguments(arguments).Ok?
    requires ResolveStartupConfig(ParseMcpArguments(arguments).value, env).Ok?
    ensures var x := RunMcp(McpInvocation(arguments), env, createClient, runStdio);
            x.clientConfig.Some? && x.clientConfig.value.timeoutMs == Some(n)
  {
    ParseNumberOfNatToString(n);
  }
}

=== FILE: safety.dfy ===
/**
  The safety gate (packages/common/src/safety.ts): which file operations
  write, how the safety mode is resolved, and whether a call may proceed.
 */
module Safety {
  import opened Wrappers
  import opened Values

  datatype Mode = ReadOnly | Balanced | Unsafe

  datatype Operation = Upload | List | Get | Delete | Download

  /** The modes in the order the error message lists them. */
  const SafetyModes: seq<Mode> := [ReadOnly, Balanced, Unsafe]

  function ModeName(m: Mode): string {
    match m
    case ReadOnly => "read-only"
    case Balanced => "balanced"
    case Unsafe => "unsafe"
  }

  function OperationName(op: Operation): string {
    match op
    case Upload => "upload"
    case List => "list"
    case Get => "get"
    case Delete => "delete"
    case Download => "download"
  }

  predicate IsWriteOperation(op: Operation) {
    op == Upload || op == Delete || op == Download
  }

  /**
    The gate's decision table, stated per mode: read-only admits only reads,
    balanced admits a write only when the call is confirmed, unsafe admits
    everything.
   */
  predicate Permits(mode: Mode, op: Operation, confirmed: bool) {
    match mode
    case ReadOnly => !IsWriteOperation(op)
    case Balanced => !IsWriteOperation(op) || confirmed
    case Unsafe => true
  }

  /** `SAFETY_MODES.includes(raw)`, returning the mode found. */
  function FindMode(modes: seq<Mode>, raw: string): (r: Option<Mode>)
    ensures r.Some? ==> r.value in modes && ModeName(r.value) == raw
    ensures r.None? ==> forall m :: m in modes ==> ModeName(m) != raw
  {
    if |modes| == 0 then None
    else if ModeName(modes[0]) == raw then Some(modes[0])
    else FindMode(modes[1..], raw)
  }

  /** `SAFETY_MODES.join(', ')`. */
  function JoinModeNames(modes: seq<Mode>): string {
    if |modes| == 0 then ""
    else if |modes| == 1 then ModeName(modes[0])
    else ModeName(modes[0]) + ", " + JoinModeNames(modes[1..])
  }

  /**
    parseSafetyMode: an absent or empty value is absent, a mode name is that
    mode, and anything else is a validation error.
   */
  function ParseSafetyMode(raw: Option<string>): (r: Result<Option<Mode>, FilesError>)
    ensures forall m :: r == Ok(Some(m)) <==> raw == Some(ModeName(m))
    ensures r == Ok(None) <==> raw == None || raw == Some("")
    ensures r.Err? ==> r.error.ValidationFailure?
  {
    if raw.None? || raw.value == "" then Ok(None)
    else
      match FindMode(SafetyModes, raw.value)
      case Some(m) => Ok(Some(m))
      case None =>
        Err(NewValidationError(
          "Invalid safety mode: " + raw.value + ". Expected one of: " + JoinModeNames(SafetyModes),
          Undefined))
  }

  /**
    resolveSafetyMode: the flag if it names a mode, else the environment value
    if it names a mode, else the default (read-only when none is given).  The
    environment value is parsed only when the flag is absent or empty.
   */
  function ResolveSafetyMode(cliFlag: Option<string>, env: Option<string>, defaultMode: Option<Mode>)
    : (r: Result<Mode, FilesError>)
    ensures r.Err? ==> r.error.ValidationFailure?
  {
    var fallback := defaultMode.GetOr(ReadOnly);
    match ParseSafetyMode(cliFlag)
    case Err(e) => Err(e)
    case Ok(Some(m)) => Ok(m)
    case Ok(None) =>
      match ParseSafetyMode(env)
      case Err(e) => Err(e)
      case Ok(Some(m)) => Ok(m)
      case Ok(None) => Ok(fallback)
  }

  /** Precedence of mode resolution: flag over environment over default. */
  lemma ResolvePrecedence(cliFlag: Option<string>, env: Option<string>, defaultMode: Option<Mode>)
    ensures forall m :: cliFlag == Some(ModeName(m))
              ==> ResolveSafetyMode(cliFlag, env, defaultMode) == Ok(m)
    ensures forall m :: (cliFlag == None || cliFlag == Some("")) && env == Some(ModeName(m))
              ==> ResolveSafetyMode(cliFlag, env, defaultMode) == Ok(m)
    ensures ((cliFlag == None || cliFlag == Some("")) && (env == None || env == Some("")))
              ==> ResolveSafetyMode(cliFlag, env, defaultMode) == Ok(defaultMode.GetOr(ReadOnly))
    ensures ResolveSafetyMode(None, None, None) == Ok(ReadOnly)
  {
  }

  /** An unrecognised non-empty value at the level reached is rejected. */
  lemma ResolveRejectsUnknown(cliFlag: Option<string>, env: Option<string>, defaultMode: Option<Mode>)
    ensures (cliFlag.Some? && cliFlag.value != "" && (forall m :: cliFlag.value != ModeName(m)))
              ==> ResolveSafetyMode(cliFlag, env, defaultMode).Err?
    ensures ((cliFlag == None || cliFlag == Some("")) && env.Some? && env.value != ""
              && (forall m :: env.value != ModeName(m)))
              ==> ResolveSafetyMode(cliFlag, env, defaultMode).Err?
  {
    if cliFlag.Some? && cliFlag.value != "" && (forall m :: cliFlag.value != ModeName(m)) {
      assert forall m :: ParseSafetyMode(cliFlag) != Ok(Some(m));
    }
    if (cliFlag == None || cliFlag == Some("")) && env.Some? && env.value != ""
       && (forall m :: env.value != ModeName(m)) {
      assert forall m :: ParseSafetyMode(env) != Ok(Some(m));
    }
  }

  /** enforceCliSafety: the `--force` flag is the confirmation. */
  function EnforceCliSafety(mode: Mode, op: Operation, forceFlag: bool): (r: Outcome<FilesError>)
    ensures r == Pass <==> Permits(mode, op, forceFlag)
    ensures r.Fail? ==> r.error.ValidationFailure?
  {
    if !IsWriteOperation(op) then Pass
    else if mode == ReadOnly then
      Fail(NewValidationError(
        "Operation " + OperationName(op) + " is blocked in read-only safety mode", Undefined))
    else if mode == Balanced && !forceFlag then
      Fail(NewValidationError(
        "Operation " + OperationName(op) + " requires --force in balanced safety mode", Undefined))
    else Pass
  }

  /** enforceMcpSafety: the `confirm` argument is the confirmation. */
  function EnforceMcpSafety(mode: Mode, op: Operation, confirm: bool): (r: Outcome<FilesError>)
    ensures r == Pass <==> Permits(mode, op, confirm)
    ensures r.Fail? ==> r.error.ValidationFailure?
  {
    if !IsWriteOperation(op) then Pass
    else if mode == ReadOnly then
      Fail(NewValidationError(
        "Operation " + OperationName(op) + " is blocked in read-only safety mode", Undefined))
    else if mode == Balanced && !confirm then
      Fail(NewValidationError(
        "Operation " + OperationName(op) + " requires confirm=true in balanced safety mode", Undefined))
    else Pass
  }

  /** Both front-ends make the same decision for the same mode, operation and
      flag; they differ only in the wording of a balanced-mode denial. */
  lemma GatesAgree(mode: Mode, op: Operation, flag: bool)
    ensures EnforceCliSafety(mode, op, flag).Pass? <==> EnforceMcpSafety(mode, op, flag).Pass?
    ensures mode == ReadOnly ==> EnforceCliSafety(mode, op, flag) == EnforceMcpSafety(mode, op, flag)
  {
  }

  /** The per-mode behaviour of the gate. */
  lemma GateByMode(op: Operation, flag: bool)
    ensures !IsWriteOperation(op) ==>
              forall m :: EnforceCliSafety(m, op, flag) == Pass && EnforceMcpSafety(m, op, flag) == Pass
    ensures IsWriteOperation(op) ==> EnforceCliSafety(ReadOnly, op, true).Fail?
    ensures IsWriteOperation(op) ==> (EnforceCliSafety(Balanced, op, flag) == Pass <==> flag)
    ensures EnforceCliSafety(Unsafe, op, flag) == Pass
  {
  }
}

=== FILE: server.dfy ===
/**
  The MCP request handler (packages/gemini-files-mcp/src/server.ts): the
  fixed tool catalogue, the argument checks, the order in which a tool call
  consults the safety gate, validates its arguments and calls the client,
  and the JSON-RPC envelope around it.  The client and `writeFile` are
  parameters; every call made to them is recorded in order.
 */
module Server {
  import opened Wrappers
  import opened Values
  import opened Safety
  import opened FilesTypes
  import opened ToolErrors

  datatype Annotations = Annotations(readOnlyHint: bool, destructiveHint: bool, idempotentHint: bool, openWorldHint: bool)

  /** One property of a tool's input schema and its JSON type. */
  datatype Property = Property(name: string, jsonType: string)

  /** A tool definition; `required` is absent from a schema that lists none. */
  datatype ToolDefinition = ToolDefinition(
    name: string,
    description: string,
    properties: seq<Property>,
    required: Option<seq<string>>,
    annotations: Annotations)

  const Tools: seq<ToolDefinition> := [
    ToolDefinition(
      "files_upload", "Upload a file to Gemini Files API.",
      [Property("path", "string"), Property("displayName", "string"),
       Property("mimeType", "string"), Property("confirm", "boolean")],
      Some(["path"]),
      Annotations(false, false, false, true)),
    ToolDefinition(
      "files_list", "List files from Gemini Files API.",
      [Property("pageSize", "number"), Property("pageToken", "string")],
      None,
      Annotations(true, false, true, true)),
    ToolDefinition(
      "files_get", "Get a file by name.",
      [Property("name", "string")],
      Some(["name"]),
      Annotations(true, false, true, true)),
    ToolDefinition(
      "files_delete", "Delete a file by name.",
      [Property("name", "string"), Property("confirm", "boolean")],
      Some(["name"]),
      Annotations(false, true, true, true)),
    ToolDefinition(
      "files_download", "Download a file by name to a local path.",
      [Property("name", "string"), Property("outputPath", "string"), Property("confirm", "boolean")],
      Some(["name", "outputPath"]),
      Annotations(false, false, true, true))
  ]

  /** The file operation a tool performs, by tool name. */
  function ToolOperation(toolName: string): Option<Operation> {
    if toolName == "files_upload" then Some(Upload)
    else if toolName == "files_list" then Some(List)
    else if toolName == "files_get" then Some(Get)
    else if toolName == "files_delete" then Some(Delete)
    else if toolName == "files_download" then Some(Download)
    else None
  }

  predicate HasProperty(t: ToolDefinition, name: string) {
    exists k :: 0 <= k < |t.properties| && t.properties[k].name == name
  }

  /** What one catalogue entry must agree with: the gate and the handler. */
  predicate CatalogueEntryAgrees(t: ToolDefinition) {
    && ToolOperation(t.name).Some?
    && (t.annotations.readOnlyHint <==> !IsWriteOperation(ToolOperation(t.name).value))
    && (HasProperty(t, "confirm") <==> IsWriteOperation(ToolOperation(t.name).value))
    && (t.annotations.destructiveHint <==> ToolOperation(t.name) == Some(Delete))
    && t.required.GetOr([]) == RequiredArguments(ToolOperation(t.name).value)
  }

  lemma {:induction false} CatalogueEntry(i: nat)
    requires i < |Tools|
    ensures CatalogueEntryAgrees(Tools[i])
  {
    var t := Tools[i];
    if i == 0 {
      assert t.properties[3].name == "confirm";
    } else if i == 1 {
      forall k | 0 <= k < |t.properties| ensures t.properties[k].name != "confirm" {
        assert k == 0 || k == 1;
      }
    } else if i == 2 {
      forall k | 0 <= k < |t.properties| ensures t.properties[k].name != "confirm" {
        assert k == 0;
      }
    } else if i == 3 {
      assert t.properties[1].name == "confirm";
    } else {
      assert t.properties[2].name == "confirm";
    }
  }

  /**
    What the catalogue advertises agrees with the gate and the handler: a
    tool is read-only exactly when its operation does not write, offers
    `confirm` exactly when it writes, only delete is destructive, and its
    required arguments are the ones the handler checks before calling the
    client.
   */
  lemma {:induction false} CatalogueMatchesGate()
    ensures forall i :: 0 <= i < |Tools| ==> CatalogueEntryAgrees(Tools[i])
  {
    forall i | 0 <= i < |Tools| ensures CatalogueEntryAgrees(Tools[i]) {
      CatalogueEntry(i);
    }
  }

  /** The catalogue offers exactly one tool per operation, in this order. */
  lemma {:induction false} CatalogueCoversOperations()
    ensures |Tools| == 5
    ensures && ToolOperation(Tools[0].name) == Some(Upload)
            && ToolOperation(Tools[1].name) == Some(List)
            && ToolOperation(Tools[2].name) == Some(Get)
            && ToolOperation(Tools[3].name) == Some(Delete)
            && ToolOperation(Tools[4].name) == Some(Download)
  {
  }

  /** expectString: a non-empty string, or a validation failure naming the field. */
  function ExpectString(v: Value, fieldName: string): (r: Result<string, Value>)
    ensures r.Ok? <==> v.Str? && v.s != ""
    ensures r.Ok? ==> v == Str(r.value)
    ensures r.Err? ==> r.error == Invalid(fieldName + " is required and must be a non-empty string")
  {
    if !v.Str? || v.s == "" then Err(Invalid(fieldName + " is required and must be a non-empty string"))
    else Ok(v.s)
  }

  /** parseConfirm: the call is confirmed only by the boolean `true`. */
  predicate ParseConfirm(args: Value) {
    Prop(args, "confirm") == Bool(true)
  }

  /** Truthy look-alikes of `true` do not confirm a call. */
  lemma {:induction false} ConfirmOnlyByTrue(args: Value)
    requires Prop(args, "confirm") in {Str("true"), Num(1), Bool(false), Undefined, Null}
    ensures !ParseConfirm(args)
  {
  }

  /** `v ?? {}`. */
  function OrEmptyObject(v: Value): Value {
    if v.Undefined? || v.Null? then Obj(map[]) else v
  }

  /** enforceToolSafety: the MCP gate, confirmed by the call's arguments. */
  function EnforceToolSafety(mode: Mode, op: Operation, args: Value): (r: Outcome<Value>)
    ensures r.Pass? <==> Permits(mode, op, ParseConfirm(args))
    ensures r.Fail? ==> IsValidationInstance(r.error)
  {
    match EnforceMcpSafety(mode, op, ParseConfirm(args))
    case Pass => Pass
    case Fail(e) => Fail(FilesErrorInstance(e))
  }

  /** The arguments a tool needs as non-empty strings before the client is called. */
  function RequiredArguments(op: Operation): seq<string> {
    match op
    case Upload => ["path"]
    case List => []
    case Get => ["name"]
    case Delete => ["name"]
    case Download => ["name", "outputPath"]
  }

  /** A string argument, or the empty string where the argument is not one. */
  function StringArg(args: Value, key: string): (s: string)
    ensures s != "" <==> Prop(args, key).Str? && Prop(args, key).s != ""
  {
    if Prop(args, key).Str? then Prop(args, key).s else ""
  }

  predicate HasRequired(args: Value, op: Operation) {
    forall k :: 0 <= k < |RequiredArguments(op)| ==> StringArg(args, RequiredArguments(op)[k]) != ""
  }

  /** The client call a tool makes for the given arguments. */
  function ClientCallOf(op: Operation, args: Value): Effect {
    match op
    case Upload =>
      UploadCall(UploadFileInput(StringArg(args, "path"), MaybeString(Prop(args, "displayName")), MaybeString(Prop(args, "mimeType"))))
    case List => ListCall(ListFilesInput(MaybeNumber(Prop(args, "pageSize")), MaybeString(Prop(args, "pageToken"))))
    case Get => GetCall(StringArg(args, "name"))
    case Delete => DeleteCall(StringArg(args, "name"))
    case Download => DownloadCall(StringArg(args, "name"))
  }

  /** A writing tool's call passes the gate; a reading tool's always does. */
  predicate Admitted(mode: Mode, op: Operation, args: Value) {
    !IsWriteOperation(op) || Permits(mode, op, ParseConfirm(args))
  }

  /**
    What every tool run satisfies: the client is called exactly when the call
    was admitted and its required arguments are present; that call comes
    first and uses the arguments given; only a download makes a second call,
    to the file system; a run that called nothing failed with a validation
    error; and when the client throws, the run ends there with what it threw.
   */
  predicate ToolContract(op: Operation, client: Client, args: Value, admitted: bool, r: Run<Payload>) {
    && (r.effects != [] <==> admitted && HasRequired(args, op))
    && |r.effects| <= (if op == Download then 2 else 1)
    && (r.effects != [] ==> r.effects[0] == ClientCallOf(op, args))
    && (forall k :: 0 <= k < |r.effects| ==> (IsClientCall(r.effects[k]) <==> k == 0))
    && (r.effects == [] ==> r.result.Err? && IsValidationInstance(r.result.error))
    && (r.effects != [] && ClientThrows(client, r.effects[0]).Some? ==>
          |r.effects| == 1 && r.result == Err(ClientThrows(client, r.effects[0]).value))
  }

  /** A denied call fails with the gate's own error. */
  predicate DeniedByGate(mode: Mode, op: Operation, args: Value, r: Run<Payload>)
    requires IsWriteOperation(op)
  {
    !Permits(mode, op, ParseConfirm(args)) ==>
      r.result == Err(FilesErrorInstance(EnforceMcpSafety(mode, op, ParseConfirm(args)).error))
  }

  function UploadTool(mode: Mode, client: Client, args: Value): (r: Run<Payload>)
    ensures ToolContract(Upload, client, args, Permits(mode, Upload, ParseConfirm(args)), r)
    ensures DeniedByGate(mode, Upload, args, r)
    ensures r.effects != [] && client.uploadFile(r.effects[0].upload).Ok? ==>
              r.result == Ok(FilePayload(client.uploadFile(r.effects[0].upload).value))
  {
    match EnforceToolSafety(mode, Upload, args)
    case Fail(e) => Run(Err(e), [])
    case Pass =>
      match ExpectString(Prop(args, "path"), "path")
      case Err(e) =>
        assert StringArg(args, RequiredArguments(Upload)[0]) == "";
        Run(Err(e), [])
      case Ok(path) =>
        var input := UploadFileInput(path, MaybeString(Prop(args, "displayName")), MaybeString(Prop(args, "mimeType")));
        match client.uploadFile(input)
        case Err(thrown) => Run(Err(thrown), [UploadCall(input)])
        case Ok(file) => Run(Ok(FilePayload(file)), [UploadCall(input)])
  }

  function ListTool(client: Client, args: Value): (r: Run<Payload>)
    ensures ToolContract(List, client, args, true, r)
    ensures client.listFiles(r.effects[0].list).Ok? ==> r.result == Ok(ListPayload(client.listFiles(r.effects[0].list).value))
  {
    var input := ListFilesInput(MaybeNumber(Prop(args, "pageSize")), MaybeString(Prop(args, "pageToken")));
    match client.listFiles(input)
    case Err(thrown) => Run(Err(thrown), [ListCall(input)])
    case Ok(listing) => Run(Ok(ListPayload(listing)), [ListCall(input)])
  }

  function GetTool(client: Client, args: Value): (r: Run<Payload>)
    ensures ToolContract(Get, client, args, true, r)
    ensures r.effects != [] && client.getFile(r.effects[0].name).Ok? ==>
              r.result == Ok(FilePayload(client.getFile(r.effects[0].name).value))
  {
    match ExpectString(Prop(args, "name"), "name")
    case Err(e) =>
      assert StringArg(args, RequiredArguments(Get)[0]) == "";
      Run(Err(e), [])
    case Ok(name) =>
      match client.getFile(name)
      case Err(thrown) => Run(Err(thrown), [GetCall(name)])
      case Ok(file) => Run(Ok(FilePayload(file)), [GetCall(name)])
  }

  function DeleteTool(mode: Mode, client: Client, args: Value): (r: Run<Payload>)
    ensures ToolContract(Delete, client, args, Permits(mode, Delete, ParseConfirm(args)), r)
    ensures DeniedByGate(mode, Delete, args, r)
    ensures r.effects != [] && client.deleteFile(r.effects[0].name).Pass? ==> r.result == Ok(DeletedPayload)
  {
    match EnforceToolSafety(mode, Delete, args)
    case Fail(e) => Run(Err(e), [])
    case Pass =>
      match ExpectString(Prop(args, "name"), "name")
      case Err(e) =>
        assert StringArg(args, RequiredArguments(Delete)[0]) == "";
        Run(Err(e), [])
      case Ok(name) =>
        match client.deleteFile(name)
        case Fail(thrown) => Run(Err(thrown), [DeleteCall(name)])
        case Pass => Run(Ok(DeletedPayload), [DeleteCall(name)])
  }

  function DownloadTool(mode: Mode, client: Client, writeFile: FileWriter, args: Value): (r: Run<Payload>)
    ensures ToolContract(Download, client, args, Permits(mode, Download, ParseConfirm(args)), r)
    ensures DeniedByGate(mode, Download, args, r)
    ensures r.effects != [] && client.downloadFile(r.effects[0].name).Ok? ==>
              var bytes := client.downloadFile(r.effects[0].name).value;
              var path := StringArg(args, "outputPath");
              && r.effects == [r.effects[0], WriteFileCall(path, |bytes|)]
              && (writeFile(path, bytes).Pass? ==> r.result == Ok(DownloadPayload(path, |bytes|)))
              && (writeFile(path, bytes).Fail? ==> r.result == Err(writeFile(path, bytes).error))
    ensures r.result.Ok? ==> |r.effects| == 2 && r.result.value == DownloadPayload(r.effects[1].path, r.effects[1].size)
  {
    match EnforceToolSafety(mode, Download, args)
    case Fail(e) => Run(Err(e), [])
    case Pass =>
      match ExpectString(Prop(args, "name"), "name")
      case Err(e) =>
        assert StringArg(args, RequiredArguments(Download)[0]) == "";
        Run(Err(e), [])
      case Ok(name) =>
        match ExpectString(Prop(args, "outputPath"), "outputPath")
        case Err(e) =>
          assert StringArg(args, RequiredArguments(Download)[1]) == "";
          Run(Err(e), [])
        case Ok(outputPath) =>
          match client.downloadFile(name)
          case Err(thrown) => Run(Err(thrown), [DownloadCall(name)])
          case Ok(bytes) =>
            var effects := [DownloadCall(name), WriteFileCall(outputPath, |bytes|)];
            match writeFile(outputPath, bytes)
            case Fail(thrown) => Run(Err(thrown), effects)
            case Pass => Run(Ok(DownloadPayload(outputPath, |bytes|)), effects)
  }

  /** The tool a call names, if its `name` is a string naming one. */
  function CalledOperation(params: Value): Option<Operation> {
    if Prop(params, "name").Str? then ToolOperation(Prop(params, "name").s) else None
  }

  /** `params.arguments ?? {}`. */
  function ArgumentsOf(params: Value): Value {
    OrEmptyObject(Prop(params, "arguments"))
  }

  /**
    handleToolCall: the tool name is checked first; a writing tool then
    consults the gate before it validates its arguments; the client is
    called last, and `writeFile` only after a download delivered bytes.
   */
  function HandleToolCall(mode: Mode, client: Client, writeFile: FileWriter, params: Value): (r: Run<Payload>)
    ensures CalledOperation(params).None? ==> r.effects == [] && r.result.Err? && IsValidationInstance(r.result.error)
    ensures CalledOperation(params).Some? ==>
              var op := CalledOperation(params).value;
              && ToolContract(op, client, ArgumentsOf(params), Admitted(mode, op, ArgumentsOf(params)), r)
              && (IsWriteOperation(op) ==> DeniedByGate(mode, op, ArgumentsOf(params), r))
    ensures CalledOperation(params) == Some(Upload) ==> r == UploadTool(mode, client, ArgumentsOf(params))
    ensures CalledOperation(params) == Some(List) ==> r == ListTool(client, ArgumentsOf(params))
    ensures CalledOperation(params) == Some(Get) ==> r == GetTool(client, ArgumentsOf(params))
    ensures CalledOperation(params) == Some(Delete) ==> r == DeleteTool(mode, client, ArgumentsOf(params))
    ensures CalledOperation(params) == Some(Download) ==> r == DownloadTool(mode, client, writeFile, ArgumentsOf(params))
  {
    match ExpectString(Prop(params, "name"), "name")
    case Err(e) => Run(Err(e), [])
    case Ok(toolName) =>
      var args := ArgumentsOf(params);
      if toolName == "files_upload" then UploadTool(mode, client, args)
      else if toolName == "files_list" then ListTool(client, args)
      else if toolName == "files_get" then GetTool(client, args)
      else if toolName == "files_delete" then DeleteTool(mode, client, args)
      else if toolName == "files_download" then DownloadTool(mode, client, writeFile, args)
      else Run(Err(Invalid("Unknown tool: " + toolName)), [])
  }

  /** The read-only tools never consult the safety mode. */
  lemma {:induction false} ReadToolsIgnoreMode(m1: Mode, m2: Mode, client: Client, writeFile: FileWriter, params: Value)
    requires CalledOperation(params) == Some(List) || CalledOperation(params) == Some(Get)
    ensures HandleToolCall(m1, client, writeFile, params) == HandleToolCall(m2, client, writeFile, params)
  {
  }

  /** The first thing a writing tool checks is the gate: a denied call fails
      with the gate's error even when its arguments are missing, and no
      call is made. */
  lemma {:induction false} DeniedCallsNeverReachClient(mode: Mode, client: Client, writeFile: FileWriter, params: Value)
    requires CalledOperation(params).Some? && IsWriteOperation(CalledOperation(params).value)
    requires !Permits(mode, CalledOperation(params).value, ParseConfirm(ArgumentsOf(params)))
    ensures HandleToolCall(mode, client, writeFile, params).effects == []
    ensures IsValidationInstance(HandleToolCall(mode, client, writeFile, params).result.error)
  {
  }

  /** A JSON-RPC request; an absent id or params is `Undefined`. */
  datatype Request = Request(id: Value, methodName: string, params: Value)

  datatype RpcResult =
    | Initialized(protocolVersion: string, serverName: string, serverVersion: string)
    | ToolList(tools: seq<ToolDefinition>)
    | ToolCallResult(structuredContent: Payload)

  datatype ResponseBody =
    | Success(result: RpcResult)
    | Failure(code: int, message: string, data: Option<ToolError>)

  datatype Response = Response(id: Value, body: ResponseBody)

  /** A request's answer, if any, and the calls made while handling it. */
  datatype Handled = Handled(response: Option<Response>, effects: seq<Effect>)

  const MethodNotFound: int := -32601
  const ToolCallFailed: int := -32000

  /** handleRequest. */
  function HandleRequest(mode: Mode, client: Client, writeFile: FileWriter, request: Request): (h: Handled)
    ensures h.response.None? <==> request.methodName == "notifications/initialized"
    ensures h.response.Some? ==>
              h.response.value.id == (if request.id.Undefined? || request.id.Null? then Null else request.id)
    ensures request.methodName != "tools/call" ==> h.effects == []
    ensures request.methodName == "initialize" ==>
              h.response.value.body == Success(Initialized("2024-11-05", "gemini-files-mcp", "0.1.0"))
    ensures request.methodName == "tools/list" ==> h.response.value.body == Success(ToolList(Tools))
    ensures request.methodName !in {"initialize", "tools/list", "tools/call", "notifications/initialized"} ==>
              h.response.value.body == Failure(MethodNotFound, "Method not found: " + request.methodName, None)
    ensures request.methodName == "tools/call" ==>
              var run := HandleToolCall(mode, client, writeFile, OrEmptyObject(request.params));
              && h.effects == run.effects
              && (run.result.Ok? ==> h.response.value.body == Success(ToolCallResult(run.result.value)))
              && (run.result.Err? ==>
                    var data := MapToolError(run.result.error);
                    h.response.value.body == Failure(ToolCallFailed, data.message, Some(data)))
  {
    var id := if request.id.Undefined? || request.id.Null? then Null else request.id;
    if request.methodName == "initialize" then
      Handled(Some(Response(id, Success(Initialized("2024-11-05", "gemini-files-mcp", "0.1.0")))), [])
    else if request.methodName == "tools/list" then
      Handled(Some(Response(id, Success(ToolList(Tools)))), [])
    else if request.methodName == "tools/call" then
      var run := HandleToolCall(mode, client, writeFile, OrEmptyObject(request.params));
      match run.result
      case Ok(payload) => Handled(Some(Response(id, Success(ToolCallResult(payload)))), run.effects)
      case Err(thrown) =>
        var structured := MapToolError(thrown);
        Handled(Some(Response(id, Failure(ToolCallFailed, structured.message, Some(structured)))), run.effects)
    else if request.methodName == "notifications/initialized" then
      Handled(None, [])
    else
      Handled(Some(Response(id, Failure(MethodNotFound, "Method not found: " + request.methodName, None))), [])
  }

  /** A tool call that fails on a policy or argument check reaches the caller
      as a -32000 error whose data says VALIDATION_ERROR, after no calls. */
  lemma {:induction false} RejectedCallResponse(mode: Mode, client: Client, writeFile: FileWriter, request: Request)
    requires request.methodName == "tools/call"
    requires HandleToolCall(mode, client, writeFile, OrEmptyObject(request.params)).effects == []
    ensures var h := HandleRequest(mode, client, writeFile, request);
            && h.effects == []
            && h.response.value.body.Failure?
            && h.response.value.body.code == ToolCallFailed
            && h.response.value.body.data.value.code == "VALIDATION_ERROR"
            && !h.response.value.body.data.value.retryable
  {
    var run := HandleToolCall(mode, client, writeFile, OrEmptyObject(request.params));
    assert run.result.Err? && IsValidationInstance(run.result.error);
  }

  /** Whatever the client throws during a tool call reaches the caller as a
      -32000 error carrying the structured form of that value. */
  lemma {:induction false} ClientFailureAnswered(mode: Mode, client: Client, writeFile: FileWriter, request: Request)
    requires request.methodName == "tools/call"
    requires var run := HandleToolCall(mode, client, writeFile, OrEmptyObject(request.params));
             run.effects != [] && ClientThrows(client, run.effects[0]).Some?
    ensures var run := HandleToolCall(mode, client, writeFile, OrEmptyObject(request.params));
            var data := MapToolError(ClientThrows(client, run.effects[0]).value);
            var h := HandleRequest(mode, client, writeFile, request);
            && h.effects == [run.effects[0]]
            && h.response.value.body == Failure(ToolCallFailed, data.message, Some(data))
  {
    var params := OrEmptyObject(request.params);
    var run := HandleToolCall(mode, client, writeFile, params);
    assert CalledOperation(params).Some?;
  }

  /** `files_list` answers with the client's listing as its structured
      content, whatever the mode, or with the client's failure. */
  lemma {:induction false} ListAnswersWithListing(mode: Mode, client: Client, writeFile: FileWriter, request: Request)
    requires request.methodName == "tools/call"
    requires CalledOperation(OrEmptyObject(request.params)) == Some(List)
    ensures var args := ArgumentsOf(OrEmptyObject(request.params));
            var input := ListFilesInput(MaybeNumber(Prop(args, "pageSize")), MaybeString(Prop(args, "pageToken")));
            var h := HandleRequest(mode, client, writeFile, request);
            && h.effects == [ListCall(input)]
            && (client.listFiles(input).Ok? ==>
                  h.response.value.body == Success(ToolCallResult(ListPayload(client.listFiles(input).value))))
            && (client.listFiles(input).Err? ==>
                  h.response.value.body.Failure? && h.response.value.body.code == ToolCallFailed
                  && h.response.value.body.data == Some(MapToolError(client.listFiles(input).error)))
  {
    var params := OrEmptyObject(request.params);
    var run := HandleToolCall(mode, client, writeFile, params);
    assert run == ListTool(client, ArgumentsOf(params));
  }
}

=== FILE: stdio.dfy ===
/**
  The stdio frame codec of the MCP server
  (packages/gemini-files-mcp/src/stdio.ts): `Content-Length` framing as in the
  JSON-RPC 2.0 base transport of LSP and MCP.  The buffer is a string, a
  message body is opaque text (JSON serialisation and parsing are not part of
  this model), and the pure buffer-update step of the server loop.

  The encoder declares the UTF-8 byte length of the body, while the decoder
  as written compares and slices by string length.  The decoder is therefore
  defined over a `Measure`: `StringUnits` stands for the code as written and
  `Utf8Bytes` is the byte-counting decoder the encoder presumes.  A `char`
  here is a Unicode scalar value, whereas a JavaScript string length counts
  UTF-16 code units; the two agree on text below U+10000 and differ by one
  per character above it.

  The decoder is a `Decoder` value: the function reading the declared length
  from a header block together with the measure.  The source's decoder is
  `SourceDecoder(StringUnits)`; the framing theorems hold for every decoder
  whose reader understands the header lines the encoder writes, which
  `SourceDecoderReadsHeaders` proves of the source's reader.
 */
module Stdio {
  import opened Wrappers
  import opened Text

  const HeaderTerminator: string := "\r\n\r\n"
  const LineBreak: string := "\r\n"
  const ContentLengthKey: string := "content-length:"
  const HeaderPrefix: string := "Content-Length: "

  /** How the declared length of a frame is counted by the decoder. */
  datatype Measure =
    | StringUnits  // `rest.length` and `rest.slice`, counted per character rather than per UTF-16 code unit
    | Utf8Bytes    // bytes of the UTF-8 encoding of the text

  /** Bytes of one character in UTF-8. */
  function Utf8Width(c: char): nat {
    if c as int < 0x80 then 1
    else if c as int < 0x800 then 2
    else if c as int < 0x10000 then 3
    else 4
  }

  /** `Buffer.byteLength(s, 'utf8')`. */
  function Utf8Length(s: string): nat
    decreases |s|
  {
    if |s| == 0 then 0 else Utf8Width(s[0]) + Utf8Length(s[1..])
  }

  predicate IsAscii(s: string) {
    forall i :: 0 <= i < |s| ==> s[i] as int < 0x80
  }

  lemma {:induction false} Utf8LengthConcat(a: string, b: string)
    ensures Utf8Length(a + b) == Utf8Length(a) + Utf8Length(b)
    decreases |a|
  {
    if |a| > 0 {
      assert (a + b)[1..] == a[1..] + b;
      Utf8LengthConcat(a[1..], b);
    } else {
      assert a + b == b;
    }
  }

  /** Every character takes at least one byte, and an ASCII character exactly one. */
  lemma {:induction false} Utf8LengthBounds(s: string)
    ensures Utf8Length(s) >= |s|
    ensures IsAscii(s) ==> Utf8Length(s) == |s|
    decreases |s|
  {
    if |s| > 0 {
      Utf8LengthBounds(s[1..]);
      assert IsAscii(s) ==> IsAscii(s[1..]);
    }
  }

  function Measured(s: string, m: Measure): nat {
    match m
    case StringUnits => |s|
    case Utf8Bytes => Utf8Length(s)
  }

  /** The number of leading characters of `s` whose UTF-8 encoding is exactly
      `n` bytes, or None when `s` is too short or `n` ends inside a character. */
  function Utf8Prefix(s: string, n: nat): (r: Option<nat>)
    ensures r.Some? ==> r.value <= |s| && Utf8Length(s[..r.value]) == n
    decreases |s|
  {
    if n == 0 then Some(0)
    else if |s| == 0 || Utf8Width(s[0]) > n then None
    else
      match Utf8Prefix(s[1..], n - Utf8Width(s[0]))
      case None => None
      case Some(k) =>
        assert s[..k + 1][1..] == s[1..][..k];
        Some(k + 1)
  }

  /** How many characters after the header hold a body of declared length
      `n`, or None when the buffer does not yet hold that much. */
  function BodyLength(s: string, n: nat, m: Measure): (r: Option<nat>)
    ensures r.Some? ==> r.value <= |s| && Measured(s[..r.value], m) == n
  {
    match m
    case StringUnits => if |s| < n then None else Some(n)
    case Utf8Bytes => Utf8Prefix(s, n)
  }

  /** The first header line whose lower-cased text starts with "content-length:". */
  function FindContentLengthHeader(lines: seq<string>): Option<string>
  {
    if |lines| == 0 then None
    else if StartsWith(LowerCase(lines[0]), ContentLengthKey) then Some(lines[0])
    else FindContentLengthHeader(lines[1..])
  }

  /** No header is found only when no line carries the name, and the one
      found is the first that does. */
  lemma {:induction false} FindContentLengthHeaderFirst(lines: seq<string>)
    ensures FindContentLengthHeader(lines).None? <==>
              forall i :: 0 <= i < |lines| ==> !StartsWith(LowerCase(lines[i]), ContentLengthKey)
    ensures FindContentLengthHeader(lines).Some? ==>
              exists i :: 0 <= i < |lines| && lines[i] == FindContentLengthHeader(lines).value
                && StartsWith(LowerCase(lines[i]), ContentLengthKey)
                && forall j :: 0 <= j < i ==> !StartsWith(LowerCase(lines[j]), ContentLengthKey)
    decreases |lines|
  {
    if |lines| > 0 && !StartsWith(LowerCase(lines[0]), ContentLengthKey) {
      FindContentLengthHeaderFirst(lines[1..]);
      var r := FindContentLengthHeader(lines);
      if r.Some? {
        var i :| 0 <= i < |lines[1..]| && lines[1..][i] == r.value
                 && StartsWith(LowerCase(lines[1..][i]), ContentLengthKey)
                 && forall j :: 0 <= j < i ==> !StartsWith(LowerCase(lines[1..][j]), ContentLengthKey);
        assert lines[i + 1] == r.value;
        forall j | 0 <= j < i + 1 ensures !StartsWith(LowerCase(lines[j]), ContentLengthKey) {
          if j > 0 {
            assert lines[j] == lines[1..][j - 1];
          }
        }
      } else {
        forall j | 0 <= j < |lines| ensures !StartsWith(LowerCase(lines[j]), ContentLengthKey) {
          if j > 0 {
            assert lines[j] == lines[1..][j - 1];
          }
        }
      }
    } else if |lines| > 0 {
      assert lines[0] == FindContentLengthHeader(lines).value;
    }
  }

  /** `Number(line.split(':')[1]?.trim())`: the number between the first and
      the second colon of a header line. */
  function HeaderValue(line: string): Option<int> {
    var parts := Split(line, ":");
    if |parts| >= 2 then ParseNumber(Trim(parts[1])) else None
  }

  /**
    The length a header block declares: the value of its first
    content-length line, provided that value is a finite non-negative number.
   */
  function DeclaredLength(headerBlock: string): (r: Option<nat>)
  {
    match FindContentLengthHeader(Split(headerBlock, LineBreak))
    case None => None
    case Some(line) =>
      match HeaderValue(line)
      case None => None
      case Some(n) => if n < 0 then None else Some(n as nat)
  }

  /**
    A frame decoder: how it reads the declared length from the header block
    (the text before the first blank line), and how it counts that length.
   */
  datatype Decoder = Decoder(contentLength: string -> Option<nat>, measure: Measure)

  /** The decoder of stdio.ts, counting in the given unit. */
  function SourceDecoder(m: Measure): (dec: Decoder)
    ensures dec.measure == m
  {
    Decoder(DeclaredLength, m)
  }

  /** One complete frame found at the front of the buffer: its body and the
      number of characters it occupies. */
  datatype Frame = Frame(body: string, consumed: nat)

  /** One iteration of the decoding loop: the frame at the front of `rest`,
      or None where the loop stops. */
  function NextFrame(rest: string, dec: Decoder): (r: Option<Frame>)
    ensures r.Some? ==> |HeaderTerminator| <= r.value.consumed <= |rest|
  {
    match IndexOf(rest, HeaderTerminator)
    case None => None
    case Some(headerEnd) =>
      match dec.contentLength(rest[..headerEnd])
      case None => None
      case Some(n) =>
        var start := headerEnd + |HeaderTerminator|;
        match BodyLength(rest[start..], n, dec.measure)
        case None => None
        case Some(k) => Some(Frame(rest[start..start + k], start + k))
  }

  /** The frame found when the header ends at `h`, declares `n` and the
      buffer holds `k` characters of body. */
  lemma {:induction false} NextFrameAt(rest: string, dec: Decoder, h: nat, n: nat, k: nat)
    requires IndexOf(rest, HeaderTerminator) == Some(h)
    requires dec.contentLength(rest[..h]) == Some(n)
    requires BodyLength(rest[h + |HeaderTerminator|..], n, dec.measure) == Some(k)
    ensures NextFrame(rest, dec)
            == Some(Frame(rest[h + |HeaderTerminator|..h + |HeaderTerminator| + k], h + |HeaderTerminator| + k))
  {
  }

  /** No frame is taken from a buffer without a header terminator. */
  lemma {:induction false} NextFrameNoTerminator(rest: string, dec: Decoder)
    requires IndexOf(rest, HeaderTerminator).None?
    ensures NextFrame(rest, dec).None?
  {
  }

  /** No frame is taken while the buffer holds less body than the header declares. */
  lemma {:induction false} NextFrameIncomplete(rest: string, dec: Decoder, h: nat, n: nat)
    requires IndexOf(rest, HeaderTerminator) == Some(h)
    requires dec.contentLength(rest[..h]) == Some(n)
    requires BodyLength(rest[h + |HeaderTerminator|..], n, dec.measure).None?
    ensures NextFrame(rest, dec).None?
  {
  }

  /** The result of decoding: the message bodies in buffer order and the
      part of the buffer left for the next chunk. */
  datatype Decoded = Decoded(requests: seq<string>, rest: string)

  /**
    decodeFrames: consume complete frames from the front of the buffer until
    the next one is absent, malformed or incomplete.
   */
  function DecodeFrames(buffer: string, dec: Decoder): (d: Decoded)
    ensures |d.rest| <= |buffer|
    decreases |buffer|
  {
    match NextFrame(buffer, dec)
    case None => Decoded([], buffer)
    case Some(f) =>
      var d := DecodeFrames(buffer[f.consumed..], dec);
      Decoded([f.body] + d.requests, d.rest)
  }

  /** Decoding stops only where no frame can be taken from the rest. */
  lemma {:induction false} DecodeFramesStops(buffer: string, dec: Decoder)
    ensures NextFrame(DecodeFrames(buffer, dec).rest, dec).None?
    decreases |buffer|
  {
    match NextFrame(buffer, dec)
    case None =>
    case Some(f) =>
      DecodeFramesStops(buffer[f.consumed..], dec);
  }

  /** What decoding leaves is the tail of the buffer. */
  lemma {:induction false} DecodeFramesRestIsSuffix(buffer: string, dec: Decoder)
    ensures var r := DecodeFrames(buffer, dec).rest;
            r == buffer[|buffer| - |r|..]
    decreases |buffer|
  {
    match NextFrame(buffer, dec)
    case None =>
    case Some(f) =>
      var tail := buffer[f.consumed..];
      DecodeFramesRestIsSuffix(tail, dec);
      var r := DecodeFrames(tail, dec).rest;
      assert tail[|tail| - |r|..] == buffer[|buffer| - |r|..];
  }

  /** The decoding loop as the source writes it: each pass takes the frame
      at the front of the buffer, or leaves the loop. */
  method DecodeFramesLoop(buffer: string, dec: Decoder) returns (requests: seq<string>, rest: string)
    ensures Decoded(requests, rest) == DecodeFrames(buffer, dec)
  {
    requests := [];
    rest := buffer;
    AppendEmpty(DecodeFrames(buffer, dec).requests);
    while true
      invariant requests + DecodeFrames(rest, dec).requests == DecodeFrames(buffer, dec).requests
      invariant DecodeFrames(rest, dec).rest == DecodeFrames(buffer, dec).rest
      decreases |rest|
    {
      var frame := NextFrame(rest, dec);
      if frame.None? {
        break;
      }
      var next := rest[frame.value.consumed..];
      SnocAppend(requests, frame.value.body, DecodeFrames(next, dec).requests);
      requests := requests + [frame.value.body];
      rest := next;
    }
    AppendNothing(requests);
  }

  /** The header line the encoder writes for a body. */
  function HeaderLine(body: string): string {
    HeaderPrefix + NatToString(Utf8Length(body))
  }

  /** encodeFrame: the header, the blank line, then the body verbatim. */
  function EncodeFrame(body: string): string {
    HeaderLine(body) + HeaderTerminator + body
  }

  /** A header line has no line break in it. */
  lemma {:induction false} HeaderLineIsOneLine(n: nat)
    ensures Split(HeaderPrefix + NatToString(n), LineBreak) == [HeaderPrefix + NatToString(n)]
  {
    var digits := NatToString(n);
    NatToStringRoundTrip(n);
    var line := HeaderPrefix + digits;
    forall i | 0 <= i < |line| ensures line[i] != LineBreak[0] {
      if i >= |HeaderPrefix| {
        assert line[i] == digits[i - |HeaderPrefix|];
      }
    }
    SplitWithout(line, LineBreak);
  }

  /** The header name is matched without regard to case. */
  lemma {:induction false} HeaderLineFound(line: string)
    requires StartsWith(line, HeaderPrefix)
    ensures FindContentLengthHeader([line]) == Some(line)
  {
    var lower := LowerCase(line);
    assert lower[..|ContentLengthKey|] == ContentLengthKey by {
      forall i | 0 <= i < |ContentLengthKey| ensures lower[i] == ContentLengthKey[i] {
        assert line[i] == HeaderPrefix[i];
      }
    }
  }

  /** Splitting a header line at its colons gives the name and the value. */
  lemma {:induction false} HeaderLineColonSplit(digits: string)
    requires IsDigits(digits)
    ensures Split(HeaderPrefix + digits, ":") == ["Content-Length", " " + digits]
  {
    var line := HeaderPrefix + digits;
    assert line[..14] == "Content-Length";
    forall j | 0 <= j < 14 ensures line[j] != ':' {
      assert line[j] == HeaderPrefix[j];
    }
    IndexOfAt(line, ":", 14);
    var value := line[15..];
    assert value == " " + digits;
    forall i | 0 <= i < |value| ensures value[i] != ':' {
      if i > 0 {
        assert value[i] == digits[i - 1];
      }
    }
    SplitWithout(value, ":");
  }

  lemma {:induction false} TrimSpacedDigits(digits: string)
    requires IsDigits(digits)
    ensures Trim(" " + digits) == digits
  {
    var s := " " + digits;
    assert s[1] == digits[0];
    assert SkipSpaces(s, 1) == 1;
    assert TrimStart(s) == digits;
    TrimDigits(digits);
  }

  /** The value of a header line the encoder writes is the number it was given. */
  lemma {:induction false} HeaderValueOfLine(n: nat)
    ensures HeaderValue(HeaderPrefix + NatToString(n)) == Some(n as int)
  {
    var digits := NatToString(n);
    NatToStringRoundTrip(n);
    HeaderLineColonSplit(digits);
    TrimSpacedDigits(digits);
    ParseNumberOfNatToString(n);
  }

  /** The header line the encoder writes declares the number it was given. */
  lemma {:induction false} DeclaredLengthOfHeader(n: nat)
    ensures DeclaredLength(HeaderPrefix + NatToString(n)) == Some(n)
  {
    var line := HeaderPrefix + NatToString(n);
    NatToStringRoundTrip(n);
    HeaderLineIsOneLine(n);
    HeaderLineFound(line);
    HeaderValueOfLine(n);
  }

  /** A decoder understands the encoder when it reads back the length from
      every header line the encoder writes. */
  ghost predicate ReadsEncodedHeaders(dec: Decoder) {
    forall n: nat :: dec.contentLength(HeaderPrefix + NatToString(n)) == Some(n)
  }

  /** The source's header reader understands every header line the encoder writes. */
  lemma {:induction false} SourceDecoderReadsHeaders(m: Measure)
    ensures ReadsEncodedHeaders(SourceDecoder(m))
  {
    forall n: nat ensures DeclaredLength(HeaderPrefix + NatToString(n)) == Some(n) {
      DeclaredLengthOfHeader(n);
    }
  }

  /** A header line holds no carriage return. */
  lemma {:induction false} HeaderLineHasNoReturn(n: nat)
    ensures forall i :: 0 <= i < |HeaderPrefix + NatToString(n)| ==> (HeaderPrefix + NatToString(n))[i] != '\r'
  {
    var digits := NatToString(n);
    NatToStringRoundTrip(n);
    var line := HeaderPrefix + digits;
    forall i | 0 <= i < |line| ensures line[i] != '\r' {
      if i >= |HeaderPrefix| {
        assert line[i] == digits[i - |HeaderPrefix|];
      }
    }
  }

  /** The first header terminator of an encoded frame followed by anything
      is the one right after its header line. */
  lemma {:induction false} EncodedHeaderEnd(body: string, tail: string)
    ensures IndexOf(EncodeFrame(body) + tail, HeaderTerminator) == Some(|HeaderLine(body)|)
  {
    var line := HeaderLine(body);
    var s := EncodeFrame(body) + tail;
    HeaderLineHasNoReturn(Utf8Length(body));
    assert s == line + (HeaderTerminator + body + tail);
    forall j | 0 <= j < |line| ensures s[j] != HeaderTerminator[0] {
      assert s[j] == line[j];
    }
    assert s[|line|..|line| + |HeaderTerminator|] == HeaderTerminator;
    IndexOfAt(s, HeaderTerminator, |line|);
  }

  lemma {:induction false} EncodedHeaderText(body: string, tail: string)
    ensures (EncodeFrame(body) + tail)[..|HeaderLine(body)|] == HeaderLine(body)
  {
    var s := EncodeFrame(body) + tail;
    assert s == HeaderLine(body) + (HeaderTerminator + body + tail);
  }

  lemma {:induction false} EncodedBodyText(body: string, tail: string)
    ensures (EncodeFrame(body) + tail)[|HeaderLine(body)| + |HeaderTerminator|..] == body + tail
  {
    var s := EncodeFrame(body) + tail;
    assert s == HeaderLine(body) + HeaderTerminator + (body + tail);
  }

  /** The header of an encoded frame, followed by anything, declares the
      UTF-8 length of the body. */
  lemma {:induction false} EncodedDeclaredLength(body: string, tail: string, dec: Decoder)
    requires ReadsEncodedHeaders(dec)
    ensures dec.contentLength((EncodeFrame(body) + tail)[..|HeaderLine(body)|]) == Some(Utf8Length(body))
  {
    EncodedHeaderText(body, tail);
  }

  /** The body length the decoder finds after an encoded header, when the
      decoder counts in the unit the body's declared length uses. */
  lemma {:induction false} Utf8PrefixOfConcat(body: string, tail: string)
    ensures Utf8Prefix(body + tail, Utf8Length(body)) == Some(|body|)
    decreases |body|
  {
    if |body| > 0 {
      assert (body + tail)[1..] == body[1..] + tail;
      Utf8PrefixOfConcat(body[1..], tail);
    } else {
      assert Utf8Length(body) == 0;
    }
  }

  /** A measure agrees with the encoder on `body` when it counts the body as
      the number of UTF-8 bytes the header declares. */
  predicate AgreesWithEncoder(body: string, m: Measure) {
    Measured(body, m) == Utf8Length(body)
  }

  /** Byte counting agrees with the encoder on every body; string counting
      only on ASCII bodies. */
  lemma {:induction false} MeasureAgreement(body: string)
    ensures AgreesWithEncoder(body, Utf8Bytes)
    ensures IsAscii(body) ==> AgreesWithEncoder(body, StringUnits)
  {
    Utf8LengthBounds(body);
  }

  /** The decoder finds the whole body after an encoded header whenever it
      counts in the unit the header declares. */
  lemma {:induction false} EncodedBodyLength(body: string, tail: string, m: Measure)
    requires AgreesWithEncoder(body, m)
    ensures BodyLength((EncodeFrame(body) + tail)[|HeaderLine(body)| + |HeaderTerminator|..], Utf8Length(body), m)
            == Some(|body|)
  {
    EncodedBodyText(body, tail);
    if m.Utf8Bytes? {
      Utf8PrefixOfConcat(body, tail);
    }
  }

  lemma {:induction false} EncodedBodySlice(body: string, tail: string)
    ensures var start := |HeaderLine(body)| + |HeaderTerminator|;
            (EncodeFrame(body) + tail)[start..start + |body|] == body
  {
    var s := EncodeFrame(body) + tail;
    assert s == HeaderLine(body) + HeaderTerminator + body + tail;
  }

  /** An encoded frame followed by anything decodes to its body first. */
  lemma {:induction false} NextFrameOfEncoded(body: string, tail: string, dec: Decoder)
    requires ReadsEncodedHeaders(dec) && AgreesWithEncoder(body, dec.measure)
    ensures NextFrame(EncodeFrame(body) + tail, dec) == Some(Frame(body, |EncodeFrame(body)|))
  {
    var s := EncodeFrame(body) + tail;
    EncodedHeaderEnd(body, tail);
    EncodedDeclaredLength(body, tail, dec);
    EncodedBodyLength(body, tail, dec.measure);
    EncodedBodySlice(body, tail);
    NextFrameAt(s, dec, |HeaderLine(body)|, Utf8Length(body), |body|);
  }

  /** The concatenation of the frames of a sequence of bodies. */
  function EncodeAll(bodies: seq<string>): string
    decreases |bodies|
  {
    if |bodies| == 0 then "" else EncodeFrame(bodies[0]) + EncodeAll(bodies[1..])
  }

  /** Round trip: a stream of encoded frames decodes to its bodies, in order,
      with nothing left over, whenever the decoder reads the encoder's headers
      and counts every body in the unit the encoder declares. */
  lemma {:induction false} DecodeEncodeAll(bodies: seq<string>, dec: Decoder)
    requires ReadsEncodedHeaders(dec)
    requires forall i :: 0 <= i < |bodies| ==> AgreesWithEncoder(bodies[i], dec.measure)
    ensures DecodeFrames(EncodeAll(bodies), dec) == Decoded(bodies, "")
    decreases |bodies|
  {
    if |bodies| == 0 {
      IndexOfAbsent("", HeaderTerminator);
    } else {
      var tail := EncodeAll(bodies[1..]);
      NextFrameOfEncoded(bodies[0], tail, dec);
      assert (EncodeFrame(bodies[0]) + tail)[|EncodeFrame(bodies[0])|..] == tail;
      DecodeEncodeAll(bodies[1..], dec);
      assert [bodies[0]] + bodies[1..] == bodies;
    }
  }

  /** The round trip of the source's decoder as written, for ASCII bodies. */
  lemma {:induction false} AsciiRoundTripAsWritten(bodies: seq<string>)
    requires forall i :: 0 <= i < |bodies| ==> IsAscii(bodies[i])
    ensures DecodeFrames(EncodeAll(bodies), SourceDecoder(StringUnits)) == Decoded(bodies, "")
  {
    SourceDecoderReadsHeaders(StringUnits);
    forall i | 0 <= i < |bodies| ensures AgreesWithEncoder(bodies[i], StringUnits) {
      MeasureAgreement(bodies[i]);
    }
    DecodeEncodeAll(bodies, SourceDecoder(StringUnits));
  }

  /** The round trip of the byte-counting decoder, for any bodies. */
  lemma {:induction false} Utf8RoundTrip(bodies: seq<string>)
    ensures DecodeFrames(EncodeAll(bodies), SourceDecoder(Utf8Bytes)) == Decoded(bodies, "")
  {
    SourceDecoderReadsHeaders(Utf8Bytes);
    forall i | 0 <= i < |bodies| ensures AgreesWithEncoder(bodies[i], Utf8Bytes) {
      MeasureAgreement(bodies[i]);
    }
    DecodeEncodeAll(bodies, SourceDecoder(Utf8Bytes));
  }

  /** Text of fewer UTF-8 bytes than declared never holds a complete body. */
  lemma {:induction false} BodyLengthShort(s: string, n: nat, m: Measure)
    requires Utf8Length(s) < n
    ensures BodyLength(s, n, m).None?
  {
    var r := BodyLength(s, n, m);
    if r.Some? {
      var k := r.value;
      assert s == s[..k] + s[k..];
      Utf8LengthConcat(s[..k], s[k..]);
      Utf8LengthBounds(s[..k]);
      assert false;
    }
  }

  lemma {:induction false} Utf8PrefixExtend(s: string, y: string, n: nat)
    requires Utf8Prefix(s, n).Some?
    ensures Utf8Prefix(s + y, n) == Utf8Prefix(s, n)
    decreases |s|
  {
    if n != 0 {
      assert (s + y)[1..] == s[1..] + y;
      Utf8PrefixExtend(s[1..], y, n - Utf8Width(s[0]));
    }
  }

  /** A body found in a buffer is found unchanged once more text arrives. */
  lemma {:induction false} BodyLengthExtend(s: string, y: string, n: nat, m: Measure)
    requires BodyLength(s, n, m).Some?
    ensures BodyLength(s + y, n, m) == BodyLength(s, n, m)
  {
    if m.Utf8Bytes? {
      Utf8PrefixExtend(s, y, n);
    }
  }

  /** The frame of a one-character body whose character takes two bytes. */
  lemma {:induction false} EncodedTwoByteBody()
    ensures EncodeFrame("é") == "Content-Length: 2\r\n\r\né"
  {
    assert Utf8Length("é") == 2;
    assert NatToString(2) == "2";
  }

  /** Counting string units, a decoder leaves that frame in the buffer for
      good: it waits for two characters after the header where only one will
      ever come. */
  lemma {:induction false} StringUnitsStall(dec: Decoder)
    requires ReadsEncodedHeaders(dec) && dec.measure == StringUnits
    ensures DecodeFrames(EncodeFrame("é"), dec) == Decoded([], EncodeFrame("é"))
  {
    var body := "é";
    var s := EncodeFrame(body);
    EncodedTwoByteBody();
    assert s + "" == s;
    EncodedHeaderEnd(body, "");
    EncodedDeclaredLength(body, "", dec);
    var h := |HeaderLine(body)|;
    assert |s[h + |HeaderTerminator|..]| == 1;
    NextFrameIncomplete(s, dec, h, 2);
  }

  /** A body of one two-byte character: the source's decoder as written never
      delivers it, while the byte-counting decoder does. */
  lemma {:induction false} AsWrittenRoundTripFails()
    ensures EncodeFrame("é") == "Content-Length: 2\r\n\r\né"
    ensures DecodeFrames(EncodeFrame("é"), SourceDecoder(StringUnits)) == Decoded([], EncodeFrame("é"))
    ensures DecodeFrames(EncodeFrame("é"), SourceDecoder(Utf8Bytes)) == Decoded(["é"], "")
  {
    EncodedTwoByteBody();
    SourceDecoderReadsHeaders(StringUnits);
    StringUnitsStall(SourceDecoder(StringUnits));
    Utf8RoundTrip(["é"]);
    assert EncodeAll(["é"]) == EncodeFrame("é") + "";
    assert EncodeFrame("é") + "" == EncodeFrame("é");
  }

  /** A frame cut inside its header has no header terminator yet. */
  lemma {:induction false} TruncatedHeaderHasNoEnd(body: string, p: nat)
    requires p < |HeaderLine(body)| + |HeaderTerminator|
    ensures IndexOf(EncodeFrame(body)[..p], HeaderTerminator).None?
  {
    var full := EncodeFrame(body);
    EncodedHeaderEnd(body, "");
    assert full + "" == full;
    IndexOfCut(full, HeaderTerminator, p);
  }

  /** A frame cut inside its body still shows its whole header. */
  lemma {:induction false} TruncatedBodyHeader(body: string, p: nat, dec: Decoder)
    requires ReadsEncodedHeaders(dec)
    requires |HeaderLine(body)| + |HeaderTerminator| <= p <= |EncodeFrame(body)|
    ensures IndexOf(EncodeFrame(body)[..p], HeaderTerminator) == Some(|HeaderLine(body)|)
    ensures dec.contentLength(EncodeFrame(body)[..p][..|HeaderLine(body)|]) == Some(Utf8Length(body))
  {
    var full := EncodeFrame(body);
    var h := |HeaderLine(body)|;
    EncodedHeaderEnd(body, "");
    EncodedDeclaredLength(body, "", dec);
    assert full + "" == full;
    IndexOfPrefix(full, HeaderTerminator, p);
    assert full[..p][..h] == full[..h];
  }

  /** A frame cut inside its body is missing some of it. */
  lemma {:induction false} TruncatedBodyShort(body: string, p: nat)
    requires |HeaderLine(body)| + |HeaderTerminator| <= p < |EncodeFrame(body)|
    ensures Utf8Length(EncodeFrame(body)[..p][|HeaderLine(body)| + |HeaderTerminator|..]) < Utf8Length(body)
  {
    var full := EncodeFrame(body);
    var start := |HeaderLine(body)| + |HeaderTerminator|;
    var partial := full[..p][start..];
    EncodedBodyText(body, "");
    assert full + "" == full;
    assert partial == body[..p - start];
    assert body == partial + body[p - start..];
    Utf8LengthConcat(partial, body[p - start..]);
    Utf8LengthBounds(body[p - start..]);
  }

  /** A frame missing any of its tail is left in the buffer untouched. */
  lemma {:induction false} TruncatedFrameUntouched(body: string, p: nat, dec: Decoder)
    requires ReadsEncodedHeaders(dec)
    requires p < |EncodeFrame(body)|
    ensures DecodeFrames(EncodeFrame(body)[..p], dec) == Decoded([], EncodeFrame(body)[..p])
  {
    var q := EncodeFrame(body)[..p];
    var h := |HeaderLine(body)|;
    if p < h + |HeaderTerminator| {
      TruncatedHeaderHasNoEnd(body, p);
      NextFrameNoTerminator(q, dec);
    } else {
      TruncatedBodyHeader(body, p, dec);
      TruncatedBodyShort(body, p);
      BodyLengthShort(q[h + |HeaderTerminator|..], Utf8Length(body), dec.measure);
      NextFrameIncomplete(q, dec, h, Utf8Length(body));
    }
  }

  /** Decoding stops at once, leaving the whole buffer, when it holds no
      header terminator. */
  lemma {:induction false} NoTerminatorNoFrames(buffer: string, dec: Decoder)
    requires forall j :: 0 <= j <= |buffer| ==> !MatchesAt(buffer, HeaderTerminator, j)
    ensures DecodeFrames(buffer, dec) == Decoded([], buffer)
  {
    NextFrameNoTerminator(buffer, dec);
  }

  /** A header block without a usable content length stops decoding with
      the frame left in the buffer. */
  lemma {:induction false} BadHeaderStops(buffer: string, dec: Decoder)
    requires IndexOf(buffer, HeaderTerminator).Some?
    requires dec.contentLength(buffer[..IndexOf(buffer, HeaderTerminator).value]).None?
    ensures DecodeFrames(buffer, dec) == Decoded([], buffer)
  {
  }

  /** A frame found in a buffer is found unchanged once more text arrives. */
  lemma {:induction false} NextFrameExtend(s: string, y: string, dec: Decoder)
    requires NextFrame(s, dec).Some?
    ensures NextFrame(s + y, dec) == NextFrame(s, dec)
  {
    var h := IndexOf(s, HeaderTerminator).value;
    var n := dec.contentLength(s[..h]).value;
    var start := h + |HeaderTerminator|;
    var k := BodyLength(s[start..], n, dec.measure).value;
    IndexOfExtend(s, y, HeaderTerminator);
    assert (s + y)[..h] == s[..h];
    assert (s + y)[start..] == s[start..] + y;
    BodyLengthExtend(s[start..], y, n, dec.measure);
    assert (s + y)[start..start + k] == s[start..start + k];
    NextFrameAt(s + y, dec, h, n, k);
  }

  /** Decoding a buffer in two parts: what the first part yields, then what
      its rest followed by the second part yields. */
  lemma {:induction false} DecodeAppend(x: string, y: string, dec: Decoder)
    ensures var d := DecodeFrames(x, dec);
            var e := DecodeFrames(d.rest + y, dec);
            DecodeFrames(x + y, dec) == Decoded(d.requests + e.requests, e.rest)
    decreases |x|
  {
    match NextFrame(x, dec)
    case None =>
      AppendEmpty(DecodeFrames(x + y, dec).requests);
    case Some(f) =>
      NextFrameExtend(x, y, dec);
      DropOfAppend(x, y, f.consumed);
      DecodeAppend(x[f.consumed..], y, dec);
      var d := DecodeFrames(x[f.consumed..], dec);
      ConsAppend(f.body, d.requests, DecodeFrames(d.rest + y, dec).requests);
  }

  lemma {:induction false} DropOfAppend(x: string, y: string, k: nat)
    requires k <= |x|
    ensures (x + y)[k..] == x[k..] + y
  {
  }

  lemma {:induction false} AppendEmpty(c: seq<string>)
    ensures [] + c == c
  {
  }

  lemma {:induction false} AppendNothing(c: seq<string>)
    ensures c + [] == c
  {
  }

  lemma {:induction false} SnocAppend(a: seq<string>, b: string, c: seq<string>)
    ensures a + ([b] + c) == (a + [b]) + c
  {
  }

  lemma {:induction false} ConsAppend(a: string, b: seq<string>, c: seq<string>)
    ensures [a] + (b + c) == ([a] + b) + c
  {
  }

  /** The buffer-update step run for each chunk read from stdin: append the
      chunk, decode, and keep the rest as the new buffer. */
  function Receive(buffer: string, chunk: string, dec: Decoder): (d: Decoded)
    ensures NextFrame(d.rest, dec).None?
  {
    DecodeFramesStops(buffer + chunk, dec);
    DecodeFrames(buffer + chunk, dec)
  }

  /** Feeding a sequence of chunks: the requests handed to the handler, in
      order, and the buffer left at the end. */
  function ReceiveAll(buffer: string, chunks: seq<string>, dec: Decoder): Decoded
    decreases |chunks|
  {
    if |chunks| == 0 then Decoded([], buffer)
    else
      var d := Receive(buffer, chunks[0], dec);
      var e := ReceiveAll(d.rest, chunks[1..], dec);
      Decoded(d.requests + e.requests, e.rest)
  }

  function Concat(chunks: seq<string>): string
    decreases |chunks|
  {
    if |chunks| == 0 then "" else chunks[0] + Concat(chunks[1..])
  }

  /** Chunk boundaries do not matter: feeding chunks one by one yields the
      requests, and leaves the buffer, that decoding their concatenation at
      once would. */
  lemma {:induction false} ChunkingInvariant(buffer: string, chunks: seq<string>, dec: Decoder)
    requires NextFrame(buffer, dec).None?
    ensures ReceiveAll(buffer, chunks, dec) == DecodeFrames(buffer + Concat(chunks), dec)
    decreases |chunks|
  {
    if |chunks| == 0 {
      assert buffer + "" == buffer;
    } else {
      var d := Receive(buffer, chunks[0], dec);
      ChunkingInvariant(d.rest, chunks[1..], dec);
      DecodeAppend(buffer + chunks[0], Concat(chunks[1..]), dec);
      ConcatCons(buffer, chunks);
    }
  }

  /** A stream of encoded frames split at any point into two chunks yields
      every body, in order, with an empty buffer at the end. */
  lemma {:induction false} SplitStreamDelivers(bodies: seq<string>, p: nat, dec: Decoder)
    requires ReadsEncodedHeaders(dec)
    requires forall i :: 0 <= i < |bodies| ==> AgreesWithEncoder(bodies[i], dec.measure)
    requires p <= |EncodeAll(bodies)|
    ensures var s := EncodeAll(bodies);
            ReceiveAll("", [s[..p], s[p..]], dec) == Decoded(bodies, "")
  {
    var s := EncodeAll(bodies);
    IndexOfAbsent("", HeaderTerminator);
    NextFrameNoTerminator("", dec);
    ChunkingInvariant("", [s[..p], s[p..]], dec);
    ConcatSplit(s, p);
    DecodeEncodeAll(bodies, dec);
  }

  lemma {:induction false} ConcatCons(buffer: string, chunks: seq<string>)
    requires |chunks| > 0
    ensures buffer + Concat(chunks) == (buffer + chunks[0]) + Concat(chunks[1..])
  {
  }

  lemma {:induction false} ConcatSplit(s: string, p: nat)
    requires p <= |s|
    ensures "" + Concat([s[..p], s[p..]]) == s
  {
    assert Concat([s[..p], s[p..]][1..]) == s[p..] + Concat([]);
    assert s[..p] + s[p..] == s;
  }
}

=== FILE: text.dfy ===
/**
  The JavaScript string operations the core relies on (`startsWith`,
  `indexOf`, `split`, `toLowerCase`, `trim`), decimal rendering of numbers,
  and `Number()` on decimal integer text.  A string is a `seq<char>`.
 */
module Text {
  import opened Wrappers

  predicate StartsWith(s: string, prefix: string) {
    |prefix| <= |s| && s[..|prefix|] == prefix
  }

  /** `pat` occurs in `s` at index `j`. */
  predicate MatchesAt(s: string, pat: string, j: int) {
    0 <= j && j + |pat| <= |s| && s[j..j + |pat|] == pat
  }

  /** `s.indexOf(pat)`: the first index where `pat` occurs, searching from `from`. */
  function IndexFrom(s: string, pat: string, from: nat): (r: Option<nat>)
    requires from <= |s|
    ensures r.Some? ==> from <= r.value && MatchesAt(s, pat, r.value)
    ensures r.Some? ==> forall j :: from <= j < r.value ==> !MatchesAt(s, pat, j)
    ensures r.None? ==> forall j :: from <= j <= |s| ==> !MatchesAt(s, pat, j)
    decreases |s| - from
  {
    if MatchesAt(s, pat, from) then Some(from)
    else if from == |s| then None
    else IndexFrom(s, pat, from + 1)
  }

  function IndexOf(s: string, pat: string): (r: Option<nat>)
    ensures r.Some? ==> MatchesAt(s, pat, r.value)
    ensures r.Some? ==> forall j :: 0 <= j < r.value ==> !MatchesAt(s, pat, j)
    ensures r.None? ==> forall j :: 0 <= j <= |s| ==> !MatchesAt(s, pat, j)
  {
    IndexFrom(s, pat, 0)
  }

  /** The first occurrence is at `k` when it occurs there and `s` holds no
      `pat[0]` before `k`. */
  lemma {:induction false} IndexOfAt(s: string, pat: string, k: nat)
    requires |pat| > 0 && MatchesAt(s, pat, k)
    requires forall j :: 0 <= j < k ==> s[j] != pat[0]
    ensures IndexOf(s, pat) == Some(k)
  {
    forall j | 0 <= j < k ensures !MatchesAt(s, pat, j) {
      if j + |pat| <= |s| {
        assert s[j..j + |pat|][0] == s[j];
      }
    }
  }

  /** A first occurrence inside `s` is still the first one once `s` is extended. */
  lemma {:induction false} IndexOfExtend(s: string, y: string, pat: string)
    requires IndexOf(s, pat).Some?
    ensures IndexOf(s + y, pat) == IndexOf(s, pat)
  {
    var k := IndexOf(s, pat).value;
    assert (s + y)[k..k + |pat|] == s[k..k + |pat|];
    assert MatchesAt(s + y, pat, k);
    forall j | 0 <= j < k ensures !MatchesAt(s + y, pat, j) {
      assert !MatchesAt(s, pat, j);
      assert (s + y)[j..j + |pat|] == s[j..j + |pat|];
    }
  }

  /** The first occurrence is still the first one in any prefix that holds it. */
  lemma {:induction false} IndexOfPrefix(s: string, pat: string, p: nat)
    requires IndexOf(s, pat).Some? && IndexOf(s, pat).value + |pat| <= p <= |s|
    ensures IndexOf(s[..p], pat) == IndexOf(s, pat)
  {
    var k := IndexOf(s, pat).value;
    assert s[..p][k..k + |pat|] == s[k..k + |pat|];
    assert MatchesAt(s[..p], pat, k);
    forall j | 0 <= j < k ensures !MatchesAt(s[..p], pat, j) {
      assert !MatchesAt(s, pat, j);
      if j + |pat| <= p {
        assert s[..p][j..j + |pat|] == s[j..j + |pat|];
      }
    }
  }

  /** A prefix that ends before the first occurrence is complete holds no occurrence. */
  lemma {:induction false} IndexOfCut(s: string, pat: string, p: nat)
    requires IndexOf(s, pat).Some? && p < IndexOf(s, pat).value + |pat| && p <= |s|
    ensures IndexOf(s[..p], pat).None?
  {
    var k := IndexOf(s, pat).value;
    forall j | 0 <= j <= p ensures !MatchesAt(s[..p], pat, j) {
      if j + |pat| <= p {
        assert !MatchesAt(s, pat, j);
        assert s[..p][j..j + |pat|] == s[j..j + |pat|];
      }
    }
  }

  /** A string without `pat[0]` has no occurrence of `pat`. */
  lemma {:induction false} IndexOfAbsent(s: string, pat: string)
    requires |pat| > 0 && forall i :: 0 <= i < |s| ==> s[i] != pat[0]
    ensures IndexOf(s, pat) == None
  {
    forall j | 0 <= j <= |s| ensures !MatchesAt(s, pat, j) {
      if j + |pat| <= |s| {
        assert s[j..j + |pat|][0] == s[j];
      }
    }
  }

  /** `s.split(sep)` for a non-empty separator. */
  function Split(s: string, sep: string): (parts: seq<string>)
    requires |sep| > 0
    ensures |parts| >= 1
    decreases |s|
  {
    match IndexOf(s, sep)
    case None => [s]
    case Some(i) => [s[..i]] + Split(s[i + |sep|..], sep)
  }

  lemma {:induction false} SplitWithout(s: string, sep: string)
    requires |sep| > 0 && forall i :: 0 <= i < |s| ==> s[i] != sep[0]
    ensures Split(s, sep) == [s]
  {
    IndexOfAbsent(s, sep);
  }

  /** `toLowerCase()` on the ASCII range, the only characters that lower-case
      to the letters of an HTTP header name. */
  function AsciiLower(c: char): char {
    if 'A' <= c <= 'Z' then (c as int + 32) as char else c
  }

  function LowerCase(s: string): (r: string)
    ensures |r| == |s|
    ensures forall i :: 0 <= i < |s| ==> r[i] == AsciiLower(s[i])
  {
    seq(|s|, i requires 0 <= i < |s| => AsciiLower(s[i]))
  }

  /** The characters `trim()` and `Number()` strip: JavaScript's WhiteSpace
      and LineTerminator productions. */
  predicate IsJsSpace(c: char) {
    var k := c as int;
    (0x09 <= k <= 0x0D) || k == 0x20 || k == 0xA0 || k == 0x1680
    || (0x2000 <= k <= 0x200A) || k == 0x2028 || k == 0x2029 || k == 0x202F
    || k == 0x205F || k == 0x3000 || k == 0xFEFF
  }

  /** The index of the first character of `s` at or after `i` that is not
      white space. */
  function SkipSpaces(s: string, i: nat): (r: nat)
    requires i <= |s|
    ensures i <= r <= |s|
    ensures r < |s| ==> !IsJsSpace(s[r])
    decreases |s| - i
  {
    if i < |s| && IsJsSpace(s[i]) then SkipSpaces(s, i + 1) else i
  }

  /** The index just past the last character of `s[..e]` that is not white space. */
  function SkipSpacesBack(s: string, e: nat): (r: nat)
    requires e <= |s|
    ensures r <= e
    ensures r > 0 ==> !IsJsSpace(s[r - 1])
    decreases e
  {
    if e > 0 && IsJsSpace(s[e - 1]) then SkipSpacesBack(s, e - 1) else e
  }

  function TrimStart(s: string): (r: string)
    ensures |r| <= |s| && r == s[|s| - |r|..]
    ensures |r| > 0 ==> !IsJsSpace(r[0])
  {
    s[SkipSpaces(s, 0)..]
  }

  function TrimEnd(s: string): (r: string)
    ensures |r| <= |s| && r == s[..|r|]
    ensures |r| > 0 ==> !IsJsSpace(r[|r| - 1])
  {
    s[..SkipSpacesBack(s, |s|)]
  }

  /** `s.trim()`. */
  function Trim(s: string): string {
    TrimEnd(TrimStart(s))
  }

  predicate IsDigit(c: char) {
    '0' <= c <= '9'
  }

  predicate IsDigits(s: string) {
    |s| > 0 && forall i :: 0 <= i < |s| ==> IsDigit(s[i])
  }

  function DigitChar(d: nat): char
    requires d < 10
  {
    ('0' as int + d) as char
  }

  /** The value of a run of decimal digits. */
  function DigitsValue(s: string): nat
    requires IsDigits(s)
    decreases |s|
  {
    var last := (s[|s| - 1] as int - '0' as int) as nat;
    if |s| == 1 then last else 10 * DigitsValue(s[..|s| - 1]) + last
  }

  /** The decimal rendering of `n`, as a template literal `${n}` gives it. */
  function NatToString(n: nat): string
    decreases n
  {
    (if n < 10 then "" else NatToString(n / 10)) + [DigitChar(n % 10)]
  }

  lemma {:induction false} NatToStringRoundTrip(n: nat)
    ensures IsDigits(NatToString(n))
    ensures DigitsValue(NatToString(n)) == n
    decreases n
  {
    var s := NatToString(n);
    if n < 10 {
      assert s == [DigitChar(n)];
    } else {
      NatToStringRoundTrip(n / 10);
      var p := NatToString(n / 10);
      assert s == p + [DigitChar(n % 10)];
      assert s[..|s| - 1] == p;
      assert forall i :: 0 <= i < |s| ==> IsDigit(s[i]) by {
        forall i | 0 <= i < |s| ensures IsDigit(s[i]) {
          if i < |p| { assert s[i] == p[i]; }
        }
      }
    }
  }

  /**
    `Number(s)` restricted to the texts this model distinguishes: after
    trimming, the empty text is 0 and an optionally signed run of decimal
    digits is its value; every other text is NaN, here `None`.
   */
  function ParseNumber(s: string): (r: Option<int>)
    ensures IsDigits(Trim(s)) ==> r == Some(DigitsValue(Trim(s)))
    ensures Trim(s) == "" ==> r == Some(0)
  {
    var t := Trim(s);
    if t == "" then Some(0)
    else if IsDigits(t) then Some(DigitsValue(t))
    else if t[0] == '+' && IsDigits(t[1..]) then Some(DigitsValue(t[1..]))
    else if t[0] == '-' && IsDigits(t[1..]) then Some(0 - DigitsValue(t[1..]))
    else None
  }

  /** Digits are not white space, so trimming leaves a run of them alone. */
  lemma {:induction false} TrimDigits(s: string)
    requires IsDigits(s)
    ensures TrimStart(s) == s && TrimEnd(s) == s && Trim(s) == s
  {
    assert !IsJsSpace(s[0]) && !IsJsSpace(s[|s| - 1]);
    assert SkipSpaces(s, 0) == 0;
    assert SkipSpacesBack(s, |s|) == |s|;
  }

  /** A rendered number reads back as itself. */
  lemma {:induction false} ParseNumberOfNatToString(n: nat)
    ensures ParseNumber(NatToString(n)) == Some(n as int)
  {
    NatToStringRoundTrip(n);
    TrimDigits(NatToString(n));
  }
}

=== FILE: tool_errors.dfy ===
/**
  The structured error an MCP tool call fails with
  (packages/gemini-files-mcp/src/errors.ts).
 */
module ToolErrors {
  import opened Wrappers
  import opened Values
  import opened Errors

  /** StructuredToolError; `details` is `Undefined` where the payload has none. */
  datatype ToolError = ToolError(code: string, message: string, retryable: bool, details: Value)

  /** The details of a GeminiFilesError as the payload carries them: wrapped
      together with the status when there is one. */
  function PayloadDetails(e: FilesError): (d: Value)
    ensures e.Status().None? ==> d == e.details
    ensures e.Status().Some? ==>
              Prop(d, "status") == Num(e.Status().value) && Prop(d, "details") == e.details
  {
    match e.Status()
    case Some(s) => Obj(map["status" := Num(s), "details" := e.details])
    case None => e.details
  }

  /**
    mapToolError: a validation failure keeps its message and details; any
    other GeminiFilesError keeps its code, message and retryable flag; any
    other `Error` is internal with its message; anything else is internal
    with a generic message.
   */
  function MapToolError(error: Value): (t: ToolError)
    ensures IsValidationInstance(error) ==>
              t == ToolError("VALIDATION_ERROR", error.err.message, false, error.err.details)
    ensures error.FilesErrorInstance? ==>
              && t.code == CodeName(error.err.Code())
              && t.message == error.err.message
              && t.retryable == error.err.Retryable()
              && t.details == PayloadDetails(error.err)
    ensures !error.FilesErrorInstance? ==> t.code == "INTERNAL_ERROR" && !t.retryable && t.details == Undefined
    ensures IsErrorInstance(error) && !error.FilesErrorInstance? ==> t.message == ErrorMessage(error)
    ensures !IsErrorInstance(error) ==> t.message == "Unknown error"
  {
    if IsValidationInstance(error) then
      ToolError("VALIDATION_ERROR", error.err.message, false, error.err.details)
    else if error.FilesErrorInstance? then
      var e := error.err;
      ToolError(CodeName(e.Code()), e.message, e.Retryable(),
                if e.Status().Some? then Obj(map["status" := Num(e.Status().value), "details" := e.details])
                else e.details)
    else if IsErrorInstance(error) then
      ToolError("INTERNAL_ERROR", ErrorMessage(error), false, Undefined)
    else
      ToolError("INTERNAL_ERROR", "Unknown error", false, Undefined)
  }

  /** Policy rejections and backend failures are never conflated: the payload
      says VALIDATION_ERROR only for a failure that carried that code, and a
      retryable payload only for a GeminiFilesError that was retryable. */
  lemma {:induction false} ToolErrorKeepsKinds(error: Value)
    ensures MapToolError(error).code == "VALIDATION_ERROR" <==>
              error.FilesErrorInstance? && error.err.Code() == ValidationError
    ensures MapToolError(error).retryable ==> error.FilesErrorInstance? && error.err.Retryable()
  {
  }

  /** What the files client rejects with reaches the MCP caller with the code
      and retry flag the classifier chose, and its status alongside. */
  lemma {:induction false} ToolErrorOfClassified(thrown: Value)
    requires !thrown.FilesErrorInstance?
    ensures var e := NormalizeGeminiFilesError(thrown);
            var t := MapToolError(FilesErrorInstance(e));
            && t.code == CodeName(e.Code())
            && t.retryable == RetryPolicy(e.Code(), ParseStatus(thrown))
            && (ParseStatus(thrown).Some? ==> Prop(t.details, "status") == Num(ParseStatus(thrown).value))
            && (ParseStatus(thrown).None? ==> t.details == thrown)
  {
  }
}

=== FILE: values.dfy ===
/**
  JavaScript values as the two front-ends see them: whatever a backend call
  rejects with, whatever a JSON-RPC request carries, and the error classes of
  packages/common/src/errors.ts.  The two are declared together because a
  GeminiFilesError carries arbitrary details and is itself a value.
 */
module Values {
  import opened Wrappers

  /** The five machine-readable error codes. */
  datatype ErrorCode = ValidationError | AuthError | ApiError | NetworkError | InternalError

  function CodeName(c: ErrorCode): string {
    match c
    case ValidationError => "VALIDATION_ERROR"
    case AuthError => "AUTH_ERROR"
    case ApiError => "API_ERROR"
    case NetworkError => "NETWORK_ERROR"
    case InternalError => "INTERNAL_ERROR"
  }

  /**
    An instance of GeminiFilesError.  `ValidationFailure` is the
    GeminiFilesValidationError subclass, whose code, retryable flag and status
    are fixed; `FilesFailure` is the base class built with explicit options.
   */
  datatype FilesError =
    | ValidationFailure(message: string, details: Value)
    | FilesFailure(code: ErrorCode, message: string, retryable: bool, status: Option<int>, details: Value)
  {
    function Code(): ErrorCode {
      match this
      case ValidationFailure(_, _) => ValidationError
      case FilesFailure(c, _, _, _, _) => c
    }

    function Retryable(): bool {
      match this
      case ValidationFailure(_, _) => false
      case FilesFailure(_, _, r, _, _) => r
    }

    function Status(): Option<int> {
      match this
      case ValidationFailure(_, _) => None
      case FilesFailure(_, _, _, s, _) => s
    }
  }

  /**
    A JavaScript value.  Numbers are integers in this model.  `ErrorInstance`
    is an `Error` that is not a GeminiFilesError; its message is an own
    property and `props` holds its other own properties.
    `CommanderErrorInstance` is the error the command-line parser throws.
   */
  datatype Value =
    | Undefined
    | Null
    | Bool(b: bool)
    | Num(n: int)
    | Str(s: string)
    | Arr(elems: seq<Value>)
    | Obj(props: map<string, Value>)
    | ErrorInstance(errorMessage: string, errorProps: map<string, Value>)
    | FilesErrorInstance(err: FilesError)
    | CommanderErrorInstance(commanderCode: string, commanderMessage: string)

  /** JavaScript truthiness. */
  predicate Truthy(v: Value) {
    match v
    case Undefined => false
    case Null => false
    case Bool(b) => b
    case Num(n) => n != 0
    case Str(s) => s != ""
    case _ => true
  }

  /** `v` is a non-null object (`typeof v === 'object' && v !== null`). */
  predicate IsObject(v: Value) {
    v.Arr? || v.Obj? || IsErrorInstance(v)
  }

  /** `v instanceof Error`. */
  predicate IsErrorInstance(v: Value) {
    v.ErrorInstance? || v.FilesErrorInstance? || v.CommanderErrorInstance?
  }

  /** `v instanceof GeminiFilesValidationError`. */
  predicate IsValidationInstance(v: Value) {
    v.FilesErrorInstance? && v.err.ValidationFailure?
  }

  function OptionalNumber(s: Option<int>): Value {
    match s
    case Some(n) => Num(n)
    case None => Undefined
  }

  /**
    Property access `v[key]` for the keys the model reads; a missing property
    and a property of a primitive are `Undefined`.  The `name` of an error is
    the one its class sets.
   */
  function Prop(v: Value, key: string): Value {
    match v
    case Obj(props) => if key in props then props[key] else Undefined
    case ErrorInstance(msg, props) =>
      if key == "message" then Str(msg)
      else if key in props then props[key]
      else if key == "name" then Str("Error")
      else Undefined
    case FilesErrorInstance(e) =>
      if key == "message" then Str(e.message)
      else if key == "name" then
        Str(if e.ValidationFailure? then "GeminiFilesValidationError" else "GeminiFilesError")
      else if key == "code" then Str(CodeName(e.Code()))
      else if key == "retryable" then Bool(e.Retryable())
      else if key == "status" then OptionalNumber(e.Status())
      else if key == "details" then e.details
      else Undefined
    case CommanderErrorInstance(code, msg) =>
      if key == "message" then Str(msg)
      else if key == "code" then Str(code)
      else if key == "name" then Str("CommanderError")
      else Undefined
    case _ => Undefined
  }

  /** The message of an `Error` instance. */
  function ErrorMessage(v: Value): string
    requires IsErrorInstance(v)
  {
    match v
    case ErrorInstance(msg, _) => msg
    case FilesErrorInstance(e) => e.message
    case CommanderErrorInstance(_, msg) => msg
  }

  /** `typeof v === 'string' ? v : undefined`. */
  function MaybeString(v: Value): (r: Option<string>)
    ensures r.Some? <==> v.Str?
    ensures r.Some? ==> v == Str(r.value)
  {
    if v.Str? then Some(v.s) else None
  }

  /** `typeof v === 'number' ? v : undefined`. */
  function MaybeNumber(v: Value): (r: Option<int>)
    ensures r.Some? <==> v.Num?
    ensures r.Some? ==> v == Num(r.value)
  {
    if v.Num? then Some(v.n) else None
  }

  /** A GeminiFilesValidationError as its constructor builds it. */
  function NewValidationError(message: string, details: Value): (e: FilesError)
    ensures e.Code() == ValidationError && !e.Retryable() && e.Status() == None
    ensures e.message == message && e.details == details
    ensures IsValidationInstance(FilesErrorInstance(e))
  {
    ValidationFailure(message, details)
  }

  /** A thrown GeminiFilesValidationError without details. */
  function Invalid(message: string): Value {
    FilesErrorInstance(NewValidationError(message, Undefined))
  }
}

=== FILE: wrappers.dfy ===
/** Failure-carrying datatypes shared by every module of the model. */
module Wrappers {

  /** An optional value: JavaScript's `undefined` is `None`. */
  datatype Option<+T> = None | Some(value: T) {

    function GetOr(default: T): T {
      match this
      case Some(v) => v
      case None => default
    }

    /** JavaScript's `a ?? b` when `b` is itself optional. */
    function OrElse(other: Option<T>): Option<T> {
      if Some? then this else other
    }
  }

  /** The value of an operation, or the error it throws. */
  datatype Result<+T, +E> = Ok(value: T) | Err(error: E)

  /** The outcome of an operation that returns nothing, or the error it throws. */
  datatype Outcome<+E> = Pass | Fail(error: E)
}
